=== FILE: README.md ===
# Boostlingo React Native bridge — a Dafny model

The Boostlingo SDK for React Native is a thin native module. It sits between
JavaScript and the Boostlingo client library (`BoostlingoSDK`). It exposes one
command per client operation: `initialize`, `getCurrentCall`, `makeVoiceCall`,
`makeVideoCall`, `hangUp`, `muteCall`, `enableVideo`, `flipCamera`,
`toggleAudioRoute`, the third-party controls, the fetches (`getProfile`,
`getCallDictionaries`, …) and `dispose`. It projects every domain object the
client returns into a JavaScript-side snapshot: a tree of maps, arrays,
strings, numbers, booleans and nulls. Call and chat callbacks from the client
become named events on the event emitter.

The model covers both platform implementations:

* the Android module (`BoostlingoSdkModule.kt`), with its `map*` projections,
  its request reader, its `cause` unwrapping, its AudioSwitch routing and its
  event subscription;
* the iOS module (`BoostlingoSdk.swift`), with its `*AsDictionary`
  projections, its forced casts and unwraps, its error-message formatting and
  its listener gate.

Modules:

| module | file | contents |
|---|---|---|
| `Wrappers` | wrappers.dfy | `Option` and `Result` |
| `Json` | json.dfy | `JVal`, the JavaScript-side snapshot, with readers and the two null conventions |
| `Engine` | engine.dfy | the client's domain types (calls, participants, languages, profile, …) and call events |
| `Errors` | errors.dfy | Android cause chains, and iOS `BLError` messages with a decimal status code |
| `Audio` | audio.dfy | AudioSwitch device kinds and the first-device-of-kind choice |
| `Events` | events.dfy | the nine supported event names and the `error` event |
| `Effects` | effects.dfy | what a command does to the outside world: engine requests, emitted events, audio operations, promise settlement, raised faults |
| `Projection` | projection.dfy | the Android `map*` projections and their decoders |
| `IosProjection` | ios_projection.dfy | the iOS `*AsDictionary` projections and their decoders |
| `AndroidBridge` | android.dfy | the Android module state and every command and callback |
| `IosBridge` | ios_bridge.dfy | the iOS module state and every command and callback |

Each projection has a decoder, and a round-trip lemma proves that the decoder
recovers the projected object. This is the model's statement that the
snapshot loses nothing the client reported. Each command is a pure function.
It takes the module's state (client present or not, subscription or listener
flag, audio switch, local video view) and returns the new state together with
the effects it produces. The client library and AudioSwitch are foreign code:
a command's call into them is an `EngineRequest` or audio effect, and their
answers (a call, a device list, an error) are parameters.

The two platforms differ in how they fail:

* An Android command whose argument is missing or mistyped raises inside its
  `try` and rejects its promise. The same happens for a command issued while
  the client is null. The model records a `Raise(fault)` effect.
* An iOS command that force-unwraps a nil client, force-casts a mistyped
  argument or indexes past the end of an argument array crashes the process.
  The model's outcome is `Trap`.

### Where the documentation and the code differ (the model follows the code)

* The documentation says that absent optional fields are sent as explicit
  nulls. That is true on Android. On iOS, assigning `nil` into a Swift
  dictionary removes the key, so absent optionals are absent keys. The model
  uses `Json.Assign` for this, and the `IosProjection` contracts state it.
* The documentation says `toggleAudioRoute` does nothing when no device of
  the requested kind is available. The Android code still calls
  `selectDevice`, handing it no device (`AndroidBridge.ToggleAudioRoute`).
* The documentation describes the additional call data as part of the call
  request. The iOS code parses `data` (and crashes on a malformed entry) but
  then builds the request without it (`IosBridge.BuildCallRequest`).
* The documentation says commands issued after `dispose` fail with an error.
  On Android they reject through the null client. On iOS they crash on the
  forced unwrap (`IosBridge.DisposedClientTraps`).
* The documentation says audio routing starts before any call attempt. The
  Android `makeVideoCall` never starts the audio switch; only
  `makeVoiceCall` does (`AndroidBridge.MakeVideoCall`).
* The documentation says `dispose` ends event delivery. On iOS, `dispose`
  leaves the listener flag set (`IosBridge.Dispose`). After `dispose`, the
  module still forwards any callback it receives. Whether the disposed
  client stops calling its delegate is not modelled.

## Model

| member | source | states |
|---|---|---|
| Projection.ParticipantTypeCode | android/src/main/java/com/boostlingo/BoostlingoSdkModule.kt:260-267 | every participant type gets a code in 0..3 that decodes back to it |
| Projection.ParticipantTypeOfCode | android/src/main/java/com/boostlingo/BoostlingoSdkModule.kt:260-267 | a code decodes exactly when it is in 0..3 |
| Projection.ParticipantTypeCodeBijective | android/src/main/java/com/boostlingo/BoostlingoSdkModule.kt:260-267 | distinct participant types get distinct codes, and every code 0..3 is used |
| Projection.StateCode | android/src/main/java/com/boostlingo/BoostlingoSdkModule.kt:269-277 | every participant state gets a code in 0..4 that decodes back to it |
| Projection.StateOfCode | android/src/main/java/com/boostlingo/BoostlingoSdkModule.kt:269-277 | a code decodes exactly when it is in 0..4 |
| Projection.StateCodeBijective | android/src/main/java/com/boostlingo/BoostlingoSdkModule.kt:269-277 | distinct states get distinct codes, and every code 0..4 is used |
| Projection.ToInt32 | android/src/main/java/com/boostlingo/BoostlingoSdkModule.kt:418-431 | Kotlin's `toInt` narrowing: the result is a 32-bit value congruent to the input modulo 2^32, and values already in range are unchanged |
| Projection.ProjectImageInfo | android/src/main/java/com/boostlingo/BoostlingoSdkModule.kt:279-296 | the image map has exactly the image keys and decodes back to the image info |
| Projection.MapImageInfo | android/src/main/java/com/boostlingo/BoostlingoSdkModule.kt:279-296 | null exactly for a missing image; otherwise decodes back to it |
| Projection.ProjectParticipant | android/src/main/java/com/boostlingo/BoostlingoSdkModule.kt:222-258 | the participant map has exactly the participant keys; a third party's account number goes under `thirdPartyParticipantId` with `userAccountId` null, and the reverse for everyone else; `rating` is null exactly when there is none |
| Projection.ParticipantRoundTrip | android/src/main/java/com/boostlingo/BoostlingoSdkModule.kt:222-258 | decoding a projected participant gives back the participant |
| Projection.AccountKeyExclusive | android/src/main/java/com/boostlingo/BoostlingoSdkModule.kt:222-258 | exactly one of the two account keys is non-null, it holds the account number, and it is the third-party key exactly for third parties |
| Projection.MapParticipant | android/src/main/java/com/boostlingo/BoostlingoSdkModule.kt:222-258 | null exactly for a missing participant; otherwise decodes back to it |
| Projection.ParticipantsRoundTrip | android/src/main/java/com/boostlingo/BoostlingoSdkModule.kt:298-306 | every participant of a list survives projection and decoding |
| Projection.MapParticipants | android/src/main/java/com/boostlingo/BoostlingoSdkModule.kt:298-306 | the array keeps the list's length and order, and decodes back to the list |
| Projection.ProjectCall | android/src/main/java/com/boostlingo/BoostlingoSdkModule.kt:188-220 | the call map has exactly the call keys; `callId` is null exactly without an id; `isVideoEnabled` and `roomId` are null exactly on a voice call; participants are projected in order |
| Projection.CallRoundTrip | android/src/main/java/com/boostlingo/BoostlingoSdkModule.kt:188-220 | decoding a projected call gives back the call, including its video part |
| Projection.MapCall | android/src/main/java/com/boostlingo/BoostlingoSdkModule.kt:188-220 | null exactly for a missing call; otherwise decodes back to it |
| Projection.MapCallInjective | android/src/main/java/com/boostlingo/BoostlingoSdkModule.kt:188-220 | two calls with the same snapshot are the same call |
| Projection.ProjectLanguage | android/src/main/java/com/boostlingo/BoostlingoSdkModule.kt:358-388 | the language map has exactly the language keys; each policy order is null exactly when absent |
| Projection.LanguageRoundTrip | android/src/main/java/com/boostlingo/BoostlingoSdkModule.kt:358-388 | decoding a projected language gives back the language |
| Projection.MapLanguage | android/src/main/java/com/boostlingo/BoostlingoSdkModule.kt:358-388 | null exactly for a missing language; otherwise decodes back to it |
| Projection.LanguagesRoundTrip | android/src/main/java/com/boostlingo/BoostlingoSdkModule.kt:390-400 | every language of a list survives projection and decoding |
| Projection.MapLanguages | android/src/main/java/com/boostlingo/BoostlingoSdkModule.kt:390-400 | null exactly for a missing list; otherwise an array of the same length, element by element, that decodes back to the list |
| Projection.ProjectServiceType | android/src/main/java/com/boostlingo/BoostlingoSdkModule.kt:402-416 | the map has exactly the service-type keys and decodes back to the service type |
| Projection.MapServiceType | android/src/main/java/com/boostlingo/BoostlingoSdkModule.kt:402-416 | null exactly for a missing service type; otherwise decodes back to it |
| Projection.ProjectGender | android/src/main/java/com/boostlingo/BoostlingoSdkModule.kt:418-431 | the gender id is narrowed to 32 bits; a gender whose id already fits decodes back unchanged |
| Projection.MapGender | android/src/main/java/com/boostlingo/BoostlingoSdkModule.kt:418-431 | null exactly for a missing gender; a 32-bit id round-trips |
| Projection.GenderIdNarrowing | android/src/main/java/com/boostlingo/BoostlingoSdkModule.kt:418-431 | ids that differ by a multiple of 2^32 give the same snapshot, so the narrowing loses information |
| Projection.GendersRoundTrip | android/src/main/java/com/boostlingo/BoostlingoSdkModule.kt:418-431 | a list of genders whose ids fit in 32 bits decodes back to itself |
| Projection.ProjectCallDictionaries | android/src/main/java/com/boostlingo/BoostlingoSdkModule.kt:328-356 | the three lists keep their lengths under the dictionaries' keys |
| Projection.CallDictionariesRoundTrip | android/src/main/java/com/boostlingo/BoostlingoSdkModule.kt:328-356 | with 32-bit gender ids, the dictionaries decode back unchanged |
| Projection.MapCallDictionaries | android/src/main/java/com/boostlingo/BoostlingoSdkModule.kt:328-356 | null exactly for missing dictionaries |
| Projection.ProjectProfile | android/src/main/java/com/boostlingo/BoostlingoSdkModule.kt:453-471 | the profile map has exactly the profile keys; `imageInfo` is null exactly without an image |
| Projection.ProfileRoundTrip | android/src/main/java/com/boostlingo/BoostlingoSdkModule.kt:453-471 | decoding a projected profile, given the name Android does not send, gives back the profile |
| Projection.ProfileOmitsRequiredName | android/src/main/java/com/boostlingo/BoostlingoSdkModule.kt:453-471 | the Android profile snapshot does not depend on `requiredName` |
| Projection.MapProfile | android/src/main/java/com/boostlingo/BoostlingoSdkModule.kt:453-471 | null exactly for a missing profile; otherwise decodes back to it |
| Projection.ProjectCallDetails | android/src/main/java/com/boostlingo/BoostlingoSdkModule.kt:533-554 | the details map has exactly the details keys; each timestamp is null exactly when absent; decodes back to the details |
| Projection.MapCallDetails | android/src/main/java/com/boostlingo/BoostlingoSdkModule.kt:533-554 | null exactly for missing details; otherwise decodes back to them |
| Projection.ProjectChatUser | android/src/main/java/com/boostlingo/BoostlingoSdkModule.kt:707-720 | the map has exactly the chat-user keys and decodes back to the user |
| Projection.MapChatUser | android/src/main/java/com/boostlingo/BoostlingoSdkModule.kt:707-720 | null exactly for a missing user; otherwise decodes back to it |
| Projection.ProjectChatMessage | android/src/main/java/com/boostlingo/BoostlingoSdkModule.kt:691-705 | the map has exactly the chat-message keys and decodes back to the message |
| Projection.MapChatMessage | android/src/main/java/com/boostlingo/BoostlingoSdkModule.kt:691-705 | null exactly for a missing message; otherwise decodes back to it |
| Errors.Chain | android/src/main/java/com/boostlingo/BoostlingoSdkModule.kt:106-111 | the cause chain starts at the throwable, each link's cause is the next link, and the last link has no cause |
| Errors.Cause | android/src/main/java/com/boostlingo/BoostlingoSdkModule.kt:106-111 | the root cause has no cause, and a throwable without a cause is its own root |
| Errors.CauseIsLastLink | android/src/main/java/com/boostlingo/BoostlingoSdkModule.kt:106-111 | the root cause is the last link of the chain |
| Errors.CauseIsOnlyCauselessLink | android/src/main/java/com/boostlingo/BoostlingoSdkModule.kt:106-111 | any causeless link of the chain is the root cause |
| Errors.CauseOfWrapper | android/src/main/java/com/boostlingo/BoostlingoSdkModule.kt:106-111 | wrapping a throwable does not change its root cause |
| Errors.CauseIdempotent | android/src/main/java/com/boostlingo/BoostlingoSdkModule.kt:106-111 | unwrapping twice is the same as unwrapping once |
| Errors.RootMessage | android/src/main/java/com/boostlingo/BoostlingoSdkModule.kt:106-111 | the message reported is that of the chain's causeless link |
| Errors.NatToDecimalRoundTrip | ios/BoostlingoSdk.swift:117-127 | the decimal rendering of a status code parses back to the code |
| Errors.DecimalRoundTrip | ios/BoostlingoSdk.swift:117-127 | the decimal rendering of any integer parses back to it |
| Errors.NegativeDecimalRoundTrip | ios/BoostlingoSdk.swift:117-127 | a negative status code's `-` rendering parses back to it |
| Errors.ApiErrorMessage | ios/BoostlingoSdk.swift:117-127 | an API error with a status code reads as the `Encountered an error: ` prefix, its description, then `, statusCode: ` and the code, which can be read back out; one without a code reads like a call error |
| Errors.CallErrorMessage | ios/BoostlingoSdk.swift:344-348 | a call error's message is the `Encountered an error: ` prefix and then the description, with no status code |
| Errors.ApiErrorMessageInjective | ios/BoostlingoSdk.swift:117-127 | two errors with the same description and the same message have the same status code |
| Audio.RouteKind | android/src/main/java/com/boostlingo/BoostlingoSdkModule.kt:655-669 | the speaker flag selects speakerphone, otherwise earpiece |
| Audio.FirstIndexOfKind | android/src/main/java/com/boostlingo/BoostlingoSdkModule.kt:655-669 | the index found holds a device of the kind with none before it; no index means no device of the kind |
| Audio.FirstOfKind | android/src/main/java/com/boostlingo/BoostlingoSdkModule.kt:655-669 | the device found is an available device of the requested kind, and none is found exactly when none is available |
| Audio.OfKind | android/src/main/java/com/boostlingo/BoostlingoSdkModule.kt:655-669 | the filter keeps only available devices of the kind |
| Audio.FirstOfKindIsHeadOfKind | android/src/main/java/com/boostlingo/BoostlingoSdkModule.kt:655-669 | the first device of a kind is the head of the filtered list (the independent reference definition) |
| Audio.FirstOfKindStable | android/src/main/java/com/boostlingo/BoostlingoSdkModule.kt:655-669 | devices appended later do not change the choice once one of the kind exists |
| Events.SupportedEventsDistinct | ios/BoostlingoSdk.swift:49-60 | the nine supported names are pairwise distinct and do not include `error` |
| AndroidBridge.RequiredString | android/src/main/java/com/boostlingo/BoostlingoSdkModule.kt:62-67 | succeeds exactly for a present string, and otherwise reports the missing or mistyped key |
| AndroidBridge.RequiredInt | android/src/main/java/com/boostlingo/BoostlingoSdkModule.kt:560-562 | succeeds exactly for a present number and otherwise reports the missing or mistyped key; the value read is the number saturated to the 32-bit range, as `getInt` does |
| AndroidBridge.SaturateInt32 | android/src/main/java/com/boostlingo/BoostlingoSdkModule.kt:560-563 | the result is always a 32-bit value; a value already in range is unchanged, and one beyond either bound becomes that bound |
| AndroidBridge.GenderIdOf | android/src/main/java/com/boostlingo/BoostlingoSdkModule.kt:563 | no gender exactly when the key is missing or null; a gender, saturated to 32 bits, exactly when it holds a number; anything else reports `genderId` as mistyped |
| AndroidBridge.FieldValue | android/src/main/java/com/boostlingo/BoostlingoSdkModule.kt:593-603 | an additional field's entry reads back as the field |
| AndroidBridge.ParseFields | android/src/main/java/com/boostlingo/BoostlingoSdkModule.kt:593-603 | success reads every entry in order; failure names the first unreadable entry |
| AndroidBridge.AdditionalDataOf | android/src/main/java/com/boostlingo/BoostlingoSdkModule.kt:565 | no data exactly when `data` is missing or null; otherwise one field per array entry |
| AndroidBridge.BuildCallRequest | android/src/main/java/com/boostlingo/BoostlingoSdkModule.kt:557-566 | the request builds exactly when the three ids are numbers, the gender is missing, null or a number, and the data is readable; the request carries the saturated ids and the requested call kind; faults are reported in reading order: `languageFromId`, `languageToId`, `serviceTypeId`, `genderId`, then `data` |
| AndroidBridge.FieldsRoundTrip | android/src/main/java/com/boostlingo/BoostlingoSdkModule.kt:593-603 | fields written as entries read back unchanged |
| AndroidBridge.BuildCallRequestRoundTrip | android/src/main/java/com/boostlingo/BoostlingoSdkModule.kt:557-603 | a request whose ids fit in 32 bits, written as JavaScript arguments, builds back into the same request |
| AndroidBridge.OutOfRangeIdSaturates | android/src/main/java/com/boostlingo/BoostlingoSdkModule.kt:557-566 | a request whose `languageFromId` exceeds 32 bits still builds, but with a different id, one of the two 32-bit bounds |
| AndroidBridge.SaturateIds | android/src/main/java/com/boostlingo/BoostlingoSdkModule.kt:560-563 | the ids `getInt` delivers always fit in 32 bits, equal the host's when those fit, and nothing but the ids changes |
| AndroidBridge.NullGenderIsMissingGender | android/src/main/java/com/boostlingo/BoostlingoSdkModule.kt:563 | a null `genderId` is the same as no `genderId` |
| AndroidBridge.Settle | android/src/main/java/com/boostlingo/BoostlingoSdkModule.kt:434-451 | success resolves with the projection; failure rejects with the message of the last link of the error's cause chain |
| AndroidBridge.SettleIgnoresWrappers | android/src/main/java/com/boostlingo/BoostlingoSdkModule.kt:434-451 | wrapping the error in another throwable does not change the rejection |
| AndroidBridge.Initialize | android/src/main/java/com/boostlingo/BoostlingoSdkModule.kt:62-104 | a missing or mistyped auth token or region rejects, and only the first such fault is raised; otherwise a fresh client without a call, an audio switch with the preferred device order and a live subscription replace the old ones, and the client is asked to initialize with the token and region |
| AndroidBridge.GetCurrentCall | android/src/main/java/com/boostlingo/BoostlingoSdkModule.kt:179-186 | a null client rejects; otherwise resolves with the current call's snapshot, null exactly without a call; the state is unchanged |
| AndroidBridge.MakeVoiceCall | android/src/main/java/com/boostlingo/BoostlingoSdkModule.kt:557-591 | an unreadable request rejects with its fault; once the request builds, the effects are exactly the audio start (when there is a switch) followed by placing the call (or the null-client fault), so the promise is not settled until the client answers |
| AndroidBridge.MakeVideoCall | android/src/main/java/com/boostlingo/BoostlingoSdkModule.kt:606-632 | like the voice call, but audio never starts: with a client, placing the call with the local video view is the only effect |
| AndroidBridge.Forward | android/src/main/java/com/boostlingo/BoostlingoSdkModule.kt:635-652 | the request reaches the client exactly when it exists; otherwise the command rejects |
| AndroidBridge.ToggleAudioRoute | android/src/main/java/com/boostlingo/BoostlingoSdkModule.kt:655-669 | without an audio switch nothing happens; otherwise one device selection, of an available device of the requested kind, or of no device when none is available |
| AndroidBridge.ToggleAudioRouteSelectsFirst | android/src/main/java/com/boostlingo/BoostlingoSdkModule.kt:655-669 | the device selected is the first available one of the requested kind |
| AndroidBridge.MuteCall | android/src/main/java/com/boostlingo/BoostlingoSdkModule.kt:723-725 | without a call nothing changes; with one, only its mute flag changes |
| AndroidBridge.MuteCallIsObserved | android/src/main/java/com/boostlingo/BoostlingoSdkModule.kt:723-725 | a later `getCurrentCall` reports the new mute flag and otherwise the same call |
| AndroidBridge.EnableVideo | android/src/main/java/com/boostlingo/BoostlingoSdkModule.kt:728-731 | only a video call's video flag changes; audio, the local view and the subscriptions are untouched; anything else leaves the state alone |
| AndroidBridge.EnableVideoIsObserved | android/src/main/java/com/boostlingo/BoostlingoSdkModule.kt:728-731 | a later `getCurrentCall` reports the new video flag and otherwise the same call, and projects back to exactly that updated call |
| AndroidBridge.FlipCamera | android/src/main/java/com/boostlingo/BoostlingoSdkModule.kt:734-737 | the camera is switched exactly on a video call, and nothing else happens |
| AndroidBridge.ThirdPartyCommand | android/src/main/java/com/boostlingo/BoostlingoSdkModule.kt:740-789 | a null client rejects; with no call the promise resolves null; with a call the request reaches the client |
| AndroidBridge.DialThirdParty | android/src/main/java/com/boostlingo/BoostlingoSdkModule.kt:740-763 | the phone number is dialled exactly when there is a call |
| AndroidBridge.HangUpThirdParty | android/src/main/java/com/boostlingo/BoostlingoSdkModule.kt:766-789 | the identity is hung up exactly when there is a call |
| AndroidBridge.MuteThirdParty | android/src/main/java/com/boostlingo/BoostlingoSdkModule.kt:792-827 | raises the null-client fault exactly without a client; resolves null exactly when there is no call or an argument present is mistyped; the mute request is sent exactly when there is a call and the arguments are a string and a boolean; a short argument array raises an index fault at the first missing position |
| AndroidBridge.Dispose | android/src/main/java/com/boostlingo/BoostlingoSdkModule.kt:830-851 | the module returns to idle; the effects are exactly the client dispose (when there is a client) followed by the audio stop (when there is a switch), and nothing else: no promise settles and no audio starts |
| AndroidBridge.DisposeIdempotent | android/src/main/java/com/boostlingo/BoostlingoSdkModule.kt:830-851 | a second `dispose` does nothing |
| AndroidBridge.SetLocalVideo | android/src/main/java/com/boostlingo/BoostlingoSdkModule.kt:33-35 | only the local view changes |
| AndroidBridge.LocalVideoReachesVideoCall | android/src/main/java/com/boostlingo/BoostlingoSdkModule.kt:33-35 | the view set before `makeVideoCall` is the one the call uses |
| AndroidBridge.SetRemoteVideo | android/src/main/java/com/boostlingo/BoostlingoSdkModule.kt:37-46 | a renderer is added exactly for a view on a video call |
| AndroidBridge.EventName | android/src/main/java/com/boostlingo/BoostlingoSdkModule.kt:113-164 | every call event is published under a supported name, the same one iOS uses for the counterpart callback (`IosBridge.PlatformsNameEventsAlike`) |
| AndroidBridge.EventNameIdentifiesKind | android/src/main/java/com/boostlingo/BoostlingoSdkModule.kt:113-164 | two events share a name exactly when they are of the same kind |
| AndroidBridge.EventNamesCoverSupportedEvents | android/src/main/java/com/boostlingo/BoostlingoSdkModule.kt:113-164 | every supported name is used by some event |
| AndroidBridge.EventBody | android/src/main/java/com/boostlingo/BoostlingoSdkModule.kt:113-164 | each event's body decodes back to the call, participant or message it carries; the disconnect body is the error's message or null; chat connection events carry null |
| AndroidBridge.AudioFor | android/src/main/java/com/boostlingo/BoostlingoSdkModule.kt:113-164 | audio is activated exactly on a connection and deactivated exactly on a disconnection or failed connection, when there is a switch |
| AndroidBridge.HandleCallEvent | android/src/main/java/com/boostlingo/BoostlingoSdkModule.kt:113-164 | the event is emitted once, as the last effect, preceded by exactly the audio operations the event calls for, and nothing is asked of the client |
| AndroidBridge.Deliver | android/src/main/java/com/boostlingo/BoostlingoSdkModule.kt:79-86 | events reach JavaScript only while subscribed |
| AndroidBridge.HandleError | android/src/main/java/com/boostlingo/BoostlingoSdkModule.kt:166-170 | a stream error ends the subscription and, if it was live, emits `error` with the root cause's message |
| AndroidBridge.DeliverAllEmitsInOrder | android/src/main/java/com/boostlingo/BoostlingoSdkModule.kt:79-86 | a stream of events is emitted under their names in order, and nothing is asked of the client |
| AndroidBridge.ActivationPerConnection | android/src/main/java/com/boostlingo/BoostlingoSdkModule.kt:113-164 | audio is activated once per connection event in the stream |
| IosProjection.OrNull | ios/BoostlingoSdk.swift:143-153 | an absent dictionary reaches JavaScript as null |
| IosProjection.ImageInfoAsDictionary | ios/BoostlingoSdk.swift:656-668 | a dictionary exactly for a present image, holding the same values as Android's image map |
| IosProjection.ParticipantDictIds | ios/BoostlingoSdk.swift:633-654 | each account id is a key exactly when present and reads back |
| IosProjection.ParticipantDictOptionals | ios/BoostlingoSdk.swift:633-654 | image and rating are keys exactly when present and read back |
| IosProjection.ProjectParticipant | ios/BoostlingoSdk.swift:633-654 | every required key is present; each optional key is present exactly when its value is |
| IosProjection.ParticipantRoundTrip | ios/BoostlingoSdk.swift:633-654 | decoding a participant dictionary gives back the participant |
| IosProjection.ParticipantAsDictionary | ios/BoostlingoSdk.swift:633-654 | no dictionary exactly for a missing participant; otherwise decodes back to it |
| IosProjection.ParticipantsAsDictionary | ios/BoostlingoSdk.swift:670-673 | the array keeps the list's length and order, and decodes back to the list |
| IosProjection.ParticipantsRoundTrip | ios/BoostlingoSdk.swift:670-673 | every participant of a list survives projection and decoding |
| IosProjection.CallDictIds | ios/BoostlingoSdk.swift:605-631 | `callId` and `interlocutorInfo` are keys exactly when present and read back |
| IosProjection.CallDictVideo | ios/BoostlingoSdk.swift:605-631 | `isVideoEnabled` and `roomId` are keys exactly on a video call and read back as its video part |
| IosProjection.ProjectCall | ios/BoostlingoSdk.swift:605-631 | required keys are present; optional keys are present exactly when their values are; participants are projected in order |
| IosProjection.CallRoundTrip | ios/BoostlingoSdk.swift:605-631 | decoding a call dictionary gives back the call |
| IosProjection.CallAsDictionary | ios/BoostlingoSdk.swift:605-631 | no dictionary exactly for a missing call; otherwise decodes back to it, with no video keys exactly on a voice call |
| IosProjection.ProfileDictImage | ios/BoostlingoSdk.swift:701-717 | `imageInfo` is a key exactly when the profile has an image, and reads back |
| IosProjection.ProjectProfile | ios/BoostlingoSdk.swift:701-717 | the keys are the profile keys plus `requiredName`, less `imageInfo` without an image |
| IosProjection.ProfileRoundTrip | ios/BoostlingoSdk.swift:701-717 | decoding a profile dictionary gives back the profile, name included |
| IosProjection.ProfileAsDictionary | ios/BoostlingoSdk.swift:701-717 | no dictionary exactly for a missing profile; otherwise decodes back to it |
| IosProjection.ProfilesAgree | ios/BoostlingoSdk.swift:701-717 | every non-image key of the Android profile is sent by iOS with the same value |
| IosProjection.ProjectCallDetails | ios/BoostlingoSdk.swift:719-733 | each timestamp is a key exactly when present; decodes back to the details |
| IosProjection.CallDetailsAsDictionary | ios/BoostlingoSdk.swift:719-733 | no dictionary exactly for missing details; otherwise decodes back to them |
| IosProjection.ProjectChatUser | ios/BoostlingoSdk.swift:748-758 | `imageInfo` is a key exactly when present; decodes back to the user |
| IosProjection.ChatUserAsDictionary | ios/BoostlingoSdk.swift:748-758 | no dictionary exactly for a missing user; otherwise decodes back to it |
| IosProjection.ProjectChatMessage | ios/BoostlingoSdk.swift:735-746 | the dictionary has exactly the message keys and decodes back to the message |
| IosProjection.ChatMessageAsDictionary | ios/BoostlingoSdk.swift:735-746 | no dictionary exactly for a missing message; otherwise decodes back to it |
| IosBridge.StartObserving | ios/BoostlingoSdk.swift:64-66 | the listener flag is set and nothing else changes |
| IosBridge.StopObserving | ios/BoostlingoSdk.swift:69-71 | the listener flag is cleared and nothing else changes |
| IosBridge.SetLocalRenderer | ios/BoostlingoSdk.swift:73-75 | only the local view changes |
| IosBridge.SetRemoteRenderer | ios/BoostlingoSdk.swift:77-87 | crashes exactly without a client; otherwise adds a renderer only for a view on a video call |
| IosBridge.StringCast | ios/BoostlingoSdk.swift:108-109 | the cast to `String` succeeds exactly for a present string, so `as!` traps on anything else |
| IosBridge.IntCast | ios/BoostlingoSdk.swift:326-329 | `as? Int` succeeds exactly for a present number that fits in 64 bits, or a boolean; a number gives itself and a boolean gives 1 or 0; the three ids' `as!` trap otherwise, and `genderId`'s `as?` gives no gender |
| IosBridge.BoolCast | ios/BoostlingoSdk.swift:559 | `as? Bool` succeeds exactly for a boolean or the number 0 or 1; a boolean gives itself and a number gives whether it is 1 |
| IosBridge.BuildCallRequest | ios/BoostlingoSdk.swift:312-332 | the request builds exactly when the data entries are string maps with `key` and `value` and the three ids cast to `Int`; it carries the cast ids unsaturated, the optional gender and the call kind, and never the data |
| IosBridge.HostRequestBuilds | ios/BoostlingoSdk.swift:312-332 | arguments the Android reader accepts as a request build on iOS exactly when the three ids fit in 64 bits, and then, with the gender fitting too, into the same request without its data |
| IosBridge.PlatformsAgreeOnRequests | ios/BoostlingoSdk.swift:312-332 | where Android builds a request and the data entries are string maps, iOS builds one exactly when the three ids fit in 64 bits; when all ids fit, Android's is iOS's with every id saturated to 32 bits, and the two are equal when the ids fit in 32 bits; a gender beyond 64 bits is dropped on iOS and saturated on Android |
| IosBridge.LargeIdDiverges | ios/BoostlingoSdk.swift:326-329 | an id beyond 32 bits but within 64 reaches the client unchanged on iOS but changed on Android |
| IosBridge.HugeIdDiverges | ios/BoostlingoSdk.swift:326 | an id beyond 64 bits crashes iOS, while Android builds the request with the id stuck at the nearer 32-bit bound |
| IosBridge.MistypedGenderDiverges | ios/BoostlingoSdk.swift:329 | a string `genderId` is dropped on iOS but rejected on Android |
| IosBridge.SettleApi | ios/BoostlingoSdk.swift:188-214 | success resolves with the projection; failure rejects with the prefixed message, from which the status code can be read back |
| IosBridge.SettleCall | ios/BoostlingoSdk.swift:344-348 | failure rejects with the prefix followed by the bare description |
| IosBridge.CallRejectionHidesStatus | ios/BoostlingoSdk.swift:344-348 | a call rejection does not depend on the status code |
| IosBridge.SettlementsDifferByStatus | ios/BoostlingoSdk.swift:188-214 | a fetch and a call reject identically exactly when the error has no status code |
| IosBridge.Initialize | ios/BoostlingoSdk.swift:105-140 | crashes exactly when the token or region is not a string; otherwise a fresh client replaces the old one and is asked to initialize, and the listener flag and local view are kept |
| IosBridge.GetCurrentCall | ios/BoostlingoSdk.swift:143-153 | crashes exactly without a client; otherwise resolves with a snapshot that is null exactly without a call and decodes back to the call |
| IosBridge.Forward | ios/BoostlingoSdk.swift:411-437 | crashes exactly without a client; otherwise the request reaches the client and nothing else changes |
| IosBridge.MakeVoiceCall | ios/BoostlingoSdk.swift:312-358 | crashes exactly when the request does not build or there is no client; otherwise the module becomes the chat delegate and the voice call is placed |
| IosBridge.MakeVideoCall | ios/BoostlingoSdk.swift:361-408 | like the voice call, and the local view goes with the request |
| IosBridge.LocalRendererReachesVideoCall | ios/BoostlingoSdk.swift:73-75 | the renderer set before `makeVideoCall` is the one the call uses |
| IosBridge.MuteCall | ios/BoostlingoSdk.swift:464-470 | crashes exactly without a client; with a call only its mute flag changes |
| IosBridge.MuteCallIsObserved | ios/BoostlingoSdk.swift:464-470 | a later `getCurrentCall` reports the new mute flag and otherwise the same call |
| IosBridge.EnableVideo | ios/BoostlingoSdk.swift:473-478 | crashes exactly without a client; only a video call's video flag changes, and the chat delegate, the listener flag and the local view stay as they were |
| IosBridge.FlipCamera | ios/BoostlingoSdk.swift:481-486 | crashes exactly without a client; the camera is switched exactly on a video call |
| IosBridge.ThirdPartyCommand | ios/BoostlingoSdk.swift:489-544 | crashes exactly without a client; with no call the promise resolves null; with a call the request reaches the client |
| IosBridge.MuteThirdParty | ios/BoostlingoSdk.swift:547-583 | crashes without a client, or with a call and a short argument array; a non-string identity or a `mute` that does not cast to `Bool` resolves null; otherwise the mute request is sent with the cast value |
| IosBridge.NumericMuteDiverges | ios/BoostlingoSdk.swift:559 | a numeric `1` for `mute` mutes the participant on iOS, while Android resolves null and sends nothing |
| IosBridge.PlatformsAgreeOnThirdPartyCommands | ios/BoostlingoSdk.swift:489-544 | with a client on both platforms and the same answer to whether there is a call, dialling and hanging up a third party have the same effects wherever iOS does not crash |
| IosBridge.PlatformsAgreeOnMuteThirdParty | ios/BoostlingoSdk.swift:547-583 | under the same conditions, muting a third party has the same effects on both platforms exactly unless there is a call, the identity is a string and `mute` is the number 0 or 1 |
| IosBridge.Dispose | ios/BoostlingoSdk.swift:586-590 | the client and the local view are dropped and the listener flag is kept |
| IosBridge.DisposeIdempotent | ios/BoostlingoSdk.swift:586-590 | a second `dispose` changes nothing |
| IosBridge.DisposedClientTraps | ios/BoostlingoSdk.swift:586-590 | after `dispose`, every command that unwraps the client crashes |
| IosBridge.CallbackName | ios/BoostlingoSdk.swift:761-832 | every delegate callback is published under a supported name, the same one Android uses for the counterpart event (`IosBridge.PlatformsNameEventsAlike`) |
| IosBridge.PlatformsNameEventsAlike | ios/BoostlingoSdk.swift:761-832 | an Android event and an iOS callback are published under the same name exactly when they report the same occurrence |
| IosBridge.CallbackNamed | ios/BoostlingoSdk.swift:49-60 | every supported name is used by some callback |
| IosBridge.PlatformsPublishSameNames | ios/BoostlingoSdk.swift:49-60 | on both platforms, a name is published by some callback exactly when it is a supported name |
| IosBridge.CallbackBody | ios/BoostlingoSdk.swift:761-832 | each body decodes back to the call, participant or message; a disconnect body is the error's description or null; chat connection callbacks carry null |
| IosBridge.Notify | ios/BoostlingoSdk.swift:761-832 | a callback is emitted exactly when there are listeners |
| IosBridge.NotifyAll | ios/BoostlingoSdk.swift:761-832 | without listeners nothing is emitted |
| IosBridge.NotifyAllEmitsInOrder | ios/BoostlingoSdk.swift:761-832 | with listeners, every callback is emitted under its name, in order |
| IosBridge.ListenerGate | ios/BoostlingoSdk.swift:64-71 | after `stopObserving` nothing is emitted; after `startObserving` every callback is |

## Left out

- Threading: Rx schedulers, `DispatchQueue.main.async` and the ordering of completions are not modelled. Each command's effects are a sequence, and a client completion is a separate call of the settle function.
- The client library (`BoostlingoSDK`, `BLCall`, the chat service) and AudioSwitch are foreign. Their behaviour is not modelled: their answers are parameters, and their calls are effects.
- `volumeControlStream` saving and restoring on Android is left out. It is an activity setting with no observable effect in the snapshot.
- `getRegions` and `getVersion` are left out. Neither is part of the command and projection logic modelled here.
- On iOS, `getCallDictionaries`, `getVoiceLanguages` and `getVideoLanguages` encode through `JSONEncoder` (`callDictionariesAsDictionary`, `languageAsDictionary`). That encoding is foreign. Those fetches are modelled only as `IosBridge.Forward`.
- Floating-point values (ratings, durations, timestamps) are integers in the model. The Android `Double` to `Long` conversions of `getCallDetails` are not modelled. Timestamps are opaque: Android publishes `Date.time` in milliseconds and iOS publishes `timeIntervalSince1970` in seconds, and the model does not tell the units apart.
- Exception messages are not modelled. A `Fault` records the kind of failure, and a rejection records the root cause's message, not the exact text React Native shows.
- IosBridge.IntCast: numbers are integers in the model, so a fractional number's `as? Int` (which fails in Swift) is not modelled; the 64-bit range and booleans bridging to 1 and 0 are.
- IosBridge.BoolCast: only the integers 0 and 1 are modelled as bridging to `Bool`; fractional numbers are not modelled.
- AndroidBridge.RequiredInt: numbers are integers in the model, so `getInt`'s truncation of a fractional number is not modelled; saturation to 32 bits is.
- Projection.ProjectParticipant: the `toDouble` widening of account numbers loses precision above 2^53 in the source; the model keeps the exact number.
- Promises still pending when `dispose` runs are not modelled. Their completions are dropped with the subscriptions.
- Re-initializing without `dispose` replaces the client and the audio switch without disposing the old ones. The model shows only the replacement.
- The `catch` branches on iOS cannot be reached, because the `do` blocks contain no throwing call. They are not modelled.
- Android `dispose` emits `error` when a foreign dispose throws. That branch depends on foreign failures and is not modelled.
- Delegate wiring inside the client (which object receives callbacks) is not modelled. Callbacks are inputs to `IosBridge.Notify` and `AndroidBridge.Deliver`.
- `BLVideoViewManager`, the package registration and the JavaScript wrapper are not part of this model.

=== FILE: android.dfy ===
/**
  The Android native module (`BoostlingoSdkModule`) as a state machine. Every
  `@ReactMethod`, every engine event and every engine completion is one step
  from a `Bridge` state to a new state plus the effects it performs, in order.
  The engine client and `AudioSwitch` are foreign: the model records which of
  their operations the bridge invokes, never what they do.
 */
module AndroidBridge {
  import opened Wrappers
  import opened Json
  import opened Errors
  import opened Engine
  import opened Audio
  import Events
  import opened Effects
  import opened Projection

  /** The engine client (`BoostlingoSDK`), reduced to what the bridge reads from it. */
  datatype Sdk = Sdk(currentCall: Option<Call>)

  /** The audio router, created with its preferred device order. */
  datatype AudioSwitch = AudioSwitch(preferred: seq<DeviceKind>)

  /**
    The module's fields. `subscribed` is whether the module still listens to the
    engine's event stream: `initialize` subscribes, `dispose` drops every
    subscription, and an error on the stream ends it.
   */
  datatype Bridge = Bridge(sdk: Option<Sdk>, audio: Option<AudioSwitch>, localVideo: Option<View>, subscribed: bool)

  datatype Step = Step(bridge: Bridge, effects: seq<Effect>)

  /** A module that was never initialised, or was disposed. */
  const Idle: Bridge := Bridge(None, None, None, false)

  // ---------------------------------------------------------------------------
  // Reading the host's arguments (`ReadableMap`)

  /** `getString(k)!!`: absent and null are both an error. */
  function RequiredString(m: Dict, k: string): (r: Result<string, Fault>)
    ensures r.Success? <==> k in m && m[k].JStr?
    ensures r.Success? ==> m[k] == JStr(r.value)
    ensures r.Failure? ==> r.error in {MissingKey(k), WrongType(k)}
  {
    if k !in m || m[k].JNull? then Failure(MissingKey(k))
    else if m[k].JStr? then Success(m[k].s)
    else Failure(WrongType(k))
  }

  const MinInt32: int := -0x8000_0000
  const MaxInt32: int := 0x7fff_ffff

  /**
    Java's `Double.intValue()`, through which `getInt` reads every number:
    values beyond the 32-bit range stick at the nearer bound.
   */
  function SaturateInt32(x: int): (r: int)
    ensures IsInt32(r)
    ensures IsInt32(x) ==> r == x
    ensures x > MaxInt32 ==> r == MaxInt32
    ensures x < MinInt32 ==> r == MinInt32
  {
    if x > MaxInt32 then MaxInt32 else if x < MinInt32 then MinInt32 else x
  }

  /** `getInt(k)`: the number, saturated to 32 bits; absent, null and mistyped are errors. */
  function RequiredInt(m: Dict, k: string): (r: Result<int, Fault>)
    ensures r.Success? <==> k in m && m[k].JNum?
    ensures r.Success? ==> r.value == SaturateInt32(m[k].n)
    ensures r.Failure? ==> r.error in {MissingKey(k), WrongType(k)}
  {
    if k !in m || m[k].JNull? then Failure(MissingKey(k))
    else if m[k].JNum? then Success(SaturateInt32(m[k].n))
    else Failure(WrongType(k))
  }

  /** `genderId`: read only when present and not null. */
  function GenderIdOf(m: Dict): (r: Result<Option<int>, Fault>)
    ensures r == Success(None) <==> "genderId" !in m || m["genderId"].JNull?
    ensures (r.Success? && r.value.Some?) <==> "genderId" in m && m["genderId"].JNum?
    ensures r.Success? && r.value.Some? ==> r.value.value == SaturateInt32(m["genderId"].n)
    ensures r.Failure? ==> r.error == WrongType("genderId")
  {
    if "genderId" in m && !m["genderId"].JNull? then
      var id :- RequiredInt(m, "genderId");
      Success(Some(id))
    else Success(None)
  }

  /** One entry of `data`: a map whose `key` and `value` are strings. */
  function FieldOf(v: JVal): Option<AdditionalField>
  {
    if v.JObj? && "key" in v.fields && "value" in v.fields && v.fields["key"].JStr? && v.fields["value"].JStr?
    then Some(AdditionalField(v.fields["key"].s, v.fields["value"].s))
    else None
  }

  /** The inverse of `FieldOf`: how the host writes one entry. */
  function FieldValue(f: AdditionalField): (r: JVal)
    ensures FieldOf(r) == Some(f)
  {
    JObj(map["key" := JStr(f.key), "value" := JStr(f.value)])
  }

  /** `mapAdditionalCallData`: every entry converted, or the index of the first that is not a pair of strings. */
  function ParseFields(vs: seq<JVal>): (r: Result<seq<AdditionalField>, nat>)
    ensures r.Success? ==> |r.value| == |vs| && forall i :: 0 <= i < |vs| ==> FieldOf(vs[i]) == Some(r.value[i])
    ensures r.Failure? ==> r.error < |vs| && FieldOf(vs[r.error]).None?
    ensures r.Failure? ==> forall i :: 0 <= i < r.error ==> FieldOf(vs[i]).Some?
  {
    if vs == [] then Success([])
    else
      match FieldOf(vs[0])
      case None => Failure(0)
      case Some(f) =>
        match ParseFields(vs[1..])
        case Failure(i) => Failure(i + 1)
        case Success(fs) => Success([f] + fs)
  }

  /** `data`: absent or null means none; an array is converted entry by entry. */
  function AdditionalDataOf(m: Dict): (r: Result<Option<seq<AdditionalField>>, Fault>)
    ensures r == Success(None) <==> "data" !in m || m["data"].JNull?
    ensures r.Success? && r.value.Some? ==> m["data"].JArr? && |r.value.value| == |m["data"].items|
    ensures r.Success? && r.value.Some? ==>
      forall i :: 0 <= i < |r.value.value| ==> FieldOf(m["data"].items[i]) == Some(r.value.value[i])
  {
    if "data" !in m || m["data"].JNull? then Success(None)
    else if !m["data"].JArr? then Failure(WrongType("data"))
    else
      match ParseFields(m["data"].items)
      case Failure(i) => Failure(MalformedField(i))
      case Success(fs) => Success(Some(fs))
  }

  /** The `CallRequest` both `makeVoiceCall` and `makeVideoCall` build, reading keys in the source's order. */
  function BuildCallRequest(m: Dict, isVideo: bool): (r: Result<CallRequest, Fault>)
    ensures r.Success? <==>
      RequiredInt(m, "languageFromId").Success? && RequiredInt(m, "languageToId").Success? &&
      RequiredInt(m, "serviceTypeId").Success? && GenderIdOf(m).Success? && AdditionalDataOf(m).Success?
    ensures r.Success? ==>
      && r.value.isVideo == isVideo
      && r.value.languageFromId == SaturateInt32(m["languageFromId"].n)
      && r.value.languageToId == SaturateInt32(m["languageToId"].n)
      && r.value.serviceTypeId == SaturateInt32(m["serviceTypeId"].n)
      && Success(r.value.genderId) == GenderIdOf(m)
      && Success(r.value.data) == AdditionalDataOf(m)
    // The fault reported is the first in reading order.
    ensures RequiredInt(m, "languageFromId").Failure? ==> r == Failure(RequiredInt(m, "languageFromId").error)
    ensures (RequiredInt(m, "languageFromId").Success? && RequiredInt(m, "languageToId").Failure?) ==>
      r == Failure(RequiredInt(m, "languageToId").error)
    ensures (RequiredInt(m, "languageFromId").Success? && RequiredInt(m, "languageToId").Success? &&
             RequiredInt(m, "serviceTypeId").Failure?) ==>
      r == Failure(RequiredInt(m, "serviceTypeId").error)
    ensures (RequiredInt(m, "languageFromId").Success? && RequiredInt(m, "languageToId").Success? &&
             RequiredInt(m, "serviceTypeId").Success? && GenderIdOf(m).Failure?) ==>
      r == Failure(GenderIdOf(m).error)
    ensures (RequiredInt(m, "languageFromId").Success? && RequiredInt(m, "languageToId").Success? &&
             RequiredInt(m, "serviceTypeId").Success? && GenderIdOf(m).Success? && AdditionalDataOf(m).Failure?) ==>
      r == Failure(AdditionalDataOf(m).error)
  {
    var from :- RequiredInt(m, "languageFromId");
    var to :- RequiredInt(m, "languageToId");
    var service :- RequiredInt(m, "serviceTypeId");
    var gender :- GenderIdOf(m);
    var data :- AdditionalDataOf(m);
    Success(CallRequest(from, to, service, gender, isVideo, data))
  }

  /** What the host sends for a request: optional keys are left out when empty. */
  function RequestDict(q: CallRequest): Dict
  {
    var base := map[
      "languageFromId" := JNum(q.languageFromId),
      "languageToId" := JNum(q.languageToId),
      "serviceTypeId" := JNum(q.serviceTypeId)];
    var withGender := if q.genderId.Some? then base["genderId" := JNum(q.genderId.value)] else base;
    if q.data.Some? then withGender["data" := JArr(MapSeq(q.data.value, FieldValue))] else withGender
  }

  lemma FieldsRoundTrip(fs: seq<AdditionalField>)
    ensures ParseFields(MapSeq(fs, FieldValue)) == Success(fs)
  {
    var vs := MapSeq(fs, FieldValue);
    var r := ParseFields(vs);
    if r.Success? {
      assert forall i :: 0 <= i < |fs| ==> Some(r.value[i]) == FieldOf(FieldValue(fs[i])) == Some(fs[i]);
      assert r.value == fs;
    }
  }

  /** The ids of a request all fit in 32 bits, so `getInt` reads them unchanged. */
  predicate IdsFitInt32(q: CallRequest)
  {
    IsInt32(q.languageFromId) && IsInt32(q.languageToId) && IsInt32(q.serviceTypeId) &&
    (q.genderId.Some? ==> IsInt32(q.genderId.value))
  }

  /** The request `getInt` delivers for host ids `q`: every id saturated to 32 bits. */
  function SaturateIds(q: CallRequest): (r: CallRequest)
    ensures IdsFitInt32(r)
    ensures IdsFitInt32(q) ==> r == q
    ensures r.(languageFromId := q.languageFromId, languageToId := q.languageToId,
               serviceTypeId := q.serviceTypeId, genderId := q.genderId) == q
  {
    q.(languageFromId := SaturateInt32(q.languageFromId),
       languageToId := SaturateInt32(q.languageToId),
       serviceTypeId := SaturateInt32(q.serviceTypeId),
       genderId := if q.genderId.Some? then Some(SaturateInt32(q.genderId.value)) else None)
  }

  /** Every request whose ids fit in 32 bits survives the trip through the host's map. */
  lemma BuildCallRequestRoundTrip(q: CallRequest)
    requires IdsFitInt32(q)
    ensures BuildCallRequest(RequestDict(q), q.isVideo) == Success(q)
  {
    var m := RequestDict(q);
    assert m["languageFromId"] == JNum(q.languageFromId);
    assert m["languageToId"] == JNum(q.languageToId);
    assert m["serviceTypeId"] == JNum(q.serviceTypeId);
    assert GenderIdOf(m) == Success(q.genderId);
    if q.data.Some? {
      FieldsRoundTrip(q.data.value);
    }
    assert AdditionalDataOf(m) == Success(q.data);
  }

  /** An id beyond 32 bits does not survive the trip: `getInt` delivers the nearer bound instead. */
  lemma OutOfRangeIdSaturates(q: CallRequest)
    requires !IsInt32(q.languageFromId)
    ensures BuildCallRequest(RequestDict(q), q.isVideo).Success?
    ensures BuildCallRequest(RequestDict(q), q.isVideo).value.languageFromId != q.languageFromId
    ensures BuildCallRequest(RequestDict(q), q.isVideo).value.languageFromId in {MinInt32, MaxInt32}
  {
    var m := RequestDict(q);
    assert m["languageFromId"] == JNum(q.languageFromId);
    assert m["languageToId"] == JNum(q.languageToId);
    assert m["serviceTypeId"] == JNum(q.serviceTypeId);
    assert GenderIdOf(m).Success?;
    if q.data.Some? {
      FieldsRoundTrip(q.data.value);
    }
    assert AdditionalDataOf(m) == Success(q.data);
  }

  /** A null `genderId` and a missing one build the same request. */
  lemma NullGenderIsMissingGender(m: Dict, isVideo: bool)
    ensures BuildCallRequest(m["genderId" := JNull], isVideo) == BuildCallRequest(m - {"genderId"}, isVideo)
  {
    var a := m["genderId" := JNull];
    var b := m - {"genderId"};
    assert forall k :: k != "genderId" ==> (k in a <==> k in b);
    assert forall k :: k != "genderId" && k in a ==> a[k] == b[k];
    assert RequiredInt(a, "languageFromId") == RequiredInt(b, "languageFromId");
    assert RequiredInt(a, "languageToId") == RequiredInt(b, "languageToId");
    assert RequiredInt(a, "serviceTypeId") == RequiredInt(b, "serviceTypeId");
    assert AdditionalDataOf(a) == AdditionalDataOf(b);
  }

  // ---------------------------------------------------------------------------
  // Completions

  /**
    How an engine completion settles the command's promise: success resolves
    with the projected value, failure rejects with the message of the deepest
    link of the error's cause chain.
   */
  function Settle<T>(o: Result<T, Throwable>, project: T -> JVal): (e: Effect)
    ensures o.Success? ==> e == Resolve(project(o.value))
    ensures o.Failure? ==> e == Reject(Chain(o.error)[|Chain(o.error)| - 1].message)
  {
    match o
    case Success(v) => Resolve(project(v))
    case Failure(t) =>
      CauseIsLastLink(t);
      Reject(RootMessage(t))
  }

  /** Wrapping an engine error in another exception does not change the rejection. */
  lemma SettleIgnoresWrappers<T>(t: Throwable, message: Option<string>, project: T -> JVal)
    ensures Settle(Failure(Throwable(message, Some(t))), project) == Settle(Failure(t), project)
  {
    CauseIsLastLink(t);
    CauseIsLastLink(Throwable(message, Some(t)));
    CauseOfWrapper(t, message);
  }

  // ---------------------------------------------------------------------------
  // Commands

  /**
    `initialize`: a new engine client and audio switch, a subscription to the
    client's events, then the client's own initialisation (settled by
    `Settle(_, _ => JNull)`). A missing `authToken` or `region` changes nothing.
   */
  function Initialize(s: Bridge, config: Dict): (r: Step)
    ensures RequiredString(config, "authToken").Failure? ==>
      r == Step(s, [Raise(RequiredString(config, "authToken").error)])
    ensures RequiredString(config, "authToken").Success? && RequiredString(config, "region").Failure? ==>
      r == Step(s, [Raise(RequiredString(config, "region").error)])
    ensures RequiredString(config, "authToken").Success? && RequiredString(config, "region").Success? ==>
      && r.bridge.sdk == Some(Sdk(None))
      && r.bridge.audio == Some(AudioSwitch(PreferredKinds))
      && r.bridge.subscribed
      && r.bridge.localVideo == s.localVideo
      && r.effects == [Request(InitializeClient(config["authToken"].s, config["region"].s))]
  {
    match RequiredString(config, "authToken")
    case Failure(f) => Step(s, [Raise(f)])
    case Success(token) =>
      match RequiredString(config, "region")
      case Failure(f) => Step(s, [Raise(f)])
      case Success(region) =>
        Step(Bridge(Some(Sdk(None)), Some(AudioSwitch(PreferredKinds)), s.localVideo, true),
             [Request(InitializeClient(token, region))])
  }

  /** `getCurrentCall`: the engine's current call as a snapshot, null when there is none. */
  function GetCurrentCall(s: Bridge): (r: Step)
    ensures r.bridge == s
    ensures s.sdk.None? ==> r.effects == [Raise(NullClient)]
    ensures s.sdk.Some? ==>
      |r.effects| == 1 && r.effects[0].Resolve? &&
      DecodeNullable(r.effects[0].value, CallOf) == Some(s.sdk.value.currentCall)
  {
    match s.sdk
    case None => Step(s, [Raise(NullClient)])
    case Some(sdk) => Step(s, [Resolve(MapCall(sdk.currentCall))])
  }

  /**
    `makeVoiceCall`: the request is built first (a malformed one faults before
    anything else), then the audio switch is started, then the engine asked.
    Audio is started even when the client is missing.
   */
  function MakeVoiceCall(s: Bridge, m: Dict): (r: Step)
    ensures r.bridge == s
    ensures BuildCallRequest(m, false).Failure? ==> r.effects == [Raise(BuildCallRequest(m, false).error)]
    ensures Requests(r.effects) ==
      (if BuildCallRequest(m, false).Success? && s.sdk.Some?
       then [PlaceVoiceCall(BuildCallRequest(m, false).value)] else [])
    ensures StartAudio in r.effects <==> BuildCallRequest(m, false).Success? && s.audio.Some?
    ensures Raise(NullClient) in r.effects <==> BuildCallRequest(m, false).Success? && s.sdk.None?
    ensures forall i, j ::
      (0 <= i < |r.effects| && 0 <= j < |r.effects| && r.effects[i] == StartAudio &&
       (r.effects[j].Request? || r.effects[j].Raise?)) ==> i < j
    ensures BuildCallRequest(m, false).Success? ==>
      r.effects == (if s.audio.Some? then [StartAudio] else []) +
                   [if s.sdk.Some? then Request(PlaceVoiceCall(BuildCallRequest(m, false).value)) else Raise(NullClient)]
  {
    match BuildCallRequest(m, false)
    case Failure(f) => Step(s, [Raise(f)])
    case Success(q) =>
      var audio := if s.audio.Some? then [StartAudio] else [];
      var last := if s.sdk.Some? then Request(PlaceVoiceCall(q)) else Raise(NullClient);
      RequestsAppend(audio, [last]);
      Step(s, audio + [last])
  }

  /** `makeVideoCall`: like `makeVoiceCall` but with no audio switch, and with the local view attached. */
  function MakeVideoCall(s: Bridge, m: Dict): (r: Step)
    ensures r.bridge == s
    ensures StartAudio !in r.effects
    ensures BuildCallRequest(m, true).Failure? ==> r.effects == [Raise(BuildCallRequest(m, true).error)]
    ensures BuildCallRequest(m, true).Success? && s.sdk.None? ==> r.effects == [Raise(NullClient)]
    ensures Requests(r.effects) ==
      (if BuildCallRequest(m, true).Success? && s.sdk.Some?
       then [PlaceVideoCall(BuildCallRequest(m, true).value, s.localVideo)] else [])
    ensures BuildCallRequest(m, true).Success? && s.sdk.Some? ==>
      r.effects == [Request(PlaceVideoCall(BuildCallRequest(m, true).value, s.localVideo))]
  {
    match BuildCallRequest(m, true)
    case Failure(f) => Step(s, [Raise(f)])
    case Success(q) =>
      if s.sdk.Some? then Step(s, [Request(PlaceVideoCall(q, s.localVideo))])
      else Step(s, [Raise(NullClient)])
  }

  /**
    The commands that only forward to the client and settle on its completion:
    `hangUp`, `sendChatMessage`, `getCallDictionaries`, `getProfile`,
    `getVoiceLanguages`, `getVideoLanguages` and `getCallDetails`.
   */
  function Forward(s: Bridge, q: EngineRequest): (r: Step)
    ensures r.bridge == s
    ensures |r.effects| == 1
    ensures Requests(r.effects) == (if s.sdk.Some? then [q] else [])
    ensures s.sdk.None? <==> r.effects[0] == Raise(NullClient)
  {
    if s.sdk.Some? then Step(s, [Request(q)]) else Step(s, [Raise(NullClient)])
  }

  /**
    `toggleAudioRoute`: select the first available speakerphone (or earpiece);
    when there is none the switch is handed no device.
   */
  function ToggleAudioRoute(s: Bridge, toSpeaker: bool, available: seq<AudioDevice>): (r: Step)
    ensures r.bridge == s
    ensures s.audio.None? <==> r.effects == []
    ensures s.audio.Some? ==> |r.effects| == 1 && r.effects[0].SelectDevice?
    ensures s.audio.Some? && r.effects[0].device.Some? ==>
      r.effects[0].device.value in available && r.effects[0].device.value.kind == RouteKind(toSpeaker)
    ensures s.audio.Some? && r.effects[0].device.None? ==>
      forall d :: d in available ==> d.kind != RouteKind(toSpeaker)
  {
    if s.audio.Some? then Step(s, [SelectDevice(FirstOfKind(available, RouteKind(toSpeaker)))])
    else Step(s, [])
  }

  /** The device chosen is the head of the devices of the wanted kind, in the switch's order. */
  lemma ToggleAudioRouteSelectsFirst(s: Bridge, toSpeaker: bool, available: seq<AudioDevice>)
    requires s.audio.Some?
    ensures var kinds := OfKind(available, RouteKind(toSpeaker));
      ToggleAudioRoute(s, toSpeaker, available).effects ==
        [SelectDevice(if kinds == [] then None else Some(kinds[0]))]
  {
    FirstOfKindIsHeadOfKind(available, RouteKind(toSpeaker));
  }

  /** The current call, when there is a client and a call. */
  function CurrentCall(s: Bridge): Option<Call>
  {
    if s.sdk.Some? then s.sdk.value.currentCall else None
  }

  /** Replaces the current call; only meaningful when there is one. */
  function WithCall(s: Bridge, c: Call): Bridge
    requires s.sdk.Some?
  {
    s.(sdk := Some(Sdk(Some(c))))
  }

  /** `muteCall`: sets the current call's mute flag, silently doing nothing without one. */
  function MuteCall(s: Bridge, isMuted: bool): (r: Step)
    ensures r.effects == []
    ensures CurrentCall(s).None? ==> r.bridge == s
    ensures CurrentCall(s).Some? ==>
      r.bridge.sdk.Some? && CurrentCall(r.bridge) == Some(CurrentCall(s).value.(isMuted := isMuted))
    ensures r.bridge.audio == s.audio && r.bridge.localVideo == s.localVideo && r.bridge.subscribed == s.subscribed
  {
    match CurrentCall(s)
    case None => Step(s, [])
    case Some(c) => Step(WithCall(s, c.(isMuted := isMuted)), [])
  }

  /** After `muteCall(b)`, `getCurrentCall` reports `isMuted: b` and every other field as before. */
  lemma MuteCallIsObserved(s: Bridge, isMuted: bool)
    requires CurrentCall(s).Some?
    ensures var snapshot := GetCurrentCall(MuteCall(s, isMuted).bridge).effects[0].value;
      && snapshot.JObj?
      && snapshot.fields["isMuted"] == JBool(isMuted)
      && CallOf(snapshot) == Some(CurrentCall(s).value.(isMuted := isMuted))
  {
    var c := CurrentCall(s).value.(isMuted := isMuted);
    CallRoundTrip(c);
  }

  /** `enableVideo`: only a video call is affected. */
  function EnableVideo(s: Bridge, isVideoEnabled: bool): (r: Step)
    ensures r.effects == []
    ensures CurrentCall(s).None? || CurrentCall(s).value.video.None? ==> r.bridge == s
    ensures CurrentCall(s).Some? && CurrentCall(s).value.video.Some? ==>
      var c := CurrentCall(s).value;
      r.bridge.sdk.Some? &&
      CurrentCall(r.bridge) == Some(c.(video := Some(c.video.value.(isVideoEnabled := isVideoEnabled))))
    ensures r.bridge.audio == s.audio && r.bridge.localVideo == s.localVideo && r.bridge.subscribed == s.subscribed
  {
    match CurrentCall(s)
    case Some(c) =>
      (match c.video
       case Some(v) => Step(WithCall(s, c.(video := Some(v.(isVideoEnabled := isVideoEnabled)))), [])
       case None => Step(s, []))
    case None => Step(s, [])
  }

  /** After `enableVideo(b)` on a video call, `getCurrentCall` reports `isVideoEnabled: b` and every other field as before. */
  lemma EnableVideoIsObserved(s: Bridge, isVideoEnabled: bool)
    requires CurrentCall(s).Some? && CurrentCall(s).value.video.Some?
    ensures var snapshot := GetCurrentCall(EnableVideo(s, isVideoEnabled).bridge).effects[0].value;
      var c := CurrentCall(s).value;
      && snapshot.JObj? && snapshot.fields["isVideoEnabled"] == JBool(isVideoEnabled)
      && CallOf(snapshot) == Some(c.(video := Some(c.video.value.(isVideoEnabled := isVideoEnabled))))
  {
    var c := CurrentCall(s).value;
    CallRoundTrip(c.(video := Some(c.video.value.(isVideoEnabled := isVideoEnabled))));
  }

  /** `flipCamera`: asks a video call to switch camera, does nothing otherwise. */
  function FlipCamera(s: Bridge): (r: Step)
    ensures r.bridge == s
    ensures r.effects != [] <==> CurrentCall(s).Some? && CurrentCall(s).value.video.Some?
    ensures r.effects != [] ==> r.effects == [Request(SwitchCamera)]
  {
    if CurrentCall(s).Some? && CurrentCall(s).value.video.Some? then Step(s, [Request(SwitchCamera)])
    else Step(s, [])
  }

  /**
    The guard shared by `dialThirdParty` and `hangUpThirdParty`: a missing
    client faults, a missing call resolves null, otherwise the call is asked.
   */
  function ThirdPartyCommand(s: Bridge, q: EngineRequest): (r: Step)
    ensures r.bridge == s
    ensures s.sdk.None? ==> r.effects == [Raise(NullClient)]
    ensures s.sdk.Some? && CurrentCall(s).None? ==> r.effects == [Resolve(JNull)]
    ensures Requests(r.effects) != [] <==> CurrentCall(s).Some?
    ensures CurrentCall(s).Some? ==> r.effects == [Request(q)]
  {
    if s.sdk.None? then Step(s, [Raise(NullClient)])
    else if CurrentCall(s).None? then Step(s, [Resolve(JNull)])
    else Step(s, [Request(q)])
  }

  function DialThirdParty(s: Bridge, phone: string): (r: Step)
    ensures r.bridge == s
    ensures Requests(r.effects) == (if CurrentCall(s).Some? then [EngineRequest.DialThirdParty(phone)] else [])
  {
    ThirdPartyCommand(s, EngineRequest.DialThirdParty(phone))
  }

  function HangUpThirdParty(s: Bridge, identity: string): (r: Step)
    ensures r.bridge == s
    ensures Requests(r.effects) == (if CurrentCall(s).Some? then [EngineRequest.HangUpThirdParty(identity)] else [])
  {
    ThirdPartyCommand(s, EngineRequest.HangUpThirdParty(identity))
  }

  /**
    `muteThirdParty([identity, mute])`: after the call guard, a first element
    that is not a string or a second that is not a boolean resolves null; an
    array too short to index faults.
   */
  function MuteThirdParty(s: Bridge, args: seq<JVal>): (r: Step)
    ensures r.bridge == s
    ensures |r.effects| == 1
    ensures Requests(r.effects) != [] <==>
      CurrentCall(s).Some? && |args| >= 2 && args[0].JStr? && args[1].JBool?
    ensures Requests(r.effects) != [] ==>
      r.effects == [Request(EngineRequest.MuteThirdParty(args[0].s, args[1].b))]
    ensures r.effects[0] == Raise(IndexOutOfBounds(0)) <==> CurrentCall(s).Some? && |args| == 0
    ensures r.effects[0] == Raise(IndexOutOfBounds(1)) <==> CurrentCall(s).Some? && |args| == 1 && args[0].JStr?
    ensures s.sdk.None? <==> r.effects == [Raise(NullClient)]
    ensures r.effects == [Resolve(JNull)] <==>
      s.sdk.Some? && (CurrentCall(s).None? ||
                      (|args| >= 1 && !args[0].JStr?) ||
                      (|args| >= 2 && args[0].JStr? && !args[1].JBool?))
  {
    if s.sdk.None? then Step(s, [Raise(NullClient)])
    else if CurrentCall(s).None? then Step(s, [Resolve(JNull)])
    else if |args| < 1 then Step(s, [Raise(IndexOutOfBounds(0))])
    else if !args[0].JStr? then Step(s, [Resolve(JNull)])
    else if |args| < 2 then Step(s, [Raise(IndexOutOfBounds(1))])
    else if !args[1].JBool? then Step(s, [Resolve(JNull)])
    else Step(s, [Request(EngineRequest.MuteThirdParty(args[0].s, args[1].b))])
  }

  /**
    `dispose`: every subscription is dropped, the client disposed and the audio
    switch stopped, each only if present; the module is left idle.
   */
  function Dispose(s: Bridge): (r: Step)
    ensures r.bridge == Idle
    ensures Requests(r.effects) == (if s.sdk.Some? then [DisposeClient] else [])
    ensures StopAudio in r.effects <==> s.audio.Some?
    ensures r.effects == [] <==> s.sdk.None? && s.audio.None?
    ensures r.effects == (if s.sdk.Some? then [Request(DisposeClient)] else []) +
                         (if s.audio.Some? then [StopAudio] else [])
  {
    var client := if s.sdk.Some? then [Request(DisposeClient)] else [];
    var audio := if s.audio.Some? then [StopAudio] else [];
    RequestsAppend(client, audio);
    Step(Idle, client + audio)
  }

  /** A second `dispose` finds nothing left to release. */
  lemma DisposeIdempotent(s: Bridge)
    ensures Dispose(Dispose(s).bridge) == Step(Dispose(s).bridge, [])
  {
  }

  /** `setLocalVideo`, called by the view manager: the view later video calls start with. */
  function SetLocalVideo(s: Bridge, view: Option<View>): (r: Step)
    ensures r.effects == []
    ensures r.bridge.localVideo == view
    ensures r.bridge.(localVideo := s.localVideo) == s
  {
    Step(s.(localVideo := view), [])
  }

  /** The view handed to `setLocalVideo` is the one the next video call is placed with. */
  lemma LocalVideoReachesVideoCall(s: Bridge, view: Option<View>, m: Dict)
    requires s.sdk.Some? && BuildCallRequest(m, true).Success?
    ensures Requests(MakeVideoCall(SetLocalVideo(s, view).bridge, m).effects) ==
      [PlaceVideoCall(BuildCallRequest(m, true).value, view)]
  {
  }

  /** `setRemoteVideo`: attach a renderer only for a non-null view on a current video call. */
  function SetRemoteVideo(s: Bridge, identity: string, view: Option<View>): (r: Step)
    ensures r.bridge == s
    ensures r.effects != [] <==> view.Some? && CurrentCall(s).Some? && CurrentCall(s).value.video.Some?
    ensures r.effects != [] ==> r.effects == [Request(AddRenderer(identity, view.value))]
  {
    if view.Some? && CurrentCall(s).Some? && CurrentCall(s).value.video.Some?
    then Step(s, [Request(AddRenderer(identity, view.value))])
    else Step(s, [])
  }

  // ---------------------------------------------------------------------------
  // Engine events

  /** The name each event is published under. */
  function EventName(ev: CallEvent): (r: string)
    ensures r in Events.SupportedEvents
  {
    match ev
    case CallConnected(_) => Events.CallDidConnect
    case CallDisconnected(_) => Events.CallDidDisconnect
    case CallFailedToConnect(_) => Events.CallDidFailToConnect
    case ChatConnected => Events.ChatConnected
    case ChatDisconnected => Events.ChatDisconnected
    case ChatMessageReceived(_) => Events.ChatMessageRecieved
    case ParticipantAdded(_) => Events.CallParticipantConnected
    case ParticipantRemoved(_) => Events.CallParticipantDisconnected
    case ParticipantUpdated(_) => Events.CallParticipantUpdated
  }

  /** Two events are of the same kind. */
  predicate SameKind(a: CallEvent, b: CallEvent)
  {
    && a.CallConnected? == b.CallConnected?
    && a.CallDisconnected? == b.CallDisconnected?
    && a.CallFailedToConnect? == b.CallFailedToConnect?
    && a.ChatConnected? == b.ChatConnected?
    && a.ChatDisconnected? == b.ChatDisconnected?
    && a.ChatMessageReceived? == b.ChatMessageReceived?
    && a.ParticipantAdded? == b.ParticipantAdded?
    && a.ParticipantRemoved? == b.ParticipantRemoved?
    && a.ParticipantUpdated? == b.ParticipantUpdated?
  }

  /** The name tells the kind of event: no two kinds share one. */
  lemma EventNameIdentifiesKind(a: CallEvent, b: CallEvent)
    ensures EventName(a) == EventName(b) <==> SameKind(a, b)
  {
    Events.SupportedEventsDistinct();
  }

  /** Every supported name is used by some event: Android publishes exactly the names iOS declares. */
  lemma EventNamesCoverSupportedEvents(name: string)
    requires name in Events.SupportedEvents
    ensures exists ev :: EventName(ev) == name
  {
    var p := Participant("", Client, 0, None, "", None, "", StateNone, false, false, false, false);
    var c := Call(None, 0, false, false, None, false, "", "", [], false, None);
    var msg := ChatMessage(ChatUser(0, None), "", 0);
    if name == Events.CallDidConnect { assert EventName(CallConnected(c)) == name; }
    else if name == Events.CallDidDisconnect { assert EventName(CallDisconnected(None)) == name; }
    else if name == Events.CallDidFailToConnect { assert EventName(CallFailedToConnect(None)) == name; }
    else if name == Events.ChatConnected { assert EventName(CallEvent.ChatConnected) == name; }
    else if name == Events.ChatDisconnected { assert EventName(CallEvent.ChatDisconnected) == name; }
    else if name == Events.ChatMessageRecieved { assert EventName(ChatMessageReceived(msg)) == name; }
    else if name == Events.CallParticipantConnected { assert EventName(ParticipantAdded(p)) == name; }
    else if name == Events.CallParticipantDisconnected { assert EventName(ParticipantRemoved(p)) == name; }
    else { assert EventName(ParticipantUpdated(p)) == name; }
  }

  /** The payload each event is published with. */
  function EventBody(ev: CallEvent): (r: JVal)
    ensures ev.CallConnected? ==> DecodeNullable(r, CallOf) == Some(Some(ev.call))
    ensures ev.CallDisconnected? || ev.CallFailedToConnect? ==>
      (r.JNull? <==> ev.error.None? || ev.error.value.message.None?)
    ensures ev.CallDisconnected? || ev.CallFailedToConnect? ==>
      r.JStr? ==> Some(r.s) == ev.error.value.message
    ensures ev.ChatConnected? || ev.ChatDisconnected? ==> r == JNull
    ensures ev.ChatMessageReceived? ==> DecodeNullable(r, ChatMessageOf) == Some(Some(ev.message))
    ensures ev.ParticipantAdded? || ev.ParticipantRemoved? || ev.ParticipantUpdated? ==>
      DecodeNullable(r, ParticipantOf) == Some(Some(ev.participant))
  {
    match ev
    case CallConnected(c) => MapCall(Some(c))
    case CallDisconnected(e) => if e.Some? then NullableStr(e.value.message) else JNull
    case CallFailedToConnect(e) => if e.Some? then NullableStr(e.value.message) else JNull
    case ChatConnected => JNull
    case ChatDisconnected => JNull
    case ChatMessageReceived(msg) => MapChatMessage(Some(msg))
    case ParticipantAdded(p) => MapParticipant(Some(p))
    case ParticipantRemoved(p) => MapParticipant(Some(p))
    case ParticipantUpdated(p) => MapParticipant(Some(p))
  }

  /** The audio action an event calls for: connecting activates, ending deactivates. */
  function AudioFor(s: Bridge, ev: CallEvent): (r: seq<Effect>)
    ensures |r| <= 1
    ensures r == [ActivateAudio] <==> ev.CallConnected? && s.audio.Some?
    ensures r == [DeactivateAudio] <==> (ev.CallDisconnected? || ev.CallFailedToConnect?) && s.audio.Some?
    ensures Requests(r) == [] && Emitted(r) == []
  {
    if s.audio.None? then []
    else if ev.CallConnected? then [ActivateAudio]
    else if ev.CallDisconnected? || ev.CallFailedToConnect? then [DeactivateAudio]
    else []
  }

  /** `handleCallEvent`: the audio action, then exactly one event. */
  function HandleCallEvent(s: Bridge, ev: CallEvent): (r: Step)
    ensures r.bridge == s
    ensures |r.effects| >= 1 && r.effects[|r.effects| - 1] == Emit(EventName(ev), EventBody(ev))
    ensures r.effects[..|r.effects| - 1] == AudioFor(s, ev)
    ensures Emitted(r.effects) == [EventName(ev)]
    ensures Requests(r.effects) == []
  {
    var audio := AudioFor(s, ev);
    EmittedAppend(audio, [Emit(EventName(ev), EventBody(ev))]);
    RequestsAppend(audio, [Emit(EventName(ev), EventBody(ev))]);
    Step(s, audio + [Emit(EventName(ev), EventBody(ev))])
  }

  /** An event reaches `handleCallEvent` only while the module is subscribed. */
  function Deliver(s: Bridge, ev: CallEvent): (r: Step)
    ensures r.bridge == s
    ensures !s.subscribed ==> r.effects == []
    ensures s.subscribed ==> r == HandleCallEvent(s, ev)
  {
    if s.subscribed then HandleCallEvent(s, ev) else Step(s, [])
  }

  /**
    `handleError`: a failed event stream reports the root cause's message on the
    `error` channel, and the stream ends with it.
   */
  function HandleError(s: Bridge, t: Throwable): (r: Step)
    ensures !r.bridge.subscribed
    ensures r.bridge.(subscribed := s.subscribed) == s
    ensures !s.subscribed ==> r.effects == []
    ensures s.subscribed ==> r.effects == [Emit(Events.ErrorEvent, NullableStr(Cause(t).message))]
  {
    if s.subscribed then Step(s.(subscribed := false), [Emit(Events.ErrorEvent, NullableStr(RootMessage(t)))])
    else Step(s, [])
  }

  /** The effects of delivering `evs` in order. Events leave the state unchanged. */
  function DeliverAll(s: Bridge, evs: seq<CallEvent>): (r: seq<Effect>)
    ensures !s.subscribed ==> r == []
  {
    if evs == [] then [] else Deliver(s, evs[0]).effects + DeliverAll(s, evs[1..])
  }

  function EventNames(evs: seq<CallEvent>): (r: seq<string>)
    ensures |r| == |evs| && forall i :: 0 <= i < |evs| ==> r[i] == EventName(evs[i])
  {
    if evs == [] then [] else [EventName(evs[0])] + EventNames(evs[1..])
  }

  function Connections(evs: seq<CallEvent>): (r: nat)
    ensures r <= |evs|
  {
    if evs == [] then 0 else (if evs[0].CallConnected? then 1 else 0) + Connections(evs[1..])
  }

  /** While subscribed, the host sees one event per engine event, named in order. */
  lemma {:induction false} DeliverAllEmitsInOrder(s: Bridge, evs: seq<CallEvent>)
    requires s.subscribed
    ensures Emitted(DeliverAll(s, evs)) == EventNames(evs)
    ensures Requests(DeliverAll(s, evs)) == []
  {
    if evs != [] {
      DeliverAllEmitsInOrder(s, evs[1..]);
      EmittedAppend(Deliver(s, evs[0]).effects, DeliverAll(s, evs[1..]));
      RequestsAppend(Deliver(s, evs[0]).effects, DeliverAll(s, evs[1..]));
    }
  }

  /** With an audio switch, audio is activated exactly once per connection. */
  lemma {:induction false} ActivationPerConnection(s: Bridge, evs: seq<CallEvent>)
    requires s.subscribed && s.audio.Some?
    ensures Count(DeliverAll(s, evs), ActivateAudio) == Connections(evs)
  {
    if evs != [] {
      ActivationPerConnection(s, evs[1..]);
      var e := Deliver(s, evs[0]).effects;
      CountAppend(e, DeliverAll(s, evs[1..]), ActivateAudio);
      var audio := AudioFor(s, evs[0]);
      var last := Emit(EventName(evs[0]), EventBody(evs[0]));
      assert e == audio + [last];
      CountAppend(audio, [last], ActivateAudio);
      assert Count([last], ActivateAudio) == 0;
    }
  }
}

=== FILE: audio.dfy ===
/**
  Audio routing as the Android module drives Twilio's AudioSwitch: the
  preference list it configures and the explicit speaker/earpiece override.
  Device discovery is foreign; the available devices are an input.
 */
module Audio {
  import opened Wrappers

  datatype DeviceKind = BluetoothHeadset | WiredHeadset | Speakerphone | Earpiece

  datatype AudioDevice = AudioDevice(kind: DeviceKind, name: string)

  /** The `preferredDeviceList` given to AudioSwitch at initialisation, most preferred first. */
  const PreferredKinds: seq<DeviceKind> := [BluetoothHeadset, WiredHeadset, Speakerphone, Earpiece]

  /** The kind `toggleAudioRoute(toSpeaker)` asks for. */
  function RouteKind(toSpeaker: bool): (k: DeviceKind)
    ensures k == Speakerphone || k == Earpiece
    ensures toSpeaker <==> k == Speakerphone
  {
    if toSpeaker then Speakerphone else Earpiece
  }

  /** The position of the first device of `kind`, if any. */
  function FirstIndexOfKind(devices: seq<AudioDevice>, kind: DeviceKind): (r: Option<nat>)
    ensures r.Some? ==> r.value < |devices| && devices[r.value].kind == kind
    ensures r.Some? ==> forall j :: 0 <= j < r.value ==> devices[j].kind != kind
    ensures r.None? ==> forall j :: 0 <= j < |devices| ==> devices[j].kind != kind
  {
    if |devices| == 0 then None
    else if devices[0].kind == kind then Some(0)
    else
      match FirstIndexOfKind(devices[1..], kind)
      case None => None
      case Some(i) => Some(i + 1)
  }

  /** `availableAudioDevices.firstOrNull { it is kind }`. */
  function FirstOfKind(devices: seq<AudioDevice>, kind: DeviceKind): (r: Option<AudioDevice>)
    ensures r.None? <==> forall j :: 0 <= j < |devices| ==> devices[j].kind != kind
    ensures r.Some? ==> r.value in devices && r.value.kind == kind
  {
    match FirstIndexOfKind(devices, kind)
    case None => None
    case Some(i) => Some(devices[i])
  }

  /** The devices of one kind, in discovery order: an independent statement of "first". */
  function OfKind(devices: seq<AudioDevice>, kind: DeviceKind): (r: seq<AudioDevice>)
    ensures forall d :: d in r ==> d in devices && d.kind == kind
  {
    if |devices| == 0 then []
    else if devices[0].kind == kind then [devices[0]] + OfKind(devices[1..], kind)
    else OfKind(devices[1..], kind)
  }

  /** The selected device is the head of the devices of that kind. */
  lemma {:induction false} FirstOfKindIsHeadOfKind(devices: seq<AudioDevice>, kind: DeviceKind)
    ensures FirstOfKind(devices, kind) == (if OfKind(devices, kind) == [] then None else Some(OfKind(devices, kind)[0]))
  {
    if |devices| > 0 && devices[0].kind != kind {
      FirstOfKindIsHeadOfKind(devices[1..], kind);
      assert forall j :: 0 <= j < |devices| - 1 ==> devices[1..][j] == devices[j + 1];
    }
  }

  /** Devices discovered later never change which device a toggle picks once one exists. */
  lemma FirstOfKindStable(devices: seq<AudioDevice>, later: seq<AudioDevice>, kind: DeviceKind)
    requires FirstOfKind(devices, kind).Some?
    ensures FirstOfKind(devices + later, kind) == FirstOfKind(devices, kind)
  {
    var i := FirstIndexOfKind(devices, kind).value;
    var j := FirstIndexOfKind(devices + later, kind);
    assert (devices + later)[i] == devices[i];
    assert j.Some?;
  }
}

=== FILE: effects.dfy ===
/**
  What a bridge step does outside its own state: calls into the foreign engine
  and audio library, events to the host, and the settlement of the command's
  promise. Each command is modelled as one synchronous step that yields these
  in order.
 */
module Effects {
  import opened Wrappers
  import opened Json
  import opened Engine
  import opened Audio

  /** An opaque video view handle (Twilio `VideoView`). */
  datatype View = View(handle: nat)

  /** An exception the bridge raises itself while reading its inputs. */
  datatype Fault =
    | NullClient                   // `boostlingo!!` with no engine client
    | MissingKey(key: string)      // a required key is absent or null
    | WrongType(key: string)       // a key holds a value of the wrong type
    | MalformedField(index: nat)   // an entry of `data` is not a {key, value} pair of strings
    | IndexOutOfBounds(index: nat) // an argument array is too short

  datatype EngineRequest =
    | InitializeClient(authToken: string, region: string)
    | PlaceVoiceCall(request: CallRequest)
    | PlaceVideoCall(request: CallRequest, localVideo: Option<View>)
    | HangUp
    | SendChatMessage(text: string)
    | DialThirdParty(phone: string)
    | HangUpThirdParty(identity: string)
    | MuteThirdParty(identity: string, mute: bool)
    | SwitchCamera
    | AddRenderer(identity: string, view: View)
    | ToggleRoute(toSpeaker: bool)
    | DisposeClient
    | FetchCallDictionaries
    | FetchProfile
    | FetchVoiceLanguages
    | FetchVideoLanguages
    | FetchCallDetails(callId: int)

  datatype Effect =
    | Emit(name: string, body: JVal)
    | Request(request: EngineRequest)
    | StartAudio
    | ActivateAudio
    | DeactivateAudio
    | SelectDevice(device: Option<AudioDevice>)
    | StopAudio
    | Resolve(value: JVal)
    | Reject(message: Option<string>)
    | Raise(fault: Fault)

  /** The engine calls among `effects`, in order. */
  function Requests(effects: seq<Effect>): (r: seq<EngineRequest>)
    ensures |r| <= |effects|
    ensures forall q :: q in r <==> Request(q) in effects
  {
    if effects == [] then []
    else (if effects[0].Request? then [effects[0].request] else []) + Requests(effects[1..])
  }

  /** The names of the events among `effects`, in order. */
  function Emitted(effects: seq<Effect>): (r: seq<string>)
    ensures |r| <= |effects|
    ensures forall i :: 0 <= i < |effects| && effects[i].Emit? ==> effects[i].name in r
    ensures (forall i :: 0 <= i < |effects| ==> !effects[i].Emit?) ==> r == []
  {
    if effects == [] then []
    else (if effects[0].Emit? then [effects[0].name] else []) + Emitted(effects[1..])
  }

  /** How many effects equal `e`. */
  function Count(effects: seq<Effect>, e: Effect): (r: nat)
    ensures r <= |effects|
    ensures r == 0 <==> e !in effects
  {
    if effects == [] then 0
    else (if effects[0] == e then 1 else 0) + Count(effects[1..], e)
  }

  lemma {:induction false} RequestsAppend(a: seq<Effect>, b: seq<Effect>)
    ensures Requests(a + b) == Requests(a) + Requests(b)
  {
    if a != [] {
      assert (a + b)[0] == a[0] && (a + b)[1..] == a[1..] + b;
      RequestsAppend(a[1..], b);
    } else {
      assert a + b == b;
    }
  }

  lemma {:induction false} EmittedAppend(a: seq<Effect>, b: seq<Effect>)
    ensures Emitted(a + b) == Emitted(a) + Emitted(b)
  {
    if a != [] {
      assert (a + b)[0] == a[0] && (a + b)[1..] == a[1..] + b;
      EmittedAppend(a[1..], b);
    } else {
      assert a + b == b;
    }
  }

  lemma {:induction false} CountAppend(a: seq<Effect>, b: seq<Effect>, e: Effect)
    ensures Count(a + b, e) == Count(a, e) + Count(b, e)
  {
    if a != [] {
      assert (a + b)[0] == a[0] && (a + b)[1..] == a[1..] + b;
      CountAppend(a[1..], b, e);
    } else {
      assert a + b == b;
    }
  }
}

=== FILE: engine.dfy ===
/**
  The calling engine's entities as the Android module sees them. The engine
  itself is foreign: these are plain values handed to the bridge. Fields the
  source reads as `Double` (rating, duration) and timestamps are opaque
  integers here.
 */
module Engine {
  import opened Wrappers
  import opened Errors

  datatype ParticipantType = Client | Interpreter | ThirdParty | TypeNone

  datatype ParticipantState = Confirmation | Connecting | Connected | Disconnected | StateNone

  datatype ImageInfo = ImageInfo(imageKey: string, sizes: seq<int>, baseUrl: string, fileExtension: string)

  /** `accountId` is the user's account for every kind but `ThirdParty`, where it names the external party. */
  datatype Participant = Participant(
    identity: string,
    participantType: ParticipantType,
    accountId: int,
    imageInfo: Option<ImageInfo>,
    requiredName: string,
    rating: Option<int>,
    companyName: string,
    state: ParticipantState,
    isAudioEnabled: bool,
    isVideoEnabled: bool,
    muteActionIsEnabled: bool,
    removeActionIsEnabled: bool)

  /** What a `BLVideoCall` adds to a `BLCall`. */
  datatype VideoFeatures = VideoFeatures(isVideoEnabled: bool, roomId: string)

  /** A `BLCall`; `video` is present exactly when the engine object is a `BLVideoCall`. */
  datatype Call = Call(
    callId: Option<int>,
    currentUserId: int,
    isVideo: bool,
    isInProgress: bool,
    interlocutorInfo: Option<Participant>,
    isMuted: bool,
    accessToken: string,
    identity: string,
    participants: seq<Participant>,
    canAddThirdParty: bool,
    video: Option<VideoFeatures>)

  datatype Language = Language(
    id: int,
    code: string,
    name: string,
    englishName: string,
    nativeName: string,
    localizedName: string,
    enabled: bool,
    isSignLanguage: bool,
    isVideoBackstopStaffed: bool,
    vriPolicyOrder: Option<int>,
    opiPolicyOrder: Option<int>)

  datatype ServiceType = ServiceType(id: int, name: string, enable: bool)

  /** `id` is the engine's 64-bit value; the Android projection narrows it with `toInt()`. */
  datatype Gender = Gender(id: int, name: string)

  datatype CallDictionaries = CallDictionaries(
    languages: seq<Language>,
    serviceTypes: seq<ServiceType>,
    genders: seq<Gender>)

  datatype Profile = Profile(
    accountName: string,
    userAccountId: int,
    companyAccountId: int,
    email: string,
    firstName: string,
    lastName: string,
    requiredName: string,
    imageInfo: Option<ImageInfo>)

  datatype CallDetails = CallDetails(
    callId: int,
    accountUniqueId: int,
    duration: int,
    timeRequested: int,
    timeAnswered: Option<int>,
    timeConnected: Option<int>)

  datatype ChatUser = ChatUser(id: int, imageInfo: Option<ImageInfo>)

  datatype ChatMessage = ChatMessage(user: ChatUser, text: string, sentTime: int)

  /** One key/value pair of a call request's optional `data` list. */
  datatype AdditionalField = AdditionalField(key: string, value: string)

  datatype CallRequest = CallRequest(
    languageFromId: int,
    languageToId: int,
    serviceTypeId: int,
    genderId: Option<int>,
    isVideo: bool,
    data: Option<seq<AdditionalField>>)

  /** The engine's `BLCallEvent` stream. */
  datatype CallEvent =
    | CallConnected(call: Call)
    | CallDisconnected(error: Option<Throwable>)
    | CallFailedToConnect(error: Option<Throwable>)
    | ChatConnected
    | ChatDisconnected
    | ChatMessageReceived(message: ChatMessage)
    | ParticipantAdded(participant: Participant)
    | ParticipantRemoved(participant: Participant)
    | ParticipantUpdated(participant: Participant)
}

=== FILE: errors.dfy ===
/**
  Failures crossing the bridge: Android's root-cause normaliser over a chain of
  `Throwable`s, and iOS's "Encountered an error" message formatting.
 */
module Errors {
  import opened Wrappers

  /**
    A JVM `Throwable`: its `localizedMessage` (nullable) and its `cause` link.
    Being an inductive value, a chain is finite and has no cycle.
   */
  datatype Throwable = Throwable(message: Option<string>, cause: Option<Throwable>)

  /** The links of a chain from `t` to its deepest cause, in order. */
  function Chain(t: Throwable): (r: seq<Throwable>)
    ensures |r| >= 1 && r[0] == t
    ensures r[|r| - 1].cause.None?
    ensures forall i :: 0 <= i < |r| - 1 ==> r[i].cause == Some(r[i + 1])
    decreases t
  {
    match t.cause
    case None => [t]
    case Some(c) => [t] + Chain(c)
  }

  /** `cause(t)` of the Android module: follows `cause` links until there is none. */
  function Cause(t: Throwable): (r: Throwable)
    ensures r.cause.None?
    ensures t.cause.None? ==> r == t
    decreases t
  {
    match t.cause
    case None => t
    case Some(c) => Cause(c)
  }

  /** The root cause is the last link of the chain, hence a link of it. */
  lemma {:induction false} CauseIsLastLink(t: Throwable)
    ensures Cause(t) == Chain(t)[|Chain(t)| - 1]
    ensures Cause(t) in Chain(t)
    decreases t
  {
    match t.cause
    case None =>
    case Some(c) =>
      CauseIsLastLink(c);
      assert Chain(t) == [t] + Chain(c);
  }

  /** Every link but the last has a cause, so the root cause is the only causeless link. */
  lemma CauseIsOnlyCauselessLink(t: Throwable, i: nat)
    requires i < |Chain(t)|
    requires Chain(t)[i].cause.None?
    ensures Chain(t)[i] == Cause(t)
  {
    CauseIsLastLink(t);
  }

  /** A wrapper adds nothing: wrapping `t` leaves its root cause unchanged. */
  lemma {:induction false} CauseOfWrapper(t: Throwable, message: Option<string>)
    ensures Cause(Throwable(message, Some(t))) == Cause(t)
  {
  }

  /** Normalising twice is normalising once. */
  lemma CauseIdempotent(t: Throwable)
    ensures Cause(Cause(t)) == Cause(t)
  {
  }

  /** `cause(t).localizedMessage`, the message every rejected Android promise carries. */
  function RootMessage(t: Throwable): (r: Option<string>)
    ensures exists i :: 0 <= i < |Chain(t)| && Chain(t)[i].cause.None? && r == Chain(t)[i].message
  {
    CauseIsLastLink(t);
    Cause(t).message
  }

  // ---------------------------------------------------------------------------
  // Decimal rendering of an `Int`, as Swift string interpolation writes it.

  function DigitChar(d: int): char
    requires 0 <= d < 10
  {
    ('0' as int + d) as char
  }

  predicate IsDigit(c: char)
  {
    '0' <= c <= '9'
  }

  function DigitValue(c: char): (r: nat)
    requires IsDigit(c)
    ensures r < 10
  {
    c as int - '0' as int
  }

  function NatToDecimal(n: nat): (r: string)
    ensures |r| >= 1
    ensures forall i :: 0 <= i < |r| ==> IsDigit(r[i])
    decreases n
  {
    if n < 10 then [DigitChar(n)] else NatToDecimal(n / 10) + [DigitChar(n % 10)]
  }

  function IntToDecimal(n: int): (r: string)
    ensures |r| >= 1
    ensures (r[0] == '-') <==> n < 0
  {
    if n < 0 then "-" + NatToDecimal(-n) else NatToDecimal(n)
  }

  function DecimalToNat(s: string): nat
    requires forall i :: 0 <= i < |s| ==> IsDigit(s[i])
  {
    if |s| == 0 then 0 else DecimalToNat(s[..|s| - 1]) * 10 + DigitValue(s[|s| - 1])
  }

  predicate AllDigits(s: string)
  {
    |s| >= 1 && forall i :: 0 <= i < |s| ==> IsDigit(s[i])
  }

  /** Reads back what `IntToDecimal` writes; anything else is `None`. */
  function ParseDecimal(s: string): Option<int>
  {
    if AllDigits(s) then Some(DecimalToNat(s) as int)
    else if |s| >= 2 && s[0] == '-' && AllDigits(s[1..]) then Some(0 - DecimalToNat(s[1..]) as int)
    else None
  }

  lemma {:induction false} NatToDecimalRoundTrip(n: nat)
    ensures DecimalToNat(NatToDecimal(n)) == n
    decreases n
  {
    if n >= 10 {
      var s := NatToDecimal(n);
      NatToDecimalRoundTrip(n / 10);
      assert s[..|s| - 1] == NatToDecimal(n / 10);
    }
  }

  /** The decimal rendering of an `Int` is lossless. */
  lemma DecimalRoundTrip(n: int)
    ensures ParseDecimal(IntToDecimal(n)) == Some(n)
  {
    if n < 0 {
      NegativeDecimalRoundTrip(n);
    } else {
      NatToDecimalRoundTrip(n);
      assert AllDigits(NatToDecimal(n));
    }
  }

  lemma NegativeDecimalRoundTrip(n: int)
    requires n < 0
    ensures ParseDecimal(IntToDecimal(n)) == Some(n)
  {
    var d := NatToDecimal(-n);
    NatToDecimalRoundTrip(-n);
    var s := "-" + d;
    assert IntToDecimal(n) == s;
    assert !AllDigits(s) by {
      assert s[0] == '-';
    }
    assert s[1..] == d;
    assert AllDigits(d);
    assert ParseDecimal(s) == Some(0 - DecimalToNat(d) as int);
  }

  // ---------------------------------------------------------------------------
  // iOS error messages.

  /**
    An iOS `Error` as far as the bridge looks at it: its `localizedDescription`
    and, for `BLError.apiCall`, the HTTP status code it carries.
   */
  datatype SdkError = SdkError(description: string, statusCode: Option<int>)

  const ErrorPrefix: string := "Encountered an error: "
  const StatusSeparator: string := ", statusCode: "

  /**
    The rejection message of `initialize` and of the dictionary, profile,
    language and call-details fetches: an `apiCall` error appends its status code.
   */
  function ApiErrorMessage(e: SdkError): (r: string)
    ensures e.statusCode.None? ==> r == CallErrorMessage(e)
    ensures e.statusCode.Some? ==>
      |CallErrorMessage(e)| < |r| && r[..|CallErrorMessage(e)|] == CallErrorMessage(e)
    ensures StatusCodeOf(r, e.description) == e.statusCode
  {
    match e.statusCode
    case None => ErrorPrefix + e.description
    case Some(code) =>
      var r := ErrorPrefix + e.description + StatusSeparator + IntToDecimal(code);
      var head := ErrorPrefix + e.description + StatusSeparator;
      assert r[..|head|] == head && r[|head|..] == IntToDecimal(code);
      DecimalRoundTrip(code);
      assert r[..|ErrorPrefix + e.description|] == ErrorPrefix + e.description;
      r
  }

  /**
    The rejection message of the call commands (place call, hang up, chat,
    third-party): the description only, whatever kind of error it is.
   */
  function CallErrorMessage(e: SdkError): (r: string)
    ensures |r| >= |ErrorPrefix| && r[..|ErrorPrefix|] == ErrorPrefix
    ensures r[|ErrorPrefix|..] == e.description
  {
    ErrorPrefix + e.description
  }

  /** Recovers the status code from an `ApiErrorMessage` whose description is known. */
  function StatusCodeOf(message: string, description: string): Option<int>
  {
    var head := ErrorPrefix + description + StatusSeparator;
    if |head| <= |message| && message[..|head|] == head then ParseDecimal(message[|head|..]) else None
  }

  /** Two `apiCall` errors with the same description are told apart by their messages. */
  lemma ApiErrorMessageInjective(a: SdkError, b: SdkError)
    requires a.description == b.description
    requires ApiErrorMessage(a) == ApiErrorMessage(b)
    ensures a == b
  {
  }
}

=== FILE: events.dfy ===
/** The event names the bridge publishes to the JavaScript host, shared by both platforms. */
module Events {

  const CallDidConnect: string := "callDidConnect"
  const CallDidDisconnect: string := "callDidDisconnect"
  const CallDidFailToConnect: string := "callDidFailToConnect"
  const ChatConnected: string := "chatConnected"
  const ChatDisconnected: string := "chatDisconnected"
  /** Spelled as the host listens for it. */
  const ChatMessageRecieved: string := "chatMessageRecieved"
  const CallParticipantConnected: string := "callParticipantConnected"
  const CallParticipantUpdated: string := "callParticipantUpdated"
  const CallParticipantDisconnected: string := "callParticipantDisconnected"

  /** Android's separate channel for failures with no pending promise. */
  const ErrorEvent: string := "error"

  /** iOS `supportedEvents()`, in its order. */
  const SupportedEvents: seq<string> := [
    CallDidConnect,
    CallDidDisconnect,
    CallDidFailToConnect,
    ChatConnected,
    ChatDisconnected,
    ChatMessageRecieved,
    CallParticipantConnected,
    CallParticipantUpdated,
    CallParticipantDisconnected
  ]

  /** Nine names, no two alike, and none of them the error channel. */
  lemma SupportedEventsDistinct()
    ensures |SupportedEvents| == 9
    ensures forall i, j :: 0 <= i < j < |SupportedEvents| ==> SupportedEvents[i] != SupportedEvents[j]
    ensures ErrorEvent !in SupportedEvents
  {
  }
}

=== FILE: ios_bridge.dfy ===
/**
  The iOS native module (`BoostlingoSdk`, an `RCTEventEmitter`) as a state
  machine. Unlike the Android module it does not turn a missing client or a
  malformed argument into a rejected promise: a force unwrap (`!`), a forced
  cast (`as!`) or an out-of-range `NSArray` index stops the app, modelled as
  the outcome `Trap`. Delegate callbacks reach the host only while it listens.
 */
module IosBridge {
  import opened Wrappers
  import opened Json
  import opened Errors
  import opened Engine
  import Events
  import opened Effects
  import opened IosProjection
  import AndroidBridge

  /** The engine client (`BoostlingoSDK`): its current call and whether the module is its chat delegate. */
  datatype IosSdk = IosSdk(currentCall: Option<IosCall>, chatDelegate: bool)

  /** The module's fields: the client, the listener flag kept by the emitter, and the local renderer. */
  datatype Bridge = Bridge(sdk: Option<IosSdk>, hasListeners: bool, localVideo: Option<View>)

  /** A step either traps, ending the app, or moves to a new state with its effects in order. */
  datatype Run = Trap | Ran(bridge: Bridge, effects: seq<Effect>)

  // ---------------------------------------------------------------------------
  // Listener gate and renderers

  /** `startObserving`: the host added its first listener. */
  function StartObserving(s: Bridge): (r: Bridge)
    ensures r.hasListeners
    ensures r.(hasListeners := s.hasListeners) == s
  {
    s.(hasListeners := true)
  }

  /** `stopObserving`: the host removed its last listener. */
  function StopObserving(s: Bridge): (r: Bridge)
    ensures !r.hasListeners
    ensures r.(hasListeners := s.hasListeners) == s
  {
    s.(hasListeners := false)
  }

  /** `setLocalRenderer`, called by the view manager: the view later video calls start with. */
  function SetLocalRenderer(s: Bridge, view: Option<View>): (r: Bridge)
    ensures r.localVideo == view
    ensures r.(localVideo := s.localVideo) == s
  {
    s.(localVideo := view)
  }

  /** The current call, when there is a client and a call. */
  function CurrentCall(s: Bridge): Option<IosCall>
  {
    if s.sdk.Some? then s.sdk.value.currentCall else None
  }

  /**
    `setRemoteRenderer`: the client is unwrapped first; then only a non-nil
    view on a current video call gets a renderer.
   */
  function SetRemoteRenderer(s: Bridge, identity: string, view: Option<View>): (r: Run)
    ensures r.Trap? <==> s.sdk.None?
    ensures r.Ran? ==> r.bridge == s
    ensures r.Ran? ==>
      (r.effects != [] <==> view.Some? && CurrentCall(s).Some? && CurrentCall(s).value.video.Some?)
    ensures r.Ran? && r.effects != [] ==> r.effects == [Request(AddRenderer(identity, view.value))]
  {
    if s.sdk.None? then Trap
    else if CurrentCall(s).None? || CurrentCall(s).value.video.None? then Ran(s, [])
    else if view.None? then Ran(s, [])
    else Ran(s, [Request(AddRenderer(identity, view.value))])
  }

  // ---------------------------------------------------------------------------
  // Reading the host's arguments (`NSDictionary`)

  /**
    `m[k] as? String`: the string, or `None` for anything else. The forced
    form `as!` traps exactly where this is `None`.
   */
  function StringCast(m: Dict, k: string): (r: Option<string>)
    ensures r.Some? <==> k in m && m[k].JStr?
    ensures r.Some? ==> m[k] == JStr(r.value)
  {
    if k in m && m[k].JStr? then Some(m[k].s) else None
  }

  /** Swift's `Int` is 64 bits wide. */
  predicate IsInt64(x: int)
  {
    -0x8000_0000_0000_0000 <= x < 0x8000_0000_0000_0000
  }

  /**
    `m[k] as? Int`. The host's numbers and booleans both arrive as `NSNumber`;
    a number casts only when it fits in 64 bits, and a boolean bridges to `0`
    or `1`; anything else is `None`. The forced form `as!` traps exactly where
    this is `None`.
   */
  function IntCast(m: Dict, k: string): (r: Option<int>)
    ensures r.Some? <==> k in m && ((m[k].JNum? && IsInt64(m[k].n)) || m[k].JBool?)
    ensures r.Some? && m[k].JNum? ==> r.value == m[k].n
    ensures r.Some? && m[k].JBool? ==> r.value == (if m[k].b then 1 else 0)
  {
    if k !in m then None
    else match m[k]
      case JNum(n) => if IsInt64(n) then Some(n) else None
      case JBool(b) => Some(if b then 1 else 0)
      case _ => None
  }

  /** `v as? Bool`: a boolean, or an `NSNumber` holding exactly `0` or `1`; anything else is `None`. */
  function BoolCast(v: JVal): (r: Option<bool>)
    ensures r.Some? <==> v.JBool? || (v.JNum? && (v.n == 0 || v.n == 1))
    ensures r.Some? && v.JBool? ==> r.value == v.b
    ensures r.Some? && v.JNum? ==> (r.value <==> v.n == 1)
  {
    match v
    case JBool(b) => Some(b)
    case JNum(n) => if n == 0 then Some(false) else if n == 1 then Some(true) else None
    case _ => None
  }

  /** One entry of `data` survives `as! [String: String]` and the two `!` lookups of `key` and `value`. */
  predicate EntryParses(v: JVal)
  {
    && v.JObj?
    && (forall k :: k in v.fields ==> v.fields[k].JStr?)
    && "key" in v.fields
    && "value" in v.fields
  }

  /** `data` is walked only when it is an array, and then every entry must parse. */
  predicate DataParses(m: Dict)
  {
    "data" in m && m["data"].JArr? ==>
      forall i :: 0 <= i < |m["data"].items| ==> EntryParses(m["data"].items[i])
  }

  /**
    The `CallRequest` of `makeVoiceCall` and `makeVideoCall`, or `None` where
    the code traps. The parsed `data` is discarded: the request is always built
    with `data: nil`.
   */
  function BuildCallRequest(m: Dict, isVideo: bool): (r: Option<CallRequest>)
    ensures r.Some? <==>
      DataParses(m) && IntCast(m, "languageFromId").Some? && IntCast(m, "languageToId").Some? &&
      IntCast(m, "serviceTypeId").Some?
    ensures r.Some? ==>
      && r.value.isVideo == isVideo
      && r.value.data.None?
      && IntCast(m, "languageFromId") == Some(r.value.languageFromId)
      && IntCast(m, "languageToId") == Some(r.value.languageToId)
      && IntCast(m, "serviceTypeId") == Some(r.value.serviceTypeId)
      && r.value.genderId == IntCast(m, "genderId")
  {
    if !DataParses(m) then None
    else
      var from :- IntCast(m, "languageFromId");
      var to :- IntCast(m, "languageToId");
      var service :- IntCast(m, "serviceTypeId");
      Some(CallRequest(from, to, service, IntCast(m, "genderId"), isVideo, None))
  }

  /** The ids of a request all fit in Swift's `Int`. */
  predicate IdsFitInt64(q: CallRequest)
  {
    IsInt64(q.languageFromId) && IsInt64(q.languageToId) && IsInt64(q.serviceTypeId) &&
    (q.genderId.Some? ==> IsInt64(q.genderId.value))
  }

  /** A number the host sends under `k`, if any, fits in Swift's `Int`. */
  predicate NumberFits(m: Dict, k: string)
  {
    k in m && m[k].JNum? ==> IsInt64(m[k].n)
  }

  /** Every id the host sends as a number fits in Swift's `Int`. */
  predicate HostIdsFitInt64(m: Dict)
  {
    NumberFits(m, "languageFromId") && NumberFits(m, "languageToId") &&
    NumberFits(m, "serviceTypeId") && NumberFits(m, "genderId")
  }

  /**
    What the host sends for a request builds exactly when its three ids fit in
    64 bits, and then, when the gender fits too, it builds that request less
    its additional data.
   */
  lemma HostRequestBuilds(q: CallRequest)
    ensures BuildCallRequest(AndroidBridge.RequestDict(q), q.isVideo).Some? <==>
      IsInt64(q.languageFromId) && IsInt64(q.languageToId) && IsInt64(q.serviceTypeId)
    ensures IdsFitInt64(q) ==> BuildCallRequest(AndroidBridge.RequestDict(q), q.isVideo) == Some(q.(data := None))
  {
    var m := AndroidBridge.RequestDict(q);
    assert m["languageFromId"] == JNum(q.languageFromId);
    assert m["languageToId"] == JNum(q.languageToId);
    assert m["serviceTypeId"] == JNum(q.serviceTypeId);
    if IdsFitInt64(q) {
      assert IntCast(m, "genderId") == q.genderId;
    }
    if q.data.Some? {
      var items := MapSeq(q.data.value, AndroidBridge.FieldValue);
      assert m["data"] == JArr(items);
      forall i | 0 <= i < |items|
        ensures EntryParses(items[i])
      {
        var f := q.data.value[i];
        assert items[i] == JObj(map["key" := JStr(f.key), "value" := JStr(f.value)]);
      }
    }
    assert DataParses(m);
  }

  /**
    Where Android builds a request and the `data` entries are plain string
    maps, iOS builds one exactly when the three ids fit in 64 bits. When every
    id fits, Android's request is iOS's with every id saturated to 32 bits,
    plus the data, and the two agree outright when the ids fit in 32 bits. A
    gender beyond 64 bits is dropped on iOS and saturated on Android.
   */
  lemma PlatformsAgreeOnRequests(m: Dict, isVideo: bool)
    requires AndroidBridge.BuildCallRequest(m, isVideo).Success?
    requires DataParses(m)
    ensures BuildCallRequest(m, isVideo).Some? <==>
      NumberFits(m, "languageFromId") && NumberFits(m, "languageToId") && NumberFits(m, "serviceTypeId")
    ensures HostIdsFitInt64(m) ==>
      && BuildCallRequest(m, isVideo).Some?
      && AndroidBridge.BuildCallRequest(m, isVideo).value.(data := None) ==
         AndroidBridge.SaturateIds(BuildCallRequest(m, isVideo).value)
    ensures HostIdsFitInt64(m) && BuildCallRequest(m, isVideo).Some? &&
            AndroidBridge.IdsFitInt32(BuildCallRequest(m, isVideo).value) ==>
      BuildCallRequest(m, isVideo) == Some(AndroidBridge.BuildCallRequest(m, isVideo).value.(data := None))
    ensures BuildCallRequest(m, isVideo).Some? && !NumberFits(m, "genderId") ==>
      && BuildCallRequest(m, isVideo).value.genderId.None?
      && AndroidBridge.BuildCallRequest(m, isVideo).value.genderId == Some(AndroidBridge.SaturateInt32(m["genderId"].n))
  {
    var q := AndroidBridge.BuildCallRequest(m, isVideo).value;
    if "genderId" in m && m["genderId"].JNum? {
      assert q.genderId == Some(AndroidBridge.SaturateInt32(m["genderId"].n));
    }
  }

  /** An id beyond 32 bits but within 64 reaches the client unchanged on iOS but saturated on Android. */
  lemma LargeIdDiverges(m: Dict, isVideo: bool)
    requires AndroidBridge.BuildCallRequest(m, isVideo).Success?
    requires DataParses(m)
    requires !Projection.IsInt32(m["languageFromId"].n)
    requires HostIdsFitInt64(m)
    ensures BuildCallRequest(m, isVideo).Some?
    ensures BuildCallRequest(m, isVideo).value.languageFromId == m["languageFromId"].n
    ensures AndroidBridge.BuildCallRequest(m, isVideo).value.languageFromId != m["languageFromId"].n
  {
  }

  /** An id beyond 64 bits traps on iOS, while Android builds the request with the id stuck at the nearer bound. */
  lemma HugeIdDiverges(m: Dict, isVideo: bool)
    requires AndroidBridge.BuildCallRequest(m, isVideo).Success?
    requires !IsInt64(m["languageFromId"].n)
    ensures BuildCallRequest(m, isVideo).None?
    ensures AndroidBridge.BuildCallRequest(m, isVideo).value.languageFromId ==
      (if m["languageFromId"].n > 0 then AndroidBridge.MaxInt32 else AndroidBridge.MinInt32)
  {
  }

  /** A `genderId` that is not a number faults on Android but is silently dropped on iOS. */
  lemma MistypedGenderDiverges(m: Dict, isVideo: bool)
    requires "genderId" in m && m["genderId"].JStr?
    requires BuildCallRequest(m, isVideo).Some?
    ensures BuildCallRequest(m, isVideo).value.genderId.None?
    ensures AndroidBridge.BuildCallRequest(m, isVideo).Failure?
  {
  }

  // ---------------------------------------------------------------------------
  // Completions

  /**
    How `initialize` and the fetches settle: success resolves with the
    projected value; an error rejects with a message from which an `apiCall`
    error's status code can be read back.
   */
  function SettleApi<T>(value: T, error: Option<SdkError>, project: T -> JVal): (e: Effect)
    ensures error.None? ==> e == Resolve(project(value))
    ensures error.Some? ==>
      && e.Reject? && e.message.Some?
      && |ErrorPrefix| <= |e.message.value|
      && e.message.value[..|ErrorPrefix|] == ErrorPrefix
      && StatusCodeOf(e.message.value, error.value.description) == error.value.statusCode
  {
    match error
    case None => Resolve(project(value))
    case Some(err) => Reject(Some(ApiErrorMessage(err)))
  }

  /** How the call commands settle: an error rejects with its description only. */
  function SettleCall<T>(value: T, error: Option<SdkError>, project: T -> JVal): (e: Effect)
    ensures error.None? ==> e == Resolve(project(value))
    ensures error.Some? ==>
      && e.Reject? && e.message.Some?
      && |ErrorPrefix| <= |e.message.value|
      && e.message.value[..|ErrorPrefix|] == ErrorPrefix
      && e.message.value[|ErrorPrefix|..] == error.value.description
  {
    match error
    case None => Resolve(project(value))
    case Some(err) => Reject(Some(CallErrorMessage(err)))
  }

  /** A call command's rejection does not depend on the status code. */
  lemma CallRejectionHidesStatus<T>(value: T, err: SdkError, code: Option<int>, project: T -> JVal)
    ensures SettleCall(value, Some(err.(statusCode := code)), project) == SettleCall(value, Some(err), project)
  {
  }

  /** The two settlements reject alike exactly when the error carries no status code. */
  lemma SettlementsDifferByStatus<T>(value: T, err: SdkError, project: T -> JVal)
    ensures SettleApi(value, Some(err), project) == SettleCall(value, Some(err), project) <==> err.statusCode.None?
  {
    if err.statusCode.Some? {
      assert |CallErrorMessage(err)| < |ApiErrorMessage(err)|;
    }
  }

  // ---------------------------------------------------------------------------
  // Commands

  /**
    `initialize`: both settings are force-cast to strings; then a fresh client
    replaces any old one and is asked to initialise (settled by `SettleApi`).
   */
  function Initialize(s: Bridge, config: Dict): (r: Run)
    ensures r.Trap? <==> StringCast(config, "authToken").None? || StringCast(config, "region").None?
    ensures r.Ran? ==>
      && r.bridge.sdk == Some(IosSdk(None, false))
      && r.bridge.hasListeners == s.hasListeners
      && r.bridge.localVideo == s.localVideo
      && r.effects == [Request(InitializeClient(config["authToken"].s, config["region"].s))]
  {
    match (StringCast(config, "authToken"), StringCast(config, "region"))
    case (Some(token), Some(region)) =>
      Ran(s.(sdk := Some(IosSdk(None, false))), [Request(InitializeClient(token, region))])
    case _ => Trap
  }

  /** `getCurrentCall`: the current call's dictionary, or null; a missing client traps. */
  function GetCurrentCall(s: Bridge): (r: Run)
    ensures r.Trap? <==> s.sdk.None?
    ensures r.Ran? ==>
      && r.bridge == s
      && |r.effects| == 1 && r.effects[0].Resolve?
      && (r.effects[0].value.JNull? <==> CurrentCall(s).None?)
      && (CurrentCall(s).Some? ==> CallOf(r.effects[0].value) == CurrentCall(s))
  {
    if s.sdk.None? then Trap
    else Ran(s, [Resolve(OrNull(CallAsDictionary(s.sdk.value.currentCall)))])
  }

  /**
    The commands that only unwrap the client and forward to it: `hangUp`,
    `sendChatMessage`, `toggleAudioRoute` and the five fetches.
   */
  function Forward(s: Bridge, q: EngineRequest): (r: Run)
    ensures r.Trap? <==> s.sdk.None?
    ensures r.Ran? ==> r.bridge == s && r.effects == [Request(q)]
  {
    if s.sdk.None? then Trap else Ran(s, [Request(q)])
  }

  /** The client after it has been made the chat delegate. */
  function WithChatDelegate(s: Bridge): Bridge
    requires s.sdk.Some?
  {
    s.(sdk := Some(s.sdk.value.(chatDelegate := true)))
  }

  /**
    `makeVoiceCall`: the request is built (trapping on a malformed one), the
    module becomes the client's chat delegate, and the call is placed.
   */
  function MakeVoiceCall(s: Bridge, m: Dict): (r: Run)
    ensures r.Trap? <==> BuildCallRequest(m, false).None? || s.sdk.None?
    ensures r.Ran? ==>
      && r.bridge.sdk == Some(s.sdk.value.(chatDelegate := true))
      && r.bridge.(sdk := s.sdk) == s
      && r.effects == [Request(PlaceVoiceCall(BuildCallRequest(m, false).value))]
  {
    match BuildCallRequest(m, false)
    case None => Trap
    case Some(q) =>
      if s.sdk.None? then Trap
      else Ran(WithChatDelegate(s), [Request(PlaceVoiceCall(q))])
  }

  /** `makeVideoCall`: as `makeVoiceCall`, with the local renderer attached. */
  function MakeVideoCall(s: Bridge, m: Dict): (r: Run)
    ensures r.Trap? <==> BuildCallRequest(m, true).None? || s.sdk.None?
    ensures r.Ran? ==>
      && r.bridge.sdk == Some(s.sdk.value.(chatDelegate := true))
      && r.bridge.(sdk := s.sdk) == s
      && r.effects == [Request(PlaceVideoCall(BuildCallRequest(m, true).value, s.localVideo))]
  {
    match BuildCallRequest(m, true)
    case None => Trap
    case Some(q) =>
      if s.sdk.None? then Trap
      else Ran(WithChatDelegate(s), [Request(PlaceVideoCall(q, s.localVideo))])
  }

  /** The view handed to `setLocalRenderer` is the one the next video call is placed with. */
  lemma LocalRendererReachesVideoCall(s: Bridge, view: Option<View>, m: Dict)
    requires s.sdk.Some? && BuildCallRequest(m, true).Some?
    ensures MakeVideoCall(SetLocalRenderer(s, view), m).Ran?
    ensures MakeVideoCall(SetLocalRenderer(s, view), m).effects[0].request.localVideo == view
  {
  }

  /** Replaces the current call; only meaningful when there is a client. */
  function WithCall(s: Bridge, c: IosCall): Bridge
    requires s.sdk.Some?
  {
    s.(sdk := Some(s.sdk.value.(currentCall := Some(c))))
  }

  /** `muteCall`: sets the current call's mute flag; no call, no change. */
  function MuteCall(s: Bridge, isMuted: bool): (r: Run)
    ensures r.Trap? <==> s.sdk.None?
    ensures r.Ran? ==> r.effects == []
    ensures r.Ran? && CurrentCall(s).None? ==> r.bridge == s
    ensures r.Ran? && CurrentCall(s).Some? ==>
      && r.bridge.sdk.Some?
      && CurrentCall(r.bridge) == Some(CurrentCall(s).value.(isMuted := isMuted))
      && r.bridge.sdk.value.chatDelegate == s.sdk.value.chatDelegate
      && r.bridge.hasListeners == s.hasListeners && r.bridge.localVideo == s.localVideo
  {
    if s.sdk.None? then Trap
    else
      match CurrentCall(s)
      case None => Ran(s, [])
      case Some(c) => Ran(WithCall(s, c.(isMuted := isMuted)), [])
  }

  /** After `muteCall(b)`, `getCurrentCall` resolves the same call with `isMuted: b`. */
  lemma MuteCallIsObserved(s: Bridge, isMuted: bool)
    requires CurrentCall(s).Some?
    ensures MuteCall(s, isMuted).Ran?
    ensures var read := GetCurrentCall(MuteCall(s, isMuted).bridge);
      && read.Ran?
      && read.effects[0].value.JObj?
      && read.effects[0].value.fields["isMuted"] == JBool(isMuted)
      && CallOf(read.effects[0].value) == Some(CurrentCall(s).value.(isMuted := isMuted))
  {
  }

  /** `enableVideo`: only a video call is affected. */
  function EnableVideo(s: Bridge, isVideoEnabled: bool): (r: Run)
    ensures r.Trap? <==> s.sdk.None?
    ensures r.Ran? ==> r.effects == []
    ensures r.Ran? && (CurrentCall(s).None? || CurrentCall(s).value.video.None?) ==> r.bridge == s
    ensures r.Ran? && CurrentCall(s).Some? && CurrentCall(s).value.video.Some? ==>
      var c := CurrentCall(s).value;
      && r.bridge.sdk.Some?
      && CurrentCall(r.bridge) == Some(c.(video := Some(c.video.value.(isVideoEnabled := isVideoEnabled))))
      && r.bridge.sdk.value.chatDelegate == s.sdk.value.chatDelegate
      && r.bridge.hasListeners == s.hasListeners && r.bridge.localVideo == s.localVideo
  {
    if s.sdk.None? then Trap
    else
      match CurrentCall(s)
      case Some(c) =>
        (match c.video
         case Some(v) => Ran(WithCall(s, c.(video := Some(v.(isVideoEnabled := isVideoEnabled)))), [])
         case None => Ran(s, []))
      case None => Ran(s, [])
  }

  /** `flipCamera`: asks a video call to switch camera, does nothing otherwise. */
  function FlipCamera(s: Bridge): (r: Run)
    ensures r.Trap? <==> s.sdk.None?
    ensures r.Ran? ==> r.bridge == s
    ensures r.Ran? ==> (r.effects != [] <==> CurrentCall(s).Some? && CurrentCall(s).value.video.Some?)
    ensures r.Ran? && r.effects != [] ==> r.effects == [Request(SwitchCamera)]
  {
    if s.sdk.None? then Trap
    else if CurrentCall(s).Some? && CurrentCall(s).value.video.Some? then Ran(s, [Request(SwitchCamera)])
    else Ran(s, [])
  }

  /**
    The guard shared by `dialThirdParty` and `hangUpThirdParty`: the client is
    unwrapped, a missing call resolves null, otherwise the call is asked.
   */
  function ThirdPartyCommand(s: Bridge, q: EngineRequest): (r: Run)
    ensures r.Trap? <==> s.sdk.None?
    ensures r.Ran? ==> r.bridge == s
    ensures r.Ran? && CurrentCall(s).None? ==> r.effects == [Resolve(JNull)]
    ensures r.Ran? && CurrentCall(s).Some? ==> r.effects == [Request(q)]
  {
    if s.sdk.None? then Trap
    else if CurrentCall(s).None? then Ran(s, [Resolve(JNull)])
    else Ran(s, [Request(q)])
  }

  /**
    `muteThirdParty([identity, mute])`: after the call guard, an element of
    the wrong type resolves null, but an array too short to index traps.
    `mute` is read with `as? Bool`, so a `0` or `1` counts as a boolean.
   */
  function MuteThirdParty(s: Bridge, args: seq<JVal>): (r: Run)
    ensures r.Trap? <==>
      s.sdk.None? || (CurrentCall(s).Some? && (|args| == 0 || (|args| == 1 && args[0].JStr?)))
    ensures r.Ran? ==> r.bridge == s && |r.effects| == 1
    ensures r.Ran? ==> (r.effects[0].Request? <==> CurrentCall(s).Some? && args[0].JStr? && BoolCast(args[1]).Some?)
    ensures r.Ran? && r.effects[0].Request? ==>
      r.effects == [Request(EngineRequest.MuteThirdParty(args[0].s, BoolCast(args[1]).value))]
    ensures r.Ran? && !r.effects[0].Request? ==> r.effects == [Resolve(JNull)]
  {
    if s.sdk.None? then Trap
    else if CurrentCall(s).None? then Ran(s, [Resolve(JNull)])
    else if |args| < 1 then Trap
    else if !args[0].JStr? then Ran(s, [Resolve(JNull)])
    else if |args| < 2 then Trap
    else
      match BoolCast(args[1])
      case None => Ran(s, [Resolve(JNull)])
      case Some(mute) => Ran(s, [Request(EngineRequest.MuteThirdParty(args[0].s, mute))])
  }

  /** A numeric `1` for `mute` mutes the participant on iOS; Android resolves null and sends nothing. */
  lemma NumericMuteDiverges(s: Bridge, a: AndroidBridge.Bridge, identity: string)
    requires CurrentCall(s).Some? && AndroidBridge.CurrentCall(a).Some?
    ensures MuteThirdParty(s, [JStr(identity), JNum(1)]) ==
            Ran(s, [Request(EngineRequest.MuteThirdParty(identity, true))])
    ensures AndroidBridge.MuteThirdParty(a, [JStr(identity), JNum(1)]).effects == [Resolve(JNull)]
  {
  }

  /**
    With a client on both platforms and the same answer to "is there a call",
    the `dialThirdParty` and `hangUpThirdParty` guards act alike wherever iOS
    does not trap.
   */
  lemma PlatformsAgreeOnThirdPartyCommands(s: Bridge, a: AndroidBridge.Bridge, q: EngineRequest)
    requires a.sdk.Some?
    requires CurrentCall(s).Some? <==> AndroidBridge.CurrentCall(a).Some?
    requires ThirdPartyCommand(s, q).Ran?
    ensures AndroidBridge.ThirdPartyCommand(a, q).effects == ThirdPartyCommand(s, q).effects
  {
  }

  /**
    Under the same conditions `muteThirdParty` acts alike on both platforms,
    except exactly where `mute` is the number `0` or `1`, which only iOS
    accepts as a boolean.
   */
  lemma PlatformsAgreeOnMuteThirdParty(s: Bridge, a: AndroidBridge.Bridge, args: seq<JVal>)
    requires a.sdk.Some?
    requires CurrentCall(s).Some? <==> AndroidBridge.CurrentCall(a).Some?
    requires MuteThirdParty(s, args).Ran?
    ensures AndroidBridge.MuteThirdParty(a, args).effects == MuteThirdParty(s, args).effects <==>
      !(CurrentCall(s).Some? && args[0].JStr? && args[1].JNum? && (args[1].n == 0 || args[1].n == 1))
  {
  }

  /**
    `dispose`: forgets the local renderer and the client (after resigning as
    its chat delegate). The listener flag is the emitter's and is kept.
   */
  function Dispose(s: Bridge): (r: Run)
    ensures r.Ran? && r.effects == []
    ensures r.bridge.sdk.None? && r.bridge.localVideo.None?
    ensures r.bridge.hasListeners == s.hasListeners
  {
    Ran(Bridge(None, s.hasListeners, None), [])
  }

  /** A second `dispose` changes nothing. */
  lemma DisposeIdempotent(s: Bridge)
    ensures Dispose(Dispose(s).bridge) == Dispose(s)
  {
  }

  /** After `dispose`, every command that unwraps the client traps. */
  lemma DisposedClientTraps(s: Bridge, q: EngineRequest, m: Dict, isMuted: bool, args: seq<JVal>)
    ensures var d := Dispose(s).bridge;
      && GetCurrentCall(d).Trap?
      && Forward(d, q).Trap?
      && MakeVoiceCall(d, m).Trap?
      && MakeVideoCall(d, m).Trap?
      && MuteCall(d, isMuted).Trap?
      && ThirdPartyCommand(d, q).Trap?
      && MuteThirdParty(d, args).Trap?
  {
  }

  // ---------------------------------------------------------------------------
  // Delegate callbacks (`BLCallDelegate`, `BLChatDelegate`)

  datatype Callback =
    | CallDidConnect(call: IosCall)
    | CallDidDisconnect(error: Option<SdkError>)
    | CallDidFailToConnect(error: Option<SdkError>)
    | CallParticipantConnected(participant: IosParticipant)
    | CallParticipantUpdated(participant: IosParticipant)
    | CallParticipantDisconnected(participant: IosParticipant)
    | ChatConnected
    | ChatDisconnected
    | ChatMessageRecieved(message: ChatMessage)

  /** The name each callback is sent under: its own. */
  function CallbackName(c: Callback): (r: string)
    ensures r in Events.SupportedEvents
  {
    match c
    case CallDidConnect(_) => Events.CallDidConnect
    case CallDidDisconnect(_) => Events.CallDidDisconnect
    case CallDidFailToConnect(_) => Events.CallDidFailToConnect
    case CallParticipantConnected(_) => Events.CallParticipantConnected
    case CallParticipantUpdated(_) => Events.CallParticipantUpdated
    case CallParticipantDisconnected(_) => Events.CallParticipantDisconnected
    case ChatConnected => Events.ChatConnected
    case ChatDisconnected => Events.ChatDisconnected
    case ChatMessageRecieved(_) => Events.ChatMessageRecieved
  }

  /** A callback for each supported name: the inverse of `CallbackName`, up to payload. */
  function CallbackNamed(name: string): (c: Callback)
    requires name in Events.SupportedEvents
    ensures CallbackName(c) == name
  {
    if name == Events.CallDidConnect then CallDidConnect(IosCall(None, 0, false, false, None, false, "", "", [], false, None))
    else if name == Events.CallDidDisconnect then CallDidDisconnect(None)
    else if name == Events.CallDidFailToConnect then CallDidFailToConnect(None)
    else if name == Events.ChatConnected then Callback.ChatConnected
    else if name == Events.ChatDisconnected then Callback.ChatDisconnected
    else if name == Events.ChatMessageRecieved then ChatMessageRecieved(ChatMessage(ChatUser(0, None), "", 0))
    else
      var p := IosParticipant(None, None, "", 0, None, "", None, "", 0, false, false, false, false);
      if name == Events.CallParticipantConnected then CallParticipantConnected(p)
      else if name == Events.CallParticipantUpdated then CallParticipantUpdated(p)
      else CallParticipantDisconnected(p)
  }

  /** Android and iOS publish exactly the same names. */
  lemma PlatformsPublishSameNames(name: string)
    ensures (exists c :: CallbackName(c) == name) <==> name in Events.SupportedEvents
    ensures (exists ev :: AndroidBridge.EventName(ev) == name) <==> name in Events.SupportedEvents
  {
    if name in Events.SupportedEvents {
      var c := CallbackNamed(name);
      AndroidBridge.EventNamesCoverSupportedEvents(name);
    }
  }

  /**
    An Android engine event and an iOS delegate callback that report the same
    occurrence: the call connecting, disconnecting or failing to connect, a
    participant joining, changing or leaving, the chat connecting or
    disconnecting, or a chat message arriving.
   */
  predicate Counterparts(ev: CallEvent, c: Callback)
  {
    match ev
    case CallConnected(_) => c.CallDidConnect?
    case CallDisconnected(_) => c.CallDidDisconnect?
    case CallFailedToConnect(_) => c.CallDidFailToConnect?
    case ParticipantAdded(_) => c.CallParticipantConnected?
    case ParticipantUpdated(_) => c.CallParticipantUpdated?
    case ParticipantRemoved(_) => c.CallParticipantDisconnected?
    case ChatConnected => c.ChatConnected?
    case ChatDisconnected => c.ChatDisconnected?
    case ChatMessageReceived(_) => c.ChatMessageRecieved?
  }

  /** The two platforms publish an occurrence under the same name, and different occurrences under different names. */
  lemma PlatformsNameEventsAlike(ev: CallEvent, c: Callback)
    ensures AndroidBridge.EventName(ev) == CallbackName(c) <==> Counterparts(ev, c)
  {
    Events.SupportedEventsDistinct();
  }

  /** The payload of each callback. */
  function CallbackBody(c: Callback): (r: JVal)
    ensures c.CallDidConnect? ==> CallOf(r) == Some(c.call)
    ensures c.CallDidDisconnect? || c.CallDidFailToConnect? ==>
      && (r.JNull? <==> c.error.None?)
      && (c.error.Some? ==> r == JStr(c.error.value.description))
    ensures c.CallParticipantConnected? || c.CallParticipantUpdated? || c.CallParticipantDisconnected? ==>
      ParticipantOf(r) == Some(c.participant)
    ensures c.ChatConnected? || c.ChatDisconnected? ==> r == JNull
    ensures c.ChatMessageRecieved? ==> ChatMessageOf(r) == Some(c.message)
  {
    match c
    case CallDidConnect(call) => OrNull(CallAsDictionary(Some(call)))
    case CallDidDisconnect(e) => if e.Some? then JStr(e.value.description) else JNull
    case CallDidFailToConnect(e) => if e.Some? then JStr(e.value.description) else JNull
    case CallParticipantConnected(p) => OrNull(ParticipantAsDictionary(Some(p)))
    case CallParticipantUpdated(p) => OrNull(ParticipantAsDictionary(Some(p)))
    case CallParticipantDisconnected(p) => OrNull(ParticipantAsDictionary(Some(p)))
    case ChatConnected => JNull
    case ChatDisconnected => JNull
    case ChatMessageRecieved(msg) => OrNull(ChatMessageAsDictionary(Some(msg)))
  }

  /** A callback sends its event only while the host listens. */
  function Notify(s: Bridge, c: Callback): (r: seq<Effect>)
    ensures !s.hasListeners ==> r == []
    ensures s.hasListeners ==> r == [Emit(CallbackName(c), CallbackBody(c))]
  {
    if s.hasListeners then [Emit(CallbackName(c), CallbackBody(c))] else []
  }

  /** The effects of a run of callbacks. Callbacks leave the state unchanged. */
  function NotifyAll(s: Bridge, cs: seq<Callback>): (r: seq<Effect>)
    ensures !s.hasListeners ==> r == []
    ensures |r| <= |cs|
  {
    if cs == [] then [] else Notify(s, cs[0]) + NotifyAll(s, cs[1..])
  }

  function CallbackNames(cs: seq<Callback>): (r: seq<string>)
    ensures |r| == |cs| && forall i :: 0 <= i < |cs| ==> r[i] == CallbackName(cs[i])
  {
    if cs == [] then [] else [CallbackName(cs[0])] + CallbackNames(cs[1..])
  }

  /** While the host listens, it sees one event per callback, named in order, and nothing else. */
  lemma {:induction false} NotifyAllEmitsInOrder(s: Bridge, cs: seq<Callback>)
    requires s.hasListeners
    ensures Emitted(NotifyAll(s, cs)) == CallbackNames(cs)
    ensures |NotifyAll(s, cs)| == |cs|
  {
    if cs != [] {
      NotifyAllEmitsInOrder(s, cs[1..]);
      EmittedAppend(Notify(s, cs[0]), NotifyAll(s, cs[1..]));
    }
  }

  /** `stopObserving` silences every later callback; `startObserving` lets them all through. */
  lemma ListenerGate(s: Bridge, cs: seq<Callback>)
    ensures NotifyAll(StopObserving(s), cs) == []
    ensures Emitted(NotifyAll(StartObserving(s), cs)) == CallbackNames(cs)
  {
    NotifyAllEmitsInOrder(StartObserving(s), cs);
  }
}

=== FILE: ios_projection.dfy ===
/**
  The iOS module's hand-written `…AsDictionary` projections. They return Swift
  `[String: Any]?` values: `nil` for a missing entity, and a dictionary built
  by key assignment, so an optional that is `nil` leaves its key out instead of
  writing an explicit null as Android does. Enum fields are sent as the
  engine's raw values.
 */
module IosProjection {
  import opened Wrappers
  import opened Json
  import opened Engine
  import Projection

  /** The iOS engine's `BLParticipant`: two optional account ids and raw enum values. */
  datatype IosParticipant = IosParticipant(
    userAccountId: Option<int>,
    thirdPartyParticipantId: Option<int>,
    identity: string,
    participantType: int,
    imageInfo: Option<ImageInfo>,
    requiredName: string,
    rating: Option<int>,
    companyName: string,
    state: int,
    isAudioEnabled: bool,
    isVideoEnabled: bool,
    muteActionIsEnabled: bool,
    removeActionIsEnabled: bool)

  /** The iOS engine's `BLCall`; `video` is present exactly when it is a `BLVideoCall`. */
  datatype IosCall = IosCall(
    callId: Option<int>,
    currentUserId: int,
    isVideo: bool,
    isInProgress: bool,
    interlocutorInfo: Option<IosParticipant>,
    isMuted: bool,
    accessToken: string,
    identity: string,
    participants: seq<IosParticipant>,
    canAddThirdParty: bool,
    video: Option<VideoFeatures>)

  /** A Swift `[String: Any]?` handed to the host: `nil` arrives as null. */
  function OrNull(o: Option<JVal>): (r: JVal)
    ensures o.None? ==> r == JNull
    ensures o.Some? ==> r == o.value
  {
    if o.Some? then o.value else JNull
  }

  // ---------------------------------------------------------------------------
  // ImageInfo

  /** `imageInfoAsDictionary`: the same four keys Android sends. */
  function ImageInfoAsDictionary(o: Option<ImageInfo>): (r: Option<JVal>)
    ensures r.None? <==> o.None?
    ensures OrNull(r) == Projection.MapImageInfo(o)
    ensures o.Some? ==> Projection.ImageInfoOf(r.value) == o
  {
    match o
    case None => None
    case Some(i) => Some(Projection.ProjectImageInfo(i))
  }

  // ---------------------------------------------------------------------------
  // Participant

  /** The keys every participant dictionary has. */
  const ParticipantRequiredKeys: set<string> := {
    "identity", "participantType", "requiredName", "companyName", "state",
    "isAudioEnabled", "isVideoEnabled", "muteActionIsEnabled", "removeActionIsEnabled"}

  /** The keys a participant dictionary has only when their values are not `nil`. */
  const ParticipantOptionalKeys: set<string> :=
    {"userAccountId", "thirdPartyParticipantId", "imageInfo", "rating"}

  const ParticipantKeys: set<string> := ParticipantRequiredKeys + ParticipantOptionalKeys

  function OptNum(o: Option<int>): (r: Option<JVal>)
    ensures r.None? <==> o.None?
    ensures o.Some? ==> r == Some(JNum(o.value))
  {
    if o.Some? then Some(JNum(o.value)) else None
  }

  /** The four optional keys of a participant's dictionary. */
  function ParticipantOptionals(p: IosParticipant, image: Option<JVal>): Dict
  {
    var d1 := Assign(map[], "userAccountId", OptNum(p.userAccountId));
    var d2 := Assign(d1, "thirdPartyParticipantId", OptNum(p.thirdPartyParticipantId));
    var d3 := Assign(d2, "imageInfo", image);
    Assign(d3, "rating", OptNum(p.rating))
  }

  /** `d` with a participant's nine always-present keys written into it. */
  function WithParticipantRequired(d: Dict, p: IosParticipant): Dict
  {
    d["identity" := JStr(p.identity)]
      ["participantType" := JNum(p.participantType)]
      ["requiredName" := JStr(p.requiredName)]
      ["companyName" := JStr(p.companyName)]
      ["state" := JNum(p.state)]
      ["isAudioEnabled" := JBool(p.isAudioEnabled)]
      ["isVideoEnabled" := JBool(p.isVideoEnabled)]
      ["muteActionIsEnabled" := JBool(p.muteActionIsEnabled)]
      ["removeActionIsEnabled" := JBool(p.removeActionIsEnabled)]
  }

  /** The participant's dictionary: its optional keys assigned, then its nine other keys. */
  function ParticipantDict(p: IosParticipant, image: Option<JVal>): Dict
  {
    WithParticipantRequired(ParticipantOptionals(p, image), p)
  }

  lemma ParticipantIdValues(p: IosParticipant, image: Option<JVal>)
    ensures var m := ParticipantOptionals(p, image);
      && ("userAccountId" in m <==> p.userAccountId.Some?)
      && ("thirdPartyParticipantId" in m <==> p.thirdPartyParticipantId.Some?)
      && (p.userAccountId.Some? ==> m["userAccountId"] == JNum(p.userAccountId.value))
      && (p.thirdPartyParticipantId.Some? ==> m["thirdPartyParticipantId"] == JNum(p.thirdPartyParticipantId.value))
  {
  }

  lemma ParticipantOptionalValues(p: IosParticipant, image: Option<JVal>)
    ensures var m := ParticipantOptionals(p, image);
      && ("imageInfo" in m <==> image.Some?)
      && ("rating" in m <==> p.rating.Some?)
      && (image.Some? ==> m["imageInfo"] == image.value)
      && (p.rating.Some? ==> m["rating"] == JNum(p.rating.value))
  {
  }

  lemma ParticipantOptionalKeysOnly(p: IosParticipant, image: Option<JVal>)
    ensures ParticipantOptionals(p, image).Keys <= ParticipantOptionalKeys
  {
  }

  lemma ParticipantRequiredValues(d: Dict, p: IosParticipant)
    ensures var m := WithParticipantRequired(d, p);
      && m["identity"] == JStr(p.identity)
      && m["participantType"] == JNum(p.participantType)
      && m["requiredName"] == JStr(p.requiredName)
      && m["companyName"] == JStr(p.companyName)
      && m["state"] == JNum(p.state)
  {
  }

  lemma ParticipantFlagValues(d: Dict, p: IosParticipant)
    ensures var m := WithParticipantRequired(d, p);
      && m["isAudioEnabled"] == JBool(p.isAudioEnabled)
      && m["isVideoEnabled"] == JBool(p.isVideoEnabled)
      && m["muteActionIsEnabled"] == JBool(p.muteActionIsEnabled)
      && m["removeActionIsEnabled"] == JBool(p.removeActionIsEnabled)
  {
  }

  lemma ParticipantRequiredKeysAdded(d: Dict, p: IosParticipant)
    ensures WithParticipantRequired(d, p).Keys == d.Keys + ParticipantRequiredKeys
  {
  }

  /** Writing the required keys leaves every other key as it was. */
  lemma ParticipantRequiredKeeps(d: Dict, p: IosParticipant, k: string)
    requires k !in ParticipantRequiredKeys
    ensures var m := WithParticipantRequired(d, p);
      && (k in m <==> k in d)
      && (k in d ==> m[k] == d[k])
  {
  }

  /** Each account id key of the finished dictionary is present exactly when its value is, and reads back. */
  lemma ParticipantDictIds(p: IosParticipant)
    ensures var m := ParticipantDict(p, ImageInfoAsDictionary(p.imageInfo));
      && ("userAccountId" in m <==> p.userAccountId.Some?)
      && ("thirdPartyParticipantId" in m <==> p.thirdPartyParticipantId.Some?)
      && OptionalAt(m, "userAccountId", AsNum) == Some(p.userAccountId)
      && OptionalAt(m, "thirdPartyParticipantId", AsNum) == Some(p.thirdPartyParticipantId)
  {
    var d := ParticipantOptionals(p, ImageInfoAsDictionary(p.imageInfo));
    ParticipantIdValues(p, ImageInfoAsDictionary(p.imageInfo));
    ParticipantRequiredKeeps(d, p, "userAccountId");
    ParticipantRequiredKeeps(d, p, "thirdPartyParticipantId");
  }

  /** `imageInfo` and `rating` are present exactly when their values are, and read back. */
  lemma ParticipantDictOptionals(p: IosParticipant)
    ensures var m := ParticipantDict(p, ImageInfoAsDictionary(p.imageInfo));
      && ("imageInfo" in m <==> p.imageInfo.Some?)
      && ("rating" in m <==> p.rating.Some?)
      && OptionalAt(m, "imageInfo", Projection.ImageInfoOf) == Some(p.imageInfo)
      && OptionalAt(m, "rating", AsNum) == Some(p.rating)
  {
    var d := ParticipantOptionals(p, ImageInfoAsDictionary(p.imageInfo));
    ParticipantOptionalValues(p, ImageInfoAsDictionary(p.imageInfo));
    ParticipantRequiredKeeps(d, p, "imageInfo");
    ParticipantRequiredKeeps(d, p, "rating");
  }

  function ProjectParticipant(p: IosParticipant): (r: JVal)
    ensures r.JObj? && ParticipantRequiredKeys <= r.fields.Keys <= ParticipantKeys
    ensures "userAccountId" in r.fields <==> p.userAccountId.Some?
    ensures "thirdPartyParticipantId" in r.fields <==> p.thirdPartyParticipantId.Some?
    ensures "imageInfo" in r.fields <==> p.imageInfo.Some?
    ensures "rating" in r.fields <==> p.rating.Some?
  {
    var image := ImageInfoAsDictionary(p.imageInfo);
    ParticipantOptionalKeysOnly(p, image);
    ParticipantRequiredKeysAdded(ParticipantOptionals(p, image), p);
    ParticipantDictIds(p);
    ParticipantDictOptionals(p);
    JObj(ParticipantDict(p, image))
  }

  function ParticipantOf(v: JVal): Option<IosParticipant>
  {
    if !v.JObj? then None
    else
      var m := v.fields;
      var user :- OptionalAt(m, "userAccountId", AsNum);
      var third :- OptionalAt(m, "thirdPartyParticipantId", AsNum);
      var identity :- StrAt(m, "identity");
      var kind :- NumAt(m, "participantType");
      var image :- OptionalAt(m, "imageInfo", Projection.ImageInfoOf);
      var name :- StrAt(m, "requiredName");
      var rating :- OptionalAt(m, "rating", AsNum);
      var company :- StrAt(m, "companyName");
      var state :- NumAt(m, "state");
      var audio :- BoolAt(m, "isAudioEnabled");
      var video :- BoolAt(m, "isVideoEnabled");
      var mute :- BoolAt(m, "muteActionIsEnabled");
      var remove :- BoolAt(m, "removeActionIsEnabled");
      Some(IosParticipant(user, third, identity, kind, image, name, rating, company, state, audio, video, mute, remove))
  }

  /** The decoder reads back any dictionary whose fields hold `p`'s values. */
  lemma ParticipantOfFields(m: Dict, p: IosParticipant)
    requires OptionalAt(m, "userAccountId", AsNum) == Some(p.userAccountId)
    requires OptionalAt(m, "thirdPartyParticipantId", AsNum) == Some(p.thirdPartyParticipantId)
    requires OptionalAt(m, "imageInfo", Projection.ImageInfoOf) == Some(p.imageInfo)
    requires OptionalAt(m, "rating", AsNum) == Some(p.rating)
    requires StrAt(m, "identity") == Some(p.identity)
    requires NumAt(m, "participantType") == Some(p.participantType)
    requires StrAt(m, "requiredName") == Some(p.requiredName)
    requires StrAt(m, "companyName") == Some(p.companyName)
    requires NumAt(m, "state") == Some(p.state)
    requires BoolAt(m, "isAudioEnabled") == Some(p.isAudioEnabled)
    requires BoolAt(m, "isVideoEnabled") == Some(p.isVideoEnabled)
    requires BoolAt(m, "muteActionIsEnabled") == Some(p.muteActionIsEnabled)
    requires BoolAt(m, "removeActionIsEnabled") == Some(p.removeActionIsEnabled)
    ensures ParticipantOf(JObj(m)) == Some(p)
  {
  }

  lemma ParticipantRoundTrip(p: IosParticipant)
    ensures ParticipantOf(ProjectParticipant(p)) == Some(p)
  {
    var image := ImageInfoAsDictionary(p.imageInfo);
    var d := ParticipantOptionals(p, image);
    ParticipantRequiredKeysAdded(d, p);
    ParticipantRequiredValues(d, p);
    ParticipantFlagValues(d, p);
    ParticipantDictIds(p);
    ParticipantDictOptionals(p);
    ParticipantOfFields(ParticipantDict(p, image), p);
  }

  /** `participantAsDictionary`: `nil` for no participant; nothing is lost otherwise. */
  function ParticipantAsDictionary(o: Option<IosParticipant>): (r: Option<JVal>)
    ensures r.None? <==> o.None?
    ensures o.Some? ==> ParticipantOf(r.value) == o
  {
    match o
    case None => None
    case Some(p) =>
      ParticipantRoundTrip(p);
      Some(ProjectParticipant(p))
  }

  /** `participantsAsDictionary`: one dictionary per participant, in order. */
  function ParticipantsAsDictionary(ps: seq<IosParticipant>): (r: seq<JVal>)
    ensures |r| == |ps|
    ensures forall i :: 0 <= i < |ps| ==> ParticipantOf(r[i]) == Some(ps[i])
    ensures DecodeSeq(r, ParticipantOf) == Some(ps)
  {
    ParticipantsRoundTrip(ps);
    MapSeq(ps, ProjectParticipant)
  }

  lemma ParticipantsRoundTrip(ps: seq<IosParticipant>)
    ensures forall p :: p in ps ==> ParticipantOf(ProjectParticipant(p)) == Some(p)
    ensures DecodeSeq(MapSeq(ps, ProjectParticipant), ParticipantOf) == Some(ps)
  {
    forall p | p in ps ensures ParticipantOf(ProjectParticipant(p)) == Some(p) {
      ParticipantRoundTrip(p);
    }
    DecodeMapSeq(ps, ProjectParticipant, ParticipantOf);
  }

  // ---------------------------------------------------------------------------
  // Call

  /** The keys every call dictionary has. */
  const CallRequiredKeys: set<string> := {
    "currentUserId", "isVideo", "isInProgress", "isMuted",
    "accessToken", "identity", "participants", "canAddThirdParty"}

  /** The keys a call dictionary has only when their values are not `nil`, or only for video calls. */
  const CallOptionalKeys: set<string> := {"callId", "interlocutorInfo", "isVideoEnabled", "roomId"}

  const CallKeys: set<string> := CallRequiredKeys + CallOptionalKeys

  /** The optional and video-only keys of a call's dictionary. */
  function CallOptionals(c: IosCall, interlocutor: Option<JVal>): Dict
  {
    var d1 := Assign(map[], "callId", OptNum(c.callId));
    var d2 := Assign(d1, "interlocutorInfo", interlocutor);
    var d3 := Assign(d2, "isVideoEnabled", if c.video.Some? then Some(JBool(c.video.value.isVideoEnabled)) else None);
    Assign(d3, "roomId", if c.video.Some? then Some(JStr(c.video.value.roomId)) else None)
  }

  /** `d` with a call's eight always-present keys written into it. */
  function WithCallRequired(d: Dict, c: IosCall, participants: seq<JVal>): Dict
  {
    d["currentUserId" := JNum(c.currentUserId)]
      ["isVideo" := JBool(c.isVideo)]
      ["isInProgress" := JBool(c.isInProgress)]
      ["isMuted" := JBool(c.isMuted)]
      ["accessToken" := JStr(c.accessToken)]
      ["identity" := JStr(c.identity)]
      ["participants" := JArr(participants)]
      ["canAddThirdParty" := JBool(c.canAddThirdParty)]
  }

  /** The call's dictionary: its optional and video-only keys assigned, then its eight other keys. */
  function CallDict(c: IosCall, interlocutor: Option<JVal>, participants: seq<JVal>): Dict
  {
    WithCallRequired(CallOptionals(c, interlocutor), c, participants)
  }

  lemma CallIdValues(c: IosCall, interlocutor: Option<JVal>)
    ensures var m := CallOptionals(c, interlocutor);
      && ("callId" in m <==> c.callId.Some?)
      && ("interlocutorInfo" in m <==> interlocutor.Some?)
      && (c.callId.Some? ==> m["callId"] == JNum(c.callId.value))
      && (interlocutor.Some? ==> m["interlocutorInfo"] == interlocutor.value)
  {
  }

  lemma CallVideoValues(c: IosCall, interlocutor: Option<JVal>)
    ensures var m := CallOptionals(c, interlocutor);
      && ("isVideoEnabled" in m <==> c.video.Some?)
      && ("roomId" in m <==> c.video.Some?)
      && (c.video.Some? ==> m["isVideoEnabled"] == JBool(c.video.value.isVideoEnabled))
      && (c.video.Some? ==> m["roomId"] == JStr(c.video.value.roomId))
  {
  }

  lemma CallOptionalKeysOnly(c: IosCall, interlocutor: Option<JVal>)
    ensures CallOptionals(c, interlocutor).Keys <= CallOptionalKeys
  {
  }

  lemma CallRequiredValues(d: Dict, c: IosCall, participants: seq<JVal>)
    ensures var m := WithCallRequired(d, c, participants);
      && m["currentUserId"] == JNum(c.currentUserId)
      && m["isVideo"] == JBool(c.isVideo)
      && m["isInProgress"] == JBool(c.isInProgress)
      && m["isMuted"] == JBool(c.isMuted)
  {
  }

  lemma CallRequiredRest(d: Dict, c: IosCall, participants: seq<JVal>)
    ensures var m := WithCallRequired(d, c, participants);
      && m["accessToken"] == JStr(c.accessToken)
      && m["identity"] == JStr(c.identity)
      && m["participants"] == JArr(participants)
      && m["canAddThirdParty"] == JBool(c.canAddThirdParty)
  {
  }

  lemma CallRequiredKeysAdded(d: Dict, c: IosCall, participants: seq<JVal>)
    ensures WithCallRequired(d, c, participants).Keys == d.Keys + CallRequiredKeys
  {
  }

  /** Writing the required keys leaves every other key as it was. */
  lemma CallRequiredKeeps(d: Dict, c: IosCall, participants: seq<JVal>, k: string)
    requires k !in CallRequiredKeys
    ensures var m := WithCallRequired(d, c, participants);
      && (k in m <==> k in d)
      && (k in d ==> m[k] == d[k])
  {
  }

  /** `callId` and `interlocutorInfo` are present exactly when their values are, and read back. */
  lemma CallDictIds(c: IosCall, participants: seq<JVal>)
    ensures var m := CallDict(c, ParticipantAsDictionary(c.interlocutorInfo), participants);
      && ("callId" in m <==> c.callId.Some?)
      && ("interlocutorInfo" in m <==> c.interlocutorInfo.Some?)
      && OptionalAt(m, "callId", AsNum) == Some(c.callId)
      && OptionalAt(m, "interlocutorInfo", ParticipantOf) == Some(c.interlocutorInfo)
  {
    var interlocutor := ParticipantAsDictionary(c.interlocutorInfo);
    var d := CallOptionals(c, interlocutor);
    CallIdValues(c, interlocutor);
    CallRequiredKeeps(d, c, participants, "callId");
    CallRequiredKeeps(d, c, participants, "interlocutorInfo");
  }

  /** The video-only keys are present exactly for video calls, and read back. */
  lemma CallDictVideo(c: IosCall, participants: seq<JVal>)
    ensures var m := CallDict(c, ParticipantAsDictionary(c.interlocutorInfo), participants);
      && ("isVideoEnabled" in m <==> c.video.Some?)
      && ("roomId" in m <==> c.video.Some?)
      && VideoOf(m) == Some(c.video)
  {
    var interlocutor := ParticipantAsDictionary(c.interlocutorInfo);
    var d := CallOptionals(c, interlocutor);
    CallVideoValues(c, interlocutor);
    CallRequiredKeeps(d, c, participants, "isVideoEnabled");
    CallRequiredKeeps(d, c, participants, "roomId");
  }

  function ProjectCall(c: IosCall): (r: JVal)
    ensures r.JObj? && CallRequiredKeys <= r.fields.Keys <= CallKeys
    ensures "callId" in r.fields <==> c.callId.Some?
    ensures "interlocutorInfo" in r.fields <==> c.interlocutorInfo.Some?
    ensures "isVideoEnabled" in r.fields <==> c.video.Some?
    ensures "roomId" in r.fields <==> c.video.Some?
    ensures r.fields["isMuted"] == JBool(c.isMuted)
    ensures r.fields["participants"].JArr? && |r.fields["participants"].items| == |c.participants|
    ensures forall i :: 0 <= i < |c.participants| ==>
      ParticipantOf(r.fields["participants"].items[i]) == Some(c.participants[i])
  {
    var interlocutor := ParticipantAsDictionary(c.interlocutorInfo);
    var participants := ParticipantsAsDictionary(c.participants);
    var d := CallOptionals(c, interlocutor);
    CallOptionalKeysOnly(c, interlocutor);
    CallRequiredKeysAdded(d, c, participants);
    CallRequiredValues(d, c, participants);
    CallRequiredRest(d, c, participants);
    CallDictIds(c, participants);
    CallDictVideo(c, participants);
    JObj(CallDict(c, interlocutor, participants))
  }

  /** Reads the video-only keys back: both present or both absent. */
  function VideoOf(m: Dict): Option<Option<VideoFeatures>>
  {
    if "isVideoEnabled" !in m && "roomId" !in m then Some(None)
    else
      var enabled :- BoolAt(m, "isVideoEnabled");
      var room :- StrAt(m, "roomId");
      Some(Some(VideoFeatures(enabled, room)))
  }

  function CallOf(v: JVal): Option<IosCall>
  {
    if !v.JObj? then None
    else
      var m := v.fields;
      var callId :- OptionalAt(m, "callId", AsNum);
      var user :- NumAt(m, "currentUserId");
      var isVideo :- BoolAt(m, "isVideo");
      var inProgress :- BoolAt(m, "isInProgress");
      var interlocutor :- OptionalAt(m, "interlocutorInfo", ParticipantOf);
      var muted :- BoolAt(m, "isMuted");
      var token :- StrAt(m, "accessToken");
      var identity :- StrAt(m, "identity");
      var items :- ArrAt(m, "participants");
      var participants :- DecodeSeq(items, ParticipantOf);
      var canAdd :- BoolAt(m, "canAddThirdParty");
      var video :- VideoOf(m);
      Some(IosCall(callId, user, isVideo, inProgress, interlocutor, muted, token, identity,
                   participants, canAdd, video))
  }

  /** The decoder reads back any dictionary whose fields hold `c`'s values. */
  lemma CallOfFields(m: Dict, c: IosCall)
    requires OptionalAt(m, "callId", AsNum) == Some(c.callId)
    requires NumAt(m, "currentUserId") == Some(c.currentUserId)
    requires BoolAt(m, "isVideo") == Some(c.isVideo)
    requires BoolAt(m, "isInProgress") == Some(c.isInProgress)
    requires OptionalAt(m, "interlocutorInfo", ParticipantOf) == Some(c.interlocutorInfo)
    requires BoolAt(m, "isMuted") == Some(c.isMuted)
    requires StrAt(m, "accessToken") == Some(c.accessToken)
    requires StrAt(m, "identity") == Some(c.identity)
    requires ArrAt(m, "participants").Some?
    requires DecodeSeq(ArrAt(m, "participants").value, ParticipantOf) == Some(c.participants)
    requires BoolAt(m, "canAddThirdParty") == Some(c.canAddThirdParty)
    requires VideoOf(m) == Some(c.video)
    ensures CallOf(JObj(m)) == Some(c)
  {
  }

  lemma CallRoundTrip(c: IosCall)
    ensures CallOf(ProjectCall(c)) == Some(c)
  {
    var interlocutor := ParticipantAsDictionary(c.interlocutorInfo);
    var participants := ParticipantsAsDictionary(c.participants);
    var d := CallOptionals(c, interlocutor);
    CallRequiredKeysAdded(d, c, participants);
    CallRequiredValues(d, c, participants);
    CallRequiredRest(d, c, participants);
    CallDictIds(c, participants);
    CallDictVideo(c, participants);
    CallOfFields(CallDict(c, interlocutor, participants), c);
  }

  /** `callAsDictionary`: `nil` for no call; nothing is lost otherwise. */
  function CallAsDictionary(o: Option<IosCall>): (r: Option<JVal>)
    ensures r.None? <==> o.None?
    ensures o.Some? ==> CallOf(r.value) == o
    ensures o.Some? ==>
      && r.value.JObj?
      && (("isVideoEnabled" !in r.value.fields && "roomId" !in r.value.fields) <==> o.value.video.None?)
  {
    match o
    case None => None
    case Some(c) =>
      CallRoundTrip(c);
      Some(ProjectCall(c))
  }

  // ---------------------------------------------------------------------------
  // Profile, call details, chat

  const ProfileKeys: set<string> := Projection.ProfileKeys + {"requiredName"}

  /** The keys every iOS profile dictionary has: all but `imageInfo`. */
  const ProfileRequiredKeys: set<string> := {
    "accountName", "userAccountId", "companyAccountId", "email", "firstName", "lastName", "requiredName"}

  /** `d` with a profile's seven always-present keys written into it. */
  function WithProfileRequired(d: Dict, p: Profile): Dict
  {
    d["accountName" := JStr(p.accountName)]
      ["userAccountId" := JNum(p.userAccountId)]
      ["companyAccountId" := JNum(p.companyAccountId)]
      ["email" := JStr(p.email)]
      ["firstName" := JStr(p.firstName)]
      ["lastName" := JStr(p.lastName)]
      ["requiredName" := JStr(p.requiredName)]
  }

  function ProfileDict(p: Profile, image: Option<JVal>): Dict
  {
    WithProfileRequired(Assign(map[], "imageInfo", image), p)
  }

  lemma ProfileAccountValues(d: Dict, p: Profile)
    ensures var m := WithProfileRequired(d, p);
      && m["accountName"] == JStr(p.accountName)
      && m["userAccountId"] == JNum(p.userAccountId)
      && m["companyAccountId"] == JNum(p.companyAccountId)
  {
  }

  lemma ProfileNameValues(d: Dict, p: Profile)
    ensures var m := WithProfileRequired(d, p);
      && m["email"] == JStr(p.email)
      && m["firstName"] == JStr(p.firstName)
      && m["lastName"] == JStr(p.lastName)
      && m["requiredName"] == JStr(p.requiredName)
  {
  }

  lemma ProfileRequiredKeysAdded(d: Dict, p: Profile)
    ensures WithProfileRequired(d, p).Keys == d.Keys + ProfileRequiredKeys
  {
  }

  /** Writing the required keys leaves every other key as it was. */
  lemma ProfileRequiredKeeps(d: Dict, p: Profile, k: string)
    requires k !in ProfileRequiredKeys
    ensures var m := WithProfileRequired(d, p);
      && (k in m <==> k in d)
      && (k in d ==> m[k] == d[k])
  {
  }

  /** `imageInfo` is present exactly when there is an image, and reads back. */
  lemma ProfileDictImage(p: Profile)
    ensures var m := ProfileDict(p, ImageInfoAsDictionary(p.imageInfo));
      && ("imageInfo" in m <==> p.imageInfo.Some?)
      && OptionalAt(m, "imageInfo", Projection.ImageInfoOf) == Some(p.imageInfo)
  {
    ProfileRequiredKeeps(Assign(map[], "imageInfo", ImageInfoAsDictionary(p.imageInfo)), p, "imageInfo");
  }

  /** The iOS profile dictionary: unlike Android's, it carries `requiredName`. */
  function ProjectProfile(p: Profile): (r: JVal)
    ensures r.JObj? && r.fields.Keys == (if p.imageInfo.Some? then ProfileKeys else ProfileKeys - {"imageInfo"})
    ensures r.fields["requiredName"] == JStr(p.requiredName)
  {
    var d := Assign(map[], "imageInfo", ImageInfoAsDictionary(p.imageInfo));
    ProfileRequiredKeysAdded(d, p);
    ProfileNameValues(d, p);
    assert ProfileKeys == ProfileRequiredKeys + {"imageInfo"};
    JObj(ProfileDict(p, ImageInfoAsDictionary(p.imageInfo)))
  }

  function ProfileOf(v: JVal): Option<Profile>
  {
    if !v.JObj? then None
    else
      var m := v.fields;
      var accountName :- StrAt(m, "accountName");
      var user :- NumAt(m, "userAccountId");
      var company :- NumAt(m, "companyAccountId");
      var email :- StrAt(m, "email");
      var first :- StrAt(m, "firstName");
      var last :- StrAt(m, "lastName");
      var name :- StrAt(m, "requiredName");
      var image :- OptionalAt(m, "imageInfo", Projection.ImageInfoOf);
      Some(Profile(accountName, user, company, email, first, last, name, image))
  }

  lemma ProfileRoundTrip(p: Profile)
    ensures ProfileOf(ProjectProfile(p)) == Some(p)
  {
    var d := Assign(map[], "imageInfo", ImageInfoAsDictionary(p.imageInfo));
    ProfileRequiredKeysAdded(d, p);
    ProfileAccountValues(d, p);
    ProfileNameValues(d, p);
    ProfileDictImage(p);
  }

  /** `profileAsDictionary`: `nil` for no profile; the whole profile, required name included, otherwise. */
  function ProfileAsDictionary(o: Option<Profile>): (r: Option<JVal>)
    ensures r.None? <==> o.None?
    ensures o.Some? ==> ProfileOf(r.value) == o
  {
    match o
    case None => None
    case Some(p) =>
      ProfileRoundTrip(p);
      Some(ProjectProfile(p))
  }

  /** The two platforms send the same profile fields but for iOS's `requiredName` and absent-versus-null `imageInfo`. */
  lemma ProfilesAgree(p: Profile)
    ensures var ios := ProjectProfile(p).fields;
      var android := Projection.ProjectProfile(p).fields;
      forall k :: k in android && k != "imageInfo" ==> k in ios && ios[k] == android[k]
  {
    var d := Assign(map[], "imageInfo", ImageInfoAsDictionary(p.imageInfo));
    var ios := ProjectProfile(p).fields;
    var android := Projection.ProjectProfile(p).fields;
    ProfileRequiredKeysAdded(d, p);
    ProfileAccountValues(d, p);
    ProfileNameValues(d, p);
    Projection.ProfileMapValues(p, Projection.MapImageInfo(p.imageInfo));
    forall k | k in android && k != "imageInfo"
      ensures k in ios && ios[k] == android[k]
    {
      assert k in ProfileRequiredKeys;
    }
  }

  const CallDetailsKeys: set<string> := Projection.CallDetailsKeys

  function ProjectCallDetails(d: CallDetails): (r: JVal)
    ensures r.JObj? && r.fields.Keys <= CallDetailsKeys
    ensures "timeAnswered" in r.fields <==> d.timeAnswered.Some?
    ensures "timeConnected" in r.fields <==> d.timeConnected.Some?
    ensures CallDetailsOf(r) == Some(d)
  {
    var m := Assign(Assign(map[], "timeAnswered", OptNum(d.timeAnswered)), "timeConnected", OptNum(d.timeConnected))
      ["callId" := JNum(d.callId)]
      ["accountUniqueId" := JNum(d.accountUniqueId)]
      ["duration" := JNum(d.duration)]
      ["timeRequested" := JNum(d.timeRequested)];
    assert OptionalAt(m, "timeAnswered", AsNum) == Some(d.timeAnswered);
    assert OptionalAt(m, "timeConnected", AsNum) == Some(d.timeConnected);
    JObj(m)
  }

  function CallDetailsOf(v: JVal): Option<CallDetails>
  {
    if !v.JObj? then None
    else
      var m := v.fields;
      var callId :- NumAt(m, "callId");
      var account :- NumAt(m, "accountUniqueId");
      var duration :- NumAt(m, "duration");
      var requested :- NumAt(m, "timeRequested");
      var answered :- OptionalAt(m, "timeAnswered", AsNum);
      var connected :- OptionalAt(m, "timeConnected", AsNum);
      Some(CallDetails(callId, account, duration, requested, answered, connected))
  }

  /** `callDetailsAsDictionary`: `nil` for no details. */
  function CallDetailsAsDictionary(o: Option<CallDetails>): (r: Option<JVal>)
    ensures r.None? <==> o.None?
    ensures o.Some? ==> CallDetailsOf(r.value) == o
  {
    match o
    case None => None
    case Some(d) => Some(ProjectCallDetails(d))
  }

  function ProjectChatUser(u: ChatUser): (r: JVal)
    ensures r.JObj? && r.fields.Keys <= Projection.ChatUserKeys
    ensures "imageInfo" in r.fields <==> u.imageInfo.Some?
    ensures ChatUserOf(r) == Some(u)
  {
    var m := Assign(map[], "imageInfo", ImageInfoAsDictionary(u.imageInfo))["id" := JNum(u.id)];
    assert OptionalAt(m, "imageInfo", Projection.ImageInfoOf) == Some(u.imageInfo);
    JObj(m)
  }

  function ChatUserOf(v: JVal): Option<ChatUser>
  {
    if !v.JObj? then None
    else
      var id :- NumAt(v.fields, "id");
      var image :- OptionalAt(v.fields, "imageInfo", Projection.ImageInfoOf);
      Some(ChatUser(id, image))
  }

  /** `chatUserAsDictionary`: `nil` for no user. */
  function ChatUserAsDictionary(o: Option<ChatUser>): (r: Option<JVal>)
    ensures r.None? <==> o.None?
    ensures o.Some? ==> ChatUserOf(r.value) == o
  {
    match o
    case None => None
    case Some(u) => Some(ProjectChatUser(u))
  }

  function ProjectChatMessage(msg: ChatMessage): (r: JVal)
    ensures r.JObj? && r.fields.Keys == Projection.ChatMessageKeys
    ensures ChatMessageOf(r) == Some(msg)
  {
    var m := Assign(map[], "user", ChatUserAsDictionary(Some(msg.user)))
      ["text" := JStr(msg.text)]
      ["sentTime" := JNum(msg.sentTime)];
    JObj(m)
  }

  function ChatMessageOf(v: JVal): Option<ChatMessage>
  {
    if !v.JObj? || "user" !in v.fields then None
    else
      var user :- ChatUserOf(v.fields["user"]);
      var text :- StrAt(v.fields, "text");
      var sent :- NumAt(v.fields, "sentTime");
      Some(ChatMessage(user, text, sent))
  }

  /** `chatMessageAsDictionary`: `nil` for no message. */
  function ChatMessageAsDictionary(o: Option<ChatMessage>): (r: Option<JVal>)
    ensures r.None? <==> o.None?
    ensures o.Some? ==> ChatMessageOf(r.value) == o
  {
    match o
    case None => None
    case Some(msg) => Some(ProjectChatMessage(msg))
  }
}

=== FILE: json.dfy ===
/**
  The values that cross the bridge to the JavaScript host: what React Native's
  `WritableNativeMap`/`WritableNativeArray` hold on Android and what a Swift
  `[String: Any]` holds on iOS. Numbers are integers: every floating-point
  widening of the source is left opaque.
 */
module Json {
  import opened Wrappers

  datatype JVal =
    | JNull
    | JBool(b: bool)
    | JNum(n: int)
    | JStr(s: string)
    | JArr(items: seq<JVal>)
    | JObj(fields: map<string, JVal>)

  type Dict = map<string, JVal>

  /** Android's `x?.let { put(k, f(it)) } ?: putNull(k)`: an absent value becomes an explicit null. */
  function Nullable<T>(o: Option<T>, f: T -> JVal): (r: JVal)
    ensures o.None? ==> r == JNull
    ensures o.Some? ==> r == f(o.value)
  {
    match o
    case None => JNull
    case Some(x) => f(x)
  }

  function NullableNum(o: Option<int>): (r: JVal)
    ensures r.JNull? <==> o.None?
    ensures o.Some? ==> r == JNum(o.value)
  {
    Nullable(o, (n: int) => JNum(n))
  }

  function NullableStr(o: Option<string>): (r: JVal)
    ensures r.JNull? <==> o.None?
    ensures o.Some? ==> r == JStr(o.value)
  {
    Nullable(o, (s: string) => JStr(s))
  }

  /**
    Swift's `dictionary[k] = v` on a `[String: Any]`: assigning `nil` removes
    the key, anything else stores it.
   */
  function Assign(d: Dict, k: string, v: Option<JVal>): (r: Dict)
    ensures v.None? ==> k !in r
    ensures v.Some? ==> k in r && r[k] == v.value
    ensures forall k' :: k' != k ==> (k' in r <==> k' in d)
    ensures forall k' :: k' != k && k' in d ==> r[k'] == d[k']
  {
    match v
    case None => d - {k}
    case Some(x) => d[k := x]
  }

  function AsObj(o: Option<Dict>): (r: Option<JVal>)
    ensures r.None? <==> o.None?
    ensures o.Some? ==> r == Some(JObj(o.value))
  {
    match o
    case None => None
    case Some(d) => Some(JObj(d))
  }

  /** Pushes `f(x)` for every element, in order: a `for` loop over `pushMap`. */
  function MapSeq<T>(xs: seq<T>, f: T -> JVal): (r: seq<JVal>)
    ensures |r| == |xs|
    ensures forall i :: 0 <= i < |xs| ==> r[i] == f(xs[i])
  {
    if xs == [] then [] else [f(xs[0])] + MapSeq(xs[1..], f)
  }

  // Readers used by the decoders that witness that a projection loses nothing.

  function NumAt(m: Dict, k: string): Option<int>
  {
    if k in m && m[k].JNum? then Some(m[k].n) else None
  }

  function BoolAt(m: Dict, k: string): Option<bool>
  {
    if k in m && m[k].JBool? then Some(m[k].b) else None
  }

  function StrAt(m: Dict, k: string): Option<string>
  {
    if k in m && m[k].JStr? then Some(m[k].s) else None
  }

  function ArrAt(m: Dict, k: string): Option<seq<JVal>>
  {
    if k in m && m[k].JArr? then Some(m[k].items) else None
  }

  /** Reads a nullable value: `Some(None)` for an explicit null, `None` when ill-typed. */
  function DecodeNullable<T>(v: JVal, g: JVal -> Option<T>): Option<Option<T>>
  {
    if v.JNull? then Some(None)
    else
      var x :- g(v);
      Some(Some(x))
  }

  /** Reads a nullable field; a missing key is malformed. */
  function NullableAt<T>(m: Dict, k: string, g: JVal -> Option<T>): Option<Option<T>>
  {
    if k !in m then None else DecodeNullable(m[k], g)
  }

  /** Reads a Swift-style optional field: a missing key is `nil`. */
  function OptionalAt<T>(m: Dict, k: string, g: JVal -> Option<T>): Option<Option<T>>
  {
    if k !in m then Some(None)
    else
      var x :- g(m[k]);
      Some(Some(x))
  }

  function AsNum(v: JVal): Option<int>
  {
    if v.JNum? then Some(v.n) else None
  }

  function AsStr(v: JVal): Option<string>
  {
    if v.JStr? then Some(v.s) else None
  }

  function AsBool(v: JVal): Option<bool>
  {
    if v.JBool? then Some(v.b) else None
  }

  /** Decodes every element with `g`, failing if any element fails. */
  function DecodeSeq<T>(vs: seq<JVal>, g: JVal -> Option<T>): (r: Option<seq<T>>)
    ensures r.Some? ==> |r.value| == |vs| && forall i :: 0 <= i < |vs| ==> g(vs[i]) == Some(r.value[i])
    ensures r.None? ==> exists i :: 0 <= i < |vs| && g(vs[i]).None?
  {
    if vs == [] then Some([])
    else
      var x :- g(vs[0]);
      var rest :- DecodeSeq(vs[1..], g);
      Some([x] + rest)
  }

  /** Pushing every element and decoding every element gives the list back, in order. */
  lemma DecodeMapSeq<T>(xs: seq<T>, f: T -> JVal, g: JVal -> Option<T>)
    requires forall x :: x in xs ==> g(f(x)) == Some(x)
    ensures DecodeSeq(MapSeq(xs, f), g) == Some(xs)
  {
    var r := DecodeSeq(MapSeq(xs, f), g);
    if r.Some? {
      assert forall i :: 0 <= i < |xs| ==> Some(r.value[i]) == g(f(xs[i])) == Some(xs[i]);
      assert r.value == xs;
    }
  }
}

=== FILE: projection.dfy ===
/**
  The Android module's `map*` functions: engine entities projected onto the
  fixed-key maps the JavaScript host receives. Every projection writes every
  key, with an explicit null for an absent optional, and each is paired with a
  decoder that recovers the entity from the map, which shows that the
  projection loses nothing the host is meant to see.
 */
module Projection {
  import opened Wrappers
  import opened Json
  import opened Engine

  // ---------------------------------------------------------------------------
  // Enumerations are projected as stable integer codes.

  function ParticipantTypeCode(t: ParticipantType): (r: int)
    ensures 0 <= r <= 3
    ensures ParticipantTypeOfCode(r) == Some(t)
  {
    match t
    case Client => 1
    case Interpreter => 2
    case ThirdParty => 3
    case TypeNone => 0
  }

  /** The host's reading of a participant-type code. */
  function ParticipantTypeOfCode(code: int): (r: Option<ParticipantType>)
    ensures r.Some? <==> 0 <= code <= 3
  {
    if code == 1 then Some(Client)
    else if code == 2 then Some(Interpreter)
    else if code == 3 then Some(ThirdParty)
    else if code == 0 then Some(TypeNone)
    else None
  }

  /** Distinct participant kinds never share a code, and every code in 0..3 is used. */
  lemma ParticipantTypeCodeBijective(a: ParticipantType, b: ParticipantType, code: int)
    ensures ParticipantTypeCode(a) == ParticipantTypeCode(b) ==> a == b
    ensures 0 <= code <= 3 ==> exists t :: ParticipantTypeCode(t) == code
  {
    if 0 <= code <= 3 {
      var t := ParticipantTypeOfCode(code).value;
      assert ParticipantTypeCode(t) == code;
    }
  }

  function StateCode(s: ParticipantState): (r: int)
    ensures 0 <= r <= 4
    ensures StateOfCode(r) == Some(s)
  {
    match s
    case Confirmation => 1
    case Connecting => 2
    case Connected => 3
    case Disconnected => 4
    case StateNone => 0
  }

  /** The host's reading of a participant-state code. */
  function StateOfCode(code: int): (r: Option<ParticipantState>)
    ensures r.Some? <==> 0 <= code <= 4
  {
    if code == 1 then Some(Confirmation)
    else if code == 2 then Some(Connecting)
    else if code == 3 then Some(Connected)
    else if code == 4 then Some(Disconnected)
    else if code == 0 then Some(StateNone)
    else None
  }

  /** Distinct states never share a code, and every code in 0..4 is used. */
  lemma StateCodeBijective(a: ParticipantState, b: ParticipantState, code: int)
    ensures StateCode(a) == StateCode(b) ==> a == b
    ensures 0 <= code <= 4 ==> exists s :: StateCode(s) == code
  {
    if 0 <= code <= 4 {
      var s := StateOfCode(code).value;
      assert StateCode(s) == code;
    }
  }

  // ---------------------------------------------------------------------------
  // Kotlin's `Long.toInt()`: keeps the low 32 bits, as a two's-complement value.

  const TwoTo32: int := 0x1_0000_0000

  predicate IsInt32(x: int)
  {
    -0x8000_0000 <= x < 0x8000_0000
  }

  function ToInt32(x: int): (r: int)
    ensures IsInt32(r)
    ensures (x - r) % TwoTo32 == 0
    ensures IsInt32(x) ==> r == x
  {
    var low := x % TwoTo32;
    if low >= 0x8000_0000 then low - TwoTo32 else low
  }

  // ---------------------------------------------------------------------------
  // ImageInfo

  const ImageInfoKeys: set<string> := {"imageKey", "sizes", "baseUrl", "fileExtension"}

  function ProjectImageInfo(i: ImageInfo): (r: JVal)
    ensures r.JObj? && r.fields.Keys == ImageInfoKeys
    ensures ImageInfoOf(r) == Some(i)
  {
    var sizes := MapSeq(i.sizes, (n: int) => JNum(n));
    DecodeMapSeq(i.sizes, (n: int) => JNum(n), AsNum);
    JObj(map[
      "imageKey" := JStr(i.imageKey),
      "sizes" := JArr(sizes),
      "baseUrl" := JStr(i.baseUrl),
      "fileExtension" := JStr(i.fileExtension)])
  }

  function ImageInfoOf(v: JVal): Option<ImageInfo>
  {
    if !v.JObj? then None
    else
      var m := v.fields;
      var key :- StrAt(m, "imageKey");
      var items :- ArrAt(m, "sizes");
      var sizes :- DecodeSeq(items, AsNum);
      var baseUrl :- StrAt(m, "baseUrl");
      var ext :- StrAt(m, "fileExtension");
      Some(ImageInfo(key, sizes, baseUrl, ext))
  }

  /** `mapImageInfo`: null for no image, otherwise the image's four keys. */
  function MapImageInfo(o: Option<ImageInfo>): (r: JVal)
    ensures r.JNull? <==> o.None?
    ensures DecodeNullable(r, ImageInfoOf) == Some(o)
  {
    Nullable(o, ProjectImageInfo)
  }

  // ---------------------------------------------------------------------------
  // Participant

  const ParticipantKeys: set<string> := {
    "userAccountId", "thirdPartyParticipantId", "identity", "participantType",
    "imageInfo", "requiredName", "rating", "companyName", "state",
    "isAudioEnabled", "isVideoEnabled", "muteActionIsEnabled", "removeActionIsEnabled"}

  /** The keys `mapParticipant` writes, in the order it writes them, given the projected image. */
  function ParticipantMap(p: Participant, image: JVal): Dict
  {
    map[
      "userAccountId" := if p.participantType == ThirdParty then JNull else JNum(p.accountId),
      "thirdPartyParticipantId" := if p.participantType == ThirdParty then JNum(p.accountId) else JNull,
      "identity" := JStr(p.identity),
      "participantType" := JNum(ParticipantTypeCode(p.participantType)),
      "imageInfo" := image,
      "requiredName" := JStr(p.requiredName),
      "rating" := NullableNum(p.rating),
      "companyName" := JStr(p.companyName),
      "state" := JNum(StateCode(p.state)),
      "isAudioEnabled" := JBool(p.isAudioEnabled),
      "isVideoEnabled" := JBool(p.isVideoEnabled),
      "muteActionIsEnabled" := JBool(p.muteActionIsEnabled),
      "removeActionIsEnabled" := JBool(p.removeActionIsEnabled)]
  }

  function ParticipantFields(p: Participant): Dict
  {
    ParticipantMap(p, MapImageInfo(p.imageInfo))
  }

  lemma ParticipantMapKeys(p: Participant, image: JVal)
    ensures ParticipantMap(p, image).Keys == ParticipantKeys
  {
  }

  lemma ParticipantMapValues(p: Participant, image: JVal)
    ensures var m := ParticipantMap(p, image);
      && m["userAccountId"] == (if p.participantType == ThirdParty then JNull else JNum(p.accountId))
      && m["thirdPartyParticipantId"] == (if p.participantType == ThirdParty then JNum(p.accountId) else JNull)
      && m["identity"] == JStr(p.identity)
      && m["participantType"] == JNum(ParticipantTypeCode(p.participantType))
      && m["imageInfo"] == image
      && m["requiredName"] == JStr(p.requiredName)
      && m["rating"] == NullableNum(p.rating)
  {
  }

  lemma ParticipantMapFlags(p: Participant, image: JVal)
    ensures var m := ParticipantMap(p, image);
      && m["companyName"] == JStr(p.companyName)
      && m["state"] == JNum(StateCode(p.state))
      && m["isAudioEnabled"] == JBool(p.isAudioEnabled)
      && m["isVideoEnabled"] == JBool(p.isVideoEnabled)
      && m["muteActionIsEnabled"] == JBool(p.muteActionIsEnabled)
      && m["removeActionIsEnabled"] == JBool(p.removeActionIsEnabled)
  {
  }

  /**
    A participant's snapshot. The account number goes into exactly one of
    `userAccountId` and `thirdPartyParticipantId`, chosen by its kind.
   */
  function ProjectParticipant(p: Participant): (r: JVal)
    ensures r.JObj? && r.fields.Keys == ParticipantKeys
    ensures p.participantType == ThirdParty ==>
      r.fields["userAccountId"] == JNull && r.fields["thirdPartyParticipantId"] == JNum(p.accountId)
    ensures p.participantType != ThirdParty ==>
      r.fields["userAccountId"] == JNum(p.accountId) && r.fields["thirdPartyParticipantId"] == JNull
    ensures r.fields["rating"].JNull? <==> p.rating.None?
  {
    ParticipantMapKeys(p, MapImageInfo(p.imageInfo));
    ParticipantMapValues(p, MapImageInfo(p.imageInfo));
    JObj(ParticipantFields(p))
  }

  /** The decoder reads back any map whose fields hold `p`'s values. */
  lemma ParticipantOfFields(m: Dict, p: Participant)
    requires NumAt(m, "participantType") == Some(ParticipantTypeCode(p.participantType))
    requires NumAt(m, if p.participantType == ThirdParty then "thirdPartyParticipantId" else "userAccountId") == Some(p.accountId)
    requires StrAt(m, "identity") == Some(p.identity)
    requires NullableAt(m, "imageInfo", ImageInfoOf) == Some(p.imageInfo)
    requires StrAt(m, "requiredName") == Some(p.requiredName)
    requires NullableAt(m, "rating", AsNum) == Some(p.rating)
    requires StrAt(m, "companyName") == Some(p.companyName)
    requires NumAt(m, "state") == Some(StateCode(p.state))
    requires BoolAt(m, "isAudioEnabled") == Some(p.isAudioEnabled)
    requires BoolAt(m, "isVideoEnabled") == Some(p.isVideoEnabled)
    requires BoolAt(m, "muteActionIsEnabled") == Some(p.muteActionIsEnabled)
    requires BoolAt(m, "removeActionIsEnabled") == Some(p.removeActionIsEnabled)
    ensures ParticipantOf(JObj(m)) == Some(p)
  {
  }

  /** The readers recover the identifying fields of `mapParticipant`'s map. */
  lemma ParticipantFieldsHead(p: Participant)
    ensures var m := ParticipantFields(p);
      && NumAt(m, "participantType") == Some(ParticipantTypeCode(p.participantType))
      && NumAt(m, if p.participantType == ThirdParty then "thirdPartyParticipantId" else "userAccountId") == Some(p.accountId)
      && StrAt(m, "identity") == Some(p.identity)
      && NullableAt(m, "imageInfo", ImageInfoOf) == Some(p.imageInfo)
      && StrAt(m, "requiredName") == Some(p.requiredName)
      && NullableAt(m, "rating", AsNum) == Some(p.rating)
  {
    ParticipantMapKeys(p, MapImageInfo(p.imageInfo));
    ParticipantMapValues(p, MapImageInfo(p.imageInfo));
  }

  /** The readers recover the state and permission fields of `mapParticipant`'s map. */
  lemma ParticipantFieldsTail(p: Participant)
    ensures var m := ParticipantFields(p);
      && StrAt(m, "companyName") == Some(p.companyName)
      && NumAt(m, "state") == Some(StateCode(p.state))
      && BoolAt(m, "isAudioEnabled") == Some(p.isAudioEnabled)
      && BoolAt(m, "isVideoEnabled") == Some(p.isVideoEnabled)
      && BoolAt(m, "muteActionIsEnabled") == Some(p.muteActionIsEnabled)
      && BoolAt(m, "removeActionIsEnabled") == Some(p.removeActionIsEnabled)
  {
    ParticipantMapKeys(p, MapImageInfo(p.imageInfo));
    ParticipantMapFlags(p, MapImageInfo(p.imageInfo));
  }

  lemma ParticipantRoundTrip(p: Participant)
    ensures ParticipantOf(ProjectParticipant(p)) == Some(p)
  {
    var m := ParticipantFields(p);
    ParticipantFieldsHead(p);
    ParticipantFieldsTail(p);
    ParticipantOfFields(m, p);
  }

  /** Reads a participant snapshot back; the type code decides which id key holds the account. */
  function ParticipantOf(v: JVal): Option<Participant>
  {
    if !v.JObj? then None
    else
      var m := v.fields;
      var typeCode :- NumAt(m, "participantType");
      var kind :- ParticipantTypeOfCode(typeCode);
      var accountId :- NumAt(m, if kind == ThirdParty then "thirdPartyParticipantId" else "userAccountId");
      var identity :- StrAt(m, "identity");
      var image :- NullableAt(m, "imageInfo", ImageInfoOf);
      var requiredName :- StrAt(m, "requiredName");
      var rating :- NullableAt(m, "rating", AsNum);
      var companyName :- StrAt(m, "companyName");
      var stateCode :- NumAt(m, "state");
      var state :- StateOfCode(stateCode);
      var audio :- BoolAt(m, "isAudioEnabled");
      var video :- BoolAt(m, "isVideoEnabled");
      var mute :- BoolAt(m, "muteActionIsEnabled");
      var remove :- BoolAt(m, "removeActionIsEnabled");
      Some(Participant(identity, kind, accountId, image, requiredName, rating, companyName,
                       state, audio, video, mute, remove))
  }

  /** `mapParticipant`: null for no participant. */
  function MapParticipant(o: Option<Participant>): (r: JVal)
    ensures r.JNull? <==> o.None?
    ensures DecodeNullable(r, ParticipantOf) == Some(o)
  {
    match o
    case None => JNull
    case Some(p) =>
      ParticipantRoundTrip(p);
      ProjectParticipant(p)
  }

  /** Exactly one of the two account keys is non-null, and it holds the account number. */
  lemma AccountKeyExclusive(p: Participant)
    ensures var m := ProjectParticipant(p).fields;
      && (m["userAccountId"] == JNull) != (m["thirdPartyParticipantId"] == JNull)
      && (m["thirdPartyParticipantId"] != JNull <==> p.participantType == ThirdParty)
      && (m["userAccountId"] == JNum(p.accountId) || m["thirdPartyParticipantId"] == JNum(p.accountId))
  {
  }

  lemma ParticipantsRoundTrip(ps: seq<Participant>)
    ensures forall p :: p in ps ==> ParticipantOf(ProjectParticipant(p)) == Some(p)
  {
    forall p | p in ps
      ensures ParticipantOf(ProjectParticipant(p)) == Some(p)
    {
      ParticipantRoundTrip(p);
    }
  }

  /** `mapParticipants`: one snapshot per participant, same length, same order. */
  function MapParticipants(ps: seq<Participant>): (r: seq<JVal>)
    ensures |r| == |ps|
    ensures forall i :: 0 <= i < |ps| ==> r[i] == ProjectParticipant(ps[i])
    ensures DecodeSeq(r, ParticipantOf) == Some(ps)
  {
    ParticipantsRoundTrip(ps);
    DecodeMapSeq(ps, ProjectParticipant, ParticipantOf);
    MapSeq(ps, ProjectParticipant)
  }

  // ---------------------------------------------------------------------------
  // Call

  const CallKeys: set<string> := {
    "callId", "currentUserId", "isVideo", "isInProgress", "interlocutorInfo", "isMuted",
    "accessToken", "identity", "participants", "canAddThirdParty", "isVideoEnabled", "roomId"}

  /** The keys `mapCall` writes, in the order it writes them, given the projected participants. */
  function CallMap(c: Call, interlocutor: JVal, participants: seq<JVal>): Dict
  {
    map[
      "callId" := NullableNum(c.callId),
      "currentUserId" := JNum(c.currentUserId),
      "isVideo" := JBool(c.isVideo),
      "isInProgress" := JBool(c.isInProgress),
      "interlocutorInfo" := interlocutor,
      "isMuted" := JBool(c.isMuted),
      "accessToken" := JStr(c.accessToken),
      "identity" := JStr(c.identity),
      "participants" := JArr(participants),
      "canAddThirdParty" := JBool(c.canAddThirdParty),
      "isVideoEnabled" := if c.video.Some? then JBool(c.video.value.isVideoEnabled) else JNull,
      "roomId" := if c.video.Some? then JStr(c.video.value.roomId) else JNull]
  }

  lemma CallMapKeys(c: Call, interlocutor: JVal, participants: seq<JVal>)
    ensures CallMap(c, interlocutor, participants).Keys == CallKeys
  {
  }

  lemma CallMapValues(c: Call, interlocutor: JVal, participants: seq<JVal>)
    ensures var m := CallMap(c, interlocutor, participants);
      && m["callId"] == NullableNum(c.callId)
      && m["currentUserId"] == JNum(c.currentUserId)
      && m["isVideo"] == JBool(c.isVideo)
      && m["isInProgress"] == JBool(c.isInProgress)
      && m["interlocutorInfo"] == interlocutor
      && m["isMuted"] == JBool(c.isMuted)
  {
  }

  lemma CallMapRest(c: Call, interlocutor: JVal, participants: seq<JVal>)
    ensures var m := CallMap(c, interlocutor, participants);
      && m["accessToken"] == JStr(c.accessToken)
      && m["identity"] == JStr(c.identity)
      && m["participants"] == JArr(participants)
      && m["canAddThirdParty"] == JBool(c.canAddThirdParty)
      && m["isVideoEnabled"] == (if c.video.Some? then JBool(c.video.value.isVideoEnabled) else JNull)
      && m["roomId"] == (if c.video.Some? then JStr(c.video.value.roomId) else JNull)
  {
  }

  function CallFields(c: Call): (m: Dict)
    ensures m.Keys == CallKeys
    ensures m["callId"] == NullableNum(c.callId)
    ensures m["interlocutorInfo"] == MapParticipant(c.interlocutorInfo)
    ensures m["participants"] == JArr(MapParticipants(c.participants))
  {
    var interlocutor := MapParticipant(c.interlocutorInfo);
    var participants := MapParticipants(c.participants);
    CallMapKeys(c, interlocutor, participants);
    CallMapValues(c, interlocutor, participants);
    CallMapRest(c, interlocutor, participants);
    CallMap(c, interlocutor, participants)
  }

  /**
    A call's snapshot. Calls that are not video calls carry null
    `isVideoEnabled` and `roomId`, so the key set is the same for both kinds.
   */
  function ProjectCall(c: Call): (r: JVal)
    ensures r.JObj? && r.fields.Keys == CallKeys
    ensures r.fields["callId"].JNull? <==> c.callId.None?
    ensures r.fields["isVideoEnabled"].JNull? <==> c.video.None?
    ensures r.fields["roomId"].JNull? <==> c.video.None?
    ensures c.video.Some? ==> r.fields["isVideoEnabled"] == JBool(c.video.value.isVideoEnabled)
    ensures r.fields["isMuted"] == JBool(c.isMuted)
    ensures r.fields["participants"].JArr?
    ensures |r.fields["participants"].items| == |c.participants|
    ensures forall i :: 0 <= i < |c.participants| ==>
      r.fields["participants"].items[i] == ProjectParticipant(c.participants[i])
  {
    CallMapValues(c, MapParticipant(c.interlocutorInfo), MapParticipants(c.participants));
    CallMapRest(c, MapParticipant(c.interlocutorInfo), MapParticipants(c.participants));
    JObj(CallFields(c))
  }

  /** The decoder reads back any map whose fields hold `c`'s values. */
  lemma CallOfFields(m: Dict, c: Call)
    requires NullableAt(m, "callId", AsNum) == Some(c.callId)
    requires NumAt(m, "currentUserId") == Some(c.currentUserId)
    requires BoolAt(m, "isVideo") == Some(c.isVideo)
    requires BoolAt(m, "isInProgress") == Some(c.isInProgress)
    requires NullableAt(m, "interlocutorInfo", ParticipantOf) == Some(c.interlocutorInfo)
    requires BoolAt(m, "isMuted") == Some(c.isMuted)
    requires StrAt(m, "accessToken") == Some(c.accessToken)
    requires StrAt(m, "identity") == Some(c.identity)
    requires ArrAt(m, "participants").Some?
    requires DecodeSeq(ArrAt(m, "participants").value, ParticipantOf) == Some(c.participants)
    requires BoolAt(m, "canAddThirdParty") == Some(c.canAddThirdParty)
    requires VideoOf(m) == Some(c.video)
    ensures CallOf(JObj(m)) == Some(c)
  {
  }

  /** The readers recover the first six fields of `mapCall`'s map. */
  lemma CallFieldsHead(c: Call)
    ensures var m := CallFields(c);
      && NullableAt(m, "callId", AsNum) == Some(c.callId)
      && NumAt(m, "currentUserId") == Some(c.currentUserId)
      && BoolAt(m, "isVideo") == Some(c.isVideo)
      && BoolAt(m, "isInProgress") == Some(c.isInProgress)
      && NullableAt(m, "interlocutorInfo", ParticipantOf) == Some(c.interlocutorInfo)
      && BoolAt(m, "isMuted") == Some(c.isMuted)
  {
    var interlocutor := MapParticipant(c.interlocutorInfo);
    var participants := MapParticipants(c.participants);
    CallMapKeys(c, interlocutor, participants);
    CallMapValues(c, interlocutor, participants);
  }

  /** The readers recover the remaining fields of `mapCall`'s map. */
  lemma CallFieldsTail(c: Call)
    ensures var m := CallFields(c);
      && StrAt(m, "accessToken") == Some(c.accessToken)
      && StrAt(m, "identity") == Some(c.identity)
      && ArrAt(m, "participants") == Some(MapParticipants(c.participants))
      && BoolAt(m, "canAddThirdParty") == Some(c.canAddThirdParty)
      && VideoOf(m) == Some(c.video)
  {
    var interlocutor := MapParticipant(c.interlocutorInfo);
    var participants := MapParticipants(c.participants);
    CallMapKeys(c, interlocutor, participants);
    CallMapRest(c, interlocutor, participants);
  }

  lemma CallRoundTrip(c: Call)
    ensures CallOf(ProjectCall(c)) == Some(c)
  {
    var m := CallFields(c);
    CallFieldsHead(c);
    CallFieldsTail(c);
    ParticipantsRoundTrip(c.participants);
    CallOfFields(m, c);
  }

  /** Null video fields read as "not a video call"; otherwise both must be present. */
  function VideoOf(m: Dict): Option<Option<VideoFeatures>>
  {
    if "isVideoEnabled" in m && m["isVideoEnabled"].JNull? then
      if "roomId" in m && m["roomId"].JNull? then Some(None) else None
    else
      var enabled :- BoolAt(m, "isVideoEnabled");
      var roomId :- StrAt(m, "roomId");
      Some(Some(VideoFeatures(enabled, roomId)))
  }

  function CallOf(v: JVal): Option<Call>
  {
    if !v.JObj? then None
    else
      var m := v.fields;
      var callId :- NullableAt(m, "callId", AsNum);
      var currentUserId :- NumAt(m, "currentUserId");
      var isVideo :- BoolAt(m, "isVideo");
      var inProgress :- BoolAt(m, "isInProgress");
      var interlocutor :- NullableAt(m, "interlocutorInfo", ParticipantOf);
      var muted :- BoolAt(m, "isMuted");
      var token :- StrAt(m, "accessToken");
      var identity :- StrAt(m, "identity");
      var items :- ArrAt(m, "participants");
      var participants :- DecodeSeq(items, ParticipantOf);
      var canAdd :- BoolAt(m, "canAddThirdParty");
      var video :- VideoOf(m);
      Some(Call(callId, currentUserId, isVideo, inProgress, interlocutor, muted, token, identity,
                participants, canAdd, video))
  }

  /** `mapCall`: null for no call. */
  function MapCall(o: Option<Call>): (r: JVal)
    ensures r.JNull? <==> o.None?
    ensures DecodeNullable(r, CallOf) == Some(o)
  {
    match o
    case None => JNull
    case Some(c) =>
      CallRoundTrip(c);
      ProjectCall(c)
  }

  /** Different calls never project to the same snapshot. */
  lemma MapCallInjective(a: Option<Call>, b: Option<Call>)
    ensures MapCall(a) == MapCall(b) ==> a == b
  {
    assert DecodeNullable(MapCall(a), CallOf) == Some(a);
    assert DecodeNullable(MapCall(b), CallOf) == Some(b);
  }

  // ---------------------------------------------------------------------------
  // Reference data: languages, service types, genders, call dictionaries

  const LanguageKeys: set<string> := {
    "id", "code", "name", "englishName", "nativeName", "localizedName", "enabled",
    "isSignLanguage", "isVideoBackstopStaffed", "vriPolicyOrder", "opiPolicyOrder"}

  function LanguageFields(l: Language): Dict
  {
    map[
      "id" := JNum(l.id),
      "code" := JStr(l.code),
      "name" := JStr(l.name),
      "englishName" := JStr(l.englishName),
      "nativeName" := JStr(l.nativeName),
      "localizedName" := JStr(l.localizedName),
      "enabled" := JBool(l.enabled),
      "isSignLanguage" := JBool(l.isSignLanguage),
      "isVideoBackstopStaffed" := JBool(l.isVideoBackstopStaffed),
      "vriPolicyOrder" := NullableNum(l.vriPolicyOrder),
      "opiPolicyOrder" := NullableNum(l.opiPolicyOrder)]
  }

  lemma LanguageFieldValues(l: Language)
    ensures var m := LanguageFields(l);
      && m.Keys == LanguageKeys
      && m["id"] == JNum(l.id)
      && m["code"] == JStr(l.code)
      && m["name"] == JStr(l.name)
      && m["englishName"] == JStr(l.englishName)
      && m["nativeName"] == JStr(l.nativeName)
      && m["localizedName"] == JStr(l.localizedName)
      && m["enabled"] == JBool(l.enabled)
      && m["isSignLanguage"] == JBool(l.isSignLanguage)
      && m["isVideoBackstopStaffed"] == JBool(l.isVideoBackstopStaffed)
      && m["vriPolicyOrder"] == NullableNum(l.vriPolicyOrder)
      && m["opiPolicyOrder"] == NullableNum(l.opiPolicyOrder)
  {
  }

  /** A language's snapshot: both policy orders are always present, null when absent. */
  function ProjectLanguage(l: Language): (r: JVal)
    ensures r.JObj? && r.fields.Keys == LanguageKeys
    ensures r.fields["vriPolicyOrder"].JNull? <==> l.vriPolicyOrder.None?
    ensures r.fields["opiPolicyOrder"].JNull? <==> l.opiPolicyOrder.None?
  {
    LanguageFieldValues(l);
    JObj(LanguageFields(l))
  }

  function LanguageOf(v: JVal): Option<Language>
  {
    if !v.JObj? then None
    else
      var m := v.fields;
      var id :- NumAt(m, "id");
      var code :- StrAt(m, "code");
      var name :- StrAt(m, "name");
      var englishName :- StrAt(m, "englishName");
      var nativeName :- StrAt(m, "nativeName");
      var localizedName :- StrAt(m, "localizedName");
      var enabled :- BoolAt(m, "enabled");
      var sign :- BoolAt(m, "isSignLanguage");
      var backstop :- BoolAt(m, "isVideoBackstopStaffed");
      var vri :- NullableAt(m, "vriPolicyOrder", AsNum);
      var opi :- NullableAt(m, "opiPolicyOrder", AsNum);
      Some(Language(id, code, name, englishName, nativeName, localizedName, enabled, sign, backstop, vri, opi))
  }

  lemma LanguageRoundTrip(l: Language)
    ensures LanguageOf(ProjectLanguage(l)) == Some(l)
  {
    LanguageFieldValues(l);
    var m := LanguageFields(l);
    assert NullableAt(m, "vriPolicyOrder", AsNum) == Some(l.vriPolicyOrder);
    assert NullableAt(m, "opiPolicyOrder", AsNum) == Some(l.opiPolicyOrder);
  }

  /** `mapLanguage`: null for no language. */
  function MapLanguage(o: Option<Language>): (r: JVal)
    ensures r.JNull? <==> o.None?
    ensures DecodeNullable(r, LanguageOf) == Some(o)
  {
    match o
    case None => JNull
    case Some(l) =>
      LanguageRoundTrip(l);
      ProjectLanguage(l)
  }

  lemma LanguagesRoundTrip(ls: seq<Language>)
    ensures forall l :: l in ls ==> LanguageOf(ProjectLanguage(l)) == Some(l)
  {
    forall l | l in ls
      ensures LanguageOf(ProjectLanguage(l)) == Some(l)
    {
      LanguageRoundTrip(l);
    }
  }

  function LanguagesOf(v: JVal): Option<seq<Language>>
  {
    if v.JArr? then DecodeSeq(v.items, LanguageOf) else None
  }

  /** `mapLanguages`: null for no list, otherwise one snapshot per language in order. */
  function MapLanguages(o: Option<seq<Language>>): (r: JVal)
    ensures r.JNull? <==> o.None?
    ensures o.Some? ==> r.JArr? && |r.items| == |o.value|
    ensures o.Some? ==> forall i :: 0 <= i < |o.value| ==> r.items[i] == ProjectLanguage(o.value[i])
    ensures DecodeNullable(r, LanguagesOf) == Some(o)
  {
    match o
    case None => JNull
    case Some(ls) =>
      LanguagesRoundTrip(ls);
      DecodeMapSeq(ls, ProjectLanguage, LanguageOf);
      JArr(MapSeq(ls, ProjectLanguage))
  }

  const ServiceTypeKeys: set<string> := {"id", "name", "enable"}

  function ProjectServiceType(t: ServiceType): (r: JVal)
    ensures r.JObj? && r.fields.Keys == ServiceTypeKeys
    ensures ServiceTypeOf(r) == Some(t)
  {
    JObj(map["id" := JNum(t.id), "name" := JStr(t.name), "enable" := JBool(t.enable)])
  }

  function ServiceTypeOf(v: JVal): Option<ServiceType>
  {
    if !v.JObj? then None
    else
      var id :- NumAt(v.fields, "id");
      var name :- StrAt(v.fields, "name");
      var enable :- BoolAt(v.fields, "enable");
      Some(ServiceType(id, name, enable))
  }

  /** `mapServiceType`: null for no service type. */
  function MapServiceType(o: Option<ServiceType>): (r: JVal)
    ensures r.JNull? <==> o.None?
    ensures DecodeNullable(r, ServiceTypeOf) == Some(o)
  {
    Nullable(o, ProjectServiceType)
  }

  const GenderKeys: set<string> := {"id", "name"}

  /** A gender's snapshot; its 64-bit id is narrowed to 32 bits by `toInt()`. */
  function ProjectGender(g: Gender): (r: JVal)
    ensures r.JObj? && r.fields.Keys == GenderKeys
    ensures r.fields["id"] == JNum(ToInt32(g.id))
    ensures IsInt32(g.id) ==> GenderOf(r) == Some(g)
  {
    JObj(map["id" := JNum(ToInt32(g.id)), "name" := JStr(g.name)])
  }

  function GenderOf(v: JVal): Option<Gender>
  {
    if !v.JObj? then None
    else
      var id :- NumAt(v.fields, "id");
      var name :- StrAt(v.fields, "name");
      Some(Gender(id, name))
  }

  /** `mapGender`: null for no gender. */
  function MapGender(o: Option<Gender>): (r: JVal)
    ensures r.JNull? <==> o.None?
    ensures o.Some? && IsInt32(o.value.id) ==> DecodeNullable(r, GenderOf) == Some(o)
  {
    Nullable(o, ProjectGender)
  }

  /** Gender ids that agree in their low 32 bits are indistinguishable to the host. */
  lemma GenderIdNarrowing(g: Gender, k: int)
    ensures ProjectGender(g) == ProjectGender(g.(id := g.id + k * TwoTo32))
  {
    var h := g.(id := g.id + k * TwoTo32);
    assert (g.id + k * TwoTo32) % TwoTo32 == g.id % TwoTo32;
  }

  lemma GendersRoundTrip(gs: seq<Gender>)
    ensures (forall g :: g in gs ==> IsInt32(g.id)) ==> DecodeSeq(MapSeq(gs, ProjectGender), GenderOf) == Some(gs)
  {
    if forall g :: g in gs ==> IsInt32(g.id) {
      DecodeMapSeq(gs, ProjectGender, GenderOf);
    }
  }

  const CallDictionariesKeys: set<string> := {"languages", "serviceTypes", "genders"}

  function CallDictionariesMap(languages: seq<JVal>, serviceTypes: seq<JVal>, genders: seq<JVal>): Dict
  {
    map["languages" := JArr(languages), "serviceTypes" := JArr(serviceTypes), "genders" := JArr(genders)]
  }

  /** The three lists of `mapCallDictionaries`, each one snapshot per entry in the engine's order. */
  function ProjectCallDictionaries(d: CallDictionaries): (r: JVal)
    ensures r.JObj? && r.fields.Keys == CallDictionariesKeys
    ensures r.fields["languages"].JArr? && |r.fields["languages"].items| == |d.languages|
    ensures r.fields["serviceTypes"].JArr? && |r.fields["serviceTypes"].items| == |d.serviceTypes|
    ensures r.fields["genders"].JArr? && |r.fields["genders"].items| == |d.genders|
  {
    JObj(CallDictionariesMap(
      MapSeq(d.languages, ProjectLanguage),
      MapSeq(d.serviceTypes, ProjectServiceType),
      MapSeq(d.genders, ProjectGender)))
  }

  /** The dictionaries are recovered in full whenever every gender id fits in 32 bits. */
  lemma CallDictionariesRoundTrip(d: CallDictionaries)
    requires forall g :: g in d.genders ==> IsInt32(g.id)
    ensures CallDictionariesOf(ProjectCallDictionaries(d)) == Some(d)
  {
    var m := ProjectCallDictionaries(d).fields;
    LanguagesRoundTrip(d.languages);
    DecodeMapSeq(d.languages, ProjectLanguage, LanguageOf);
    DecodeMapSeq(d.serviceTypes, ProjectServiceType, ServiceTypeOf);
    GendersRoundTrip(d.genders);
    assert ArrAt(m, "languages") == Some(MapSeq(d.languages, ProjectLanguage));
    assert ArrAt(m, "serviceTypes") == Some(MapSeq(d.serviceTypes, ProjectServiceType));
    assert ArrAt(m, "genders") == Some(MapSeq(d.genders, ProjectGender));
  }

  function CallDictionariesOf(v: JVal): Option<CallDictionaries>
  {
    if !v.JObj? then None
    else
      var ls :- ArrAt(v.fields, "languages");
      var languages :- DecodeSeq(ls, LanguageOf);
      var ts :- ArrAt(v.fields, "serviceTypes");
      var serviceTypes :- DecodeSeq(ts, ServiceTypeOf);
      var gs :- ArrAt(v.fields, "genders");
      var genders :- DecodeSeq(gs, GenderOf);
      Some(CallDictionaries(languages, serviceTypes, genders))
  }

  /** `mapCallDictionaries`: null for no dictionaries. */
  function MapCallDictionaries(o: Option<CallDictionaries>): (r: JVal)
    ensures r.JNull? <==> o.None?
  {
    Nullable(o, ProjectCallDictionaries)
  }

  // ---------------------------------------------------------------------------
  // Profile, call details, chat

  const ProfileKeys: set<string> := {
    "accountName", "userAccountId", "companyAccountId", "email", "firstName", "lastName", "imageInfo"}

  function ProfileMap(p: Profile, image: JVal): Dict
  {
    map[
      "accountName" := JStr(p.accountName),
      "userAccountId" := JNum(p.userAccountId),
      "companyAccountId" := JNum(p.companyAccountId),
      "email" := JStr(p.email),
      "firstName" := JStr(p.firstName),
      "lastName" := JStr(p.lastName),
      "imageInfo" := image]
  }

  lemma ProfileMapValues(p: Profile, image: JVal)
    ensures var m := ProfileMap(p, image);
      && m.Keys == ProfileKeys
      && m["accountName"] == JStr(p.accountName)
      && m["userAccountId"] == JNum(p.userAccountId)
      && m["companyAccountId"] == JNum(p.companyAccountId)
      && m["email"] == JStr(p.email)
      && m["firstName"] == JStr(p.firstName)
      && m["lastName"] == JStr(p.lastName)
      && m["imageInfo"] == image
  {
  }

  /** A profile's snapshot: everything but `requiredName`, which Android does not send. */
  function ProjectProfile(p: Profile): (r: JVal)
    ensures r.JObj? && r.fields.Keys == ProfileKeys
    ensures r.fields["imageInfo"].JNull? <==> p.imageInfo.None?
  {
    ProfileMapValues(p, MapImageInfo(p.imageInfo));
    JObj(ProfileMap(p, MapImageInfo(p.imageInfo)))
  }

  /** Reads a profile back; the required name is not in the snapshot, so it is supplied. */
  function ProfileOf(v: JVal, requiredName: string): Option<Profile>
  {
    if !v.JObj? then None
    else
      var m := v.fields;
      var accountName :- StrAt(m, "accountName");
      var user :- NumAt(m, "userAccountId");
      var company :- NumAt(m, "companyAccountId");
      var email :- StrAt(m, "email");
      var first :- StrAt(m, "firstName");
      var last :- StrAt(m, "lastName");
      var image :- NullableAt(m, "imageInfo", ImageInfoOf);
      Some(Profile(accountName, user, company, email, first, last, requiredName, image))
  }

  lemma ProfileRoundTrip(p: Profile)
    ensures ProfileOf(ProjectProfile(p), p.requiredName) == Some(p)
  {
    ProfileMapValues(p, MapImageInfo(p.imageInfo));
    var m := ProfileMap(p, MapImageInfo(p.imageInfo));
    assert NullableAt(m, "imageInfo", ImageInfoOf) == Some(p.imageInfo);
  }

  /** Android's profile snapshot does not depend on the required name. */
  lemma ProfileOmitsRequiredName(p: Profile, name: string)
    ensures ProjectProfile(p) == ProjectProfile(p.(requiredName := name))
  {
  }

  /** `mapProfile`: null for no profile. */
  function MapProfile(o: Option<Profile>): (r: JVal)
    ensures r.JNull? <==> o.None?
    ensures o.Some? ==> ProfileOf(r, o.value.requiredName) == o
  {
    match o
    case None => JNull
    case Some(p) =>
      ProfileRoundTrip(p);
      ProjectProfile(p)
  }

  const CallDetailsKeys: set<string> := {
    "callId", "accountUniqueId", "duration", "timeRequested", "timeAnswered", "timeConnected"}

  /** Call details: both optional timestamps are always present, null when absent. */
  function ProjectCallDetails(d: CallDetails): (r: JVal)
    ensures r.JObj? && r.fields.Keys == CallDetailsKeys
    ensures r.fields["timeAnswered"].JNull? <==> d.timeAnswered.None?
    ensures r.fields["timeConnected"].JNull? <==> d.timeConnected.None?
    ensures CallDetailsOf(r) == Some(d)
  {
    var m := map[
      "callId" := JNum(d.callId),
      "accountUniqueId" := JNum(d.accountUniqueId),
      "duration" := JNum(d.duration),
      "timeRequested" := JNum(d.timeRequested),
      "timeAnswered" := NullableNum(d.timeAnswered),
      "timeConnected" := NullableNum(d.timeConnected)];
    assert NullableAt(m, "timeAnswered", AsNum) == Some(d.timeAnswered);
    assert NullableAt(m, "timeConnected", AsNum) == Some(d.timeConnected);
    JObj(m)
  }

  function CallDetailsOf(v: JVal): Option<CallDetails>
  {
    if !v.JObj? then None
    else
      var m := v.fields;
      var callId :- NumAt(m, "callId");
      var account :- NumAt(m, "accountUniqueId");
      var duration :- NumAt(m, "duration");
      var requested :- NumAt(m, "timeRequested");
      var answered :- NullableAt(m, "timeAnswered", AsNum);
      var connected :- NullableAt(m, "timeConnected", AsNum);
      Some(CallDetails(callId, account, duration, requested, answered, connected))
  }

  /** `mapCallDetails`: null for no details. */
  function MapCallDetails(o: Option<CallDetails>): (r: JVal)
    ensures r.JNull? <==> o.None?
    ensures DecodeNullable(r, CallDetailsOf) == Some(o)
  {
    Nullable(o, ProjectCallDetails)
  }

  const ChatUserKeys: set<string> := {"id", "imageInfo"}

  function ProjectChatUser(u: ChatUser): (r: JVal)
    ensures r.JObj? && r.fields.Keys == ChatUserKeys
    ensures ChatUserOf(r) == Some(u)
  {
    var m := map["id" := JNum(u.id), "imageInfo" := MapImageInfo(u.imageInfo)];
    assert NullableAt(m, "imageInfo", ImageInfoOf) == Some(u.imageInfo);
    JObj(m)
  }

  function ChatUserOf(v: JVal): Option<ChatUser>
  {
    if !v.JObj? then None
    else
      var id :- NumAt(v.fields, "id");
      var image :- NullableAt(v.fields, "imageInfo", ImageInfoOf);
      Some(ChatUser(id, image))
  }

  /** `mapChatUser`: null for no user. */
  function MapChatUser(o: Option<ChatUser>): (r: JVal)
    ensures r.JNull? <==> o.None?
    ensures DecodeNullable(r, ChatUserOf) == Some(o)
  {
    Nullable(o, ProjectChatUser)
  }

  const ChatMessageKeys: set<string> := {"user", "text", "sentTime"}

  function ProjectChatMessage(msg: ChatMessage): (r: JVal)
    ensures r.JObj? && r.fields.Keys == ChatMessageKeys
    ensures ChatMessageOf(r) == Some(msg)
  {
    var m := map["user" := MapChatUser(Some(msg.user)), "text" := JStr(msg.text), "sentTime" := JNum(msg.sentTime)];
    assert m["user"] == ProjectChatUser(msg.user);
    JObj(m)
  }

  function ChatMessageOf(v: JVal): Option<ChatMessage>
  {
    if !v.JObj? || "user" !in v.fields then None
    else
      var user :- ChatUserOf(v.fields["user"]);
      var text :- StrAt(v.fields, "text");
      var sent :- NumAt(v.fields, "sentTime");
      Some(ChatMessage(user, text, sent))
  }

  /** `mapChatMessage`: null for no message. */
  function MapChatMessage(o: Option<ChatMessage>): (r: JVal)
    ensures r.JNull? <==> o.None?
    ensures DecodeNullable(r, ChatMessageOf) == Some(o)
  {
    Nullable(o, ProjectChatMessage)
  }
}

=== FILE: wrappers.dfy ===
/** Option and Result, usable with `:-` in expressions. */
module Wrappers {

  /** A value that may be absent: Kotlin's `T?` and Swift's `Optional<T>`. */
  datatype Option<+T> = None | Some(value: T) {

    predicate IsFailure() {
      None?
    }

    function PropagateFailure<U>(): Option<U>
      requires None?
    {
      None
    }

    function Extract(): T
      requires Some?
    {
      value
    }
  }

  /** The outcome of a step that either produces a value or raises an error. */
  datatype Result<+R, +E> = Success(value: R) | Failure(error: E) {

    predicate IsFailure() {
      Failure?
    }

    function PropagateFailure<U>(): Result<U, E>
      requires Failure?
    {
      Failure(error)
    }

    function Extract(): R
      requires Success?
    {
      value
    }
  }
}
